=== FILE: README.md ===
# Authorization core of the Laravel auth service, in Dafny

This project models the decision logic of a Laravel authentication and authorization
service and proves properties of it. The service answers one question for other
services: may this token call this endpoint? Around that question sit rule
administration, per-store role hierarchies, service-caller authentication, an OTP
lifecycle and an event outbox. The model covers:

- **Path DSL** (`path_dsl.dfy`, module `PathDsl`): how `AuthRule` compiles a path DSL
  such as `/orders/{id}/**`. The compiled form is a token sequence (literal character,
  one-segment wildcard, any-text wildcard) with a recursive `Matches` predicate in place
  of the PCRE pattern.
- **Rules** (`auth_rules.dfy`, `rule_order.dfy`, `resolver.dfy`): the rule record, its
  saving hook, the listing order, and `AuthorizationResolver::check`. That covers the
  super-role bypass, candidate filtering, route-before-path selection, the no-rule
  default, and the roles, any-permission and all-permission evaluation with token
  abilities.
- **Rule administration** (`rule_management.dfy`, `rule_update_request.dfy`,
  `rule_add_command.dfy`): `AuthRuleManagementService`, the `UpdateAuthRuleRequest`
  after-checks and the `authz:rule:add` console command.
- **Role hierarchy** (`role_graph.dfy`, `store_access.dfy`, `hierarchy_service.dfy`,
  `assignments.dfy`): the cycle-safe lower-role search of `Role`, the store-scoped
  effective roles and permissions of `User`, `RoleHierarchyService` with its request
  checks, and the user/role/store assignment and store services.
- **Callers and tokens** (`service_clients.dfy`, `token_verify.dfy`):
  `ServiceCallerAuthenticator`, `ServiceClient`, `ServiceClientManagementService` and the
  token introspection endpoint.
- **OTP lifecycle** (`otp.dfy`): `Otp` and `AuthService`, as transitions over OTP
  records, accounts and tokens.
- **Events** (`change_set.dfy`, `service_events.dfy`, `event_factory.dfy`, `outbox.dfy`,
  `nats_subjects.dfy`, `correlation_id.dfy`): field change sets and list deltas, which
  events the user and role services record, the CloudEvents 1.0 envelope, the outbox
  publishing job, the JetStream subject guard and the correlation-id middleware.
- **Shared helpers** (`text.dfy`, `collections.dfy`, `wrappers.dfy`): the PHP string
  functions used (`strtoupper`, `trim`, `explode`, `implode`, truthiness),
  order-keeping de-duplication, and `Option`/`Result`.

Database tables are sequences or maps of immutable records, and each unique index is
stated as an invariant. Time is an integer. Hashing, password checking, random values,
UUIDs, ULIDs and date parsing are function parameters.

## Model

| member | source | states |
|---|---|---|
| PathDsl.Compile | app/Models/AuthRule.php:65-123 | A missing, falsy or blank DSL compiles to nothing; any other DSL compiles to an anchored pattern that starts with a literal `/` |
| PathDsl.BlankCompilesToNothing | app/Models/AuthRule.php:67-70 | `null`, `""`, `"0"` and a whitespace-only DSL compile to no pattern |
| PathDsl.CompileAddsLeadingSlash | app/Models/AuthRule.php:72-74 | `orders/{id}` and `/orders/{id}` compile to the same pattern |
| PathDsl.DoubleSlashIgnored | app/Models/AuthRule.php:77-81 | An empty segment between two `/` is dropped: `/a//b` compiles like `/a/b` |
| PathDsl.TrailingSlashIgnored | app/Models/AuthRule.php:77-81 | A trailing `/` is dropped: `/a/b/` compiles like `/a/b` |
| PathDsl.NonEmptySkipsEmpty | app/Models/AuthRule.php:78-80 | Skipping empty segments keeps the same segments wherever an empty one is inserted |
| PathDsl.CompileKeepsNonEmpty | app/Models/AuthRule.php:69-81 | A trimmed DSL of slash-free segments compiles segment by segment over its non-empty segments |
| PathDsl.SameKeptSegments | app/Models/AuthRule.php:77-81 | Two DSLs with the same non-empty segments compile to the same pattern |
| PathDsl.RootPattern | app/Models/AuthRule.php:77-121 | `/` compiles to a pattern that accepts exactly `/` |
| PathDsl.LitsMatchExactly | app/Models/AuthRule.php:121-122 | A literal pattern matches exactly its own text, so matching is anchored at both ends |
| PathDsl.LitsPrefix | app/Models/AuthRule.php:107-122 | A literal prefix followed by a pattern matches exactly the strings that start with that prefix and whose rest matches the pattern |
| PathDsl.EndsWithLits | app/Models/AuthRule.php:121-122 | Every string matched by a pattern ending in literal text ends with that text, so segments after a wildcard stay anchored |
| PathDsl.LiteralSegmentCompiles | app/Models/AuthRule.php:107-116 | A segment without `*`, `{`, `:` compiles to its own characters as literals |
| PathDsl.LiteralPathCompiles | app/Models/AuthRule.php:77-122 | A path of literal segments compiles to its own text as literals |
| PathDsl.LiteralPathMatchesExactly | app/Models/AuthRule.php:107-122 | A path of literal segments matches exactly itself: `/orders` matches neither `/orders/` nor `/orders/5`, and `v1.0` does not match `v1x0` |
| PathDsl.OneSegMatches | app/Models/AuthRule.php:100-116 | The one-segment wildcard matches exactly the non-empty strings without `/` |
| PathDsl.AnyTextMatches | app/Models/AuthRule.php:83-86 | The `**` wildcard matches exactly the strings without a newline, including ones that contain `/` |
| PathDsl.BracedSegment | app/Models/AuthRule.php:100 | A segment from its first `{` to its last `}` becomes one wildcard, so `{a}-{b}` is one wildcard |
| PathDsl.ColonSegment | app/Models/AuthRule.php:101 | A `:name` segment becomes one wildcard |
| PathDsl.PlaceholderCompiles | app/Models/AuthRule.php:104-116 | The internal placeholder survives the colon and star rewrites and becomes exactly one wildcard |
| PathDsl.SegmentwiseCompile | app/Models/AuthRule.php:69-122 | A DSL of non-empty slash-free segments compiles to `/` followed by the compiled segments joined by `/` |
| PathDsl.LiteralPrefixCompiles | app/Models/AuthRule.php:77-122 | Literal segments followed by one last segment compile to the literal prefix, a `/`, and that segment's pattern |
| PathDsl.TrailingDoubleStarMatches | app/Models/AuthRule.php:83-121 | `/p/**` matches exactly the strings that start with `/p/` and have no newline after it, so `/orders` itself is not matched |
| PathDsl.TrailingParameterMatches | app/Models/AuthRule.php:100-121 | `/p/{id}` matches exactly `/p/` followed by a non-empty segment without `/` |
| AuthRules.NormalizeMethod | app/Models/AuthRule.php:44 | A falsy method becomes `ANY`; any other method is upper-cased character by character |
| AuthRules.NormalizeMethodIdempotent | app/Models/AuthRule.php:44 | The normalised method is truthy and normalising it again changes nothing |
| AuthRules.SaveHook | app/Models/AuthRule.php:42-52 | Saving normalises the method; the pattern is present iff the DSL is truthy and not blank, and it is then the DSL's compilation; every other field is kept |
| AuthRules.SaveHookNormalizes | app/Models/AuthRule.php:42-52 | A saved rule is in normal form, and saving a saved rule again changes nothing |
| AuthRules.SavedRuleWithoutDslHasNoPattern | app/Models/AuthRule.php:47-51 | A saved rule whose DSL is falsy has no pattern, whatever pattern was supplied |
| RuleOrder.StrLeTotal | app/Services/V1/AuthRules/AuthRuleManagementService.php:25 | Any two service names are ordered one way or the other |
| RuleOrder.StrLeTransitive | app/Services/V1/AuthRules/AuthRuleManagementService.php:25 | The service-name order is transitive |
| RuleOrder.StrLeAntisymmetric | app/Services/V1/AuthRules/AuthRuleManagementService.php:25 | Service names ordered both ways are equal |
| RuleOrder.RuleLeTotal | app/Services/V1/AuthRules/AuthRuleManagementService.php:25-28 | The listing order relates any two rules |
| RuleOrder.RuleLeTransitive | app/Services/V1/AuthRules/AuthRuleManagementService.php:25-28 | The listing order is transitive |
| RuleOrder.RuleLeAntisymmetric | app/Services/V1/AuthRules/AuthRuleManagementService.php:25-28 | Rules ordered both ways share service, priority and id |
| RuleOrder.SameServiceOrder | app/Services/V1/Auth/AuthorizationResolver.php:35-36 | Within one service the order is priority descending, then id ascending |
| RuleOrder.Insert | app/Services/V1/AuthRules/AuthRuleManagementService.php:25-28 | Inserting into a sorted list keeps it sorted and adds exactly the new rule |
| RuleOrder.Sort | app/Services/V1/AuthRules/AuthRuleManagementService.php:25-28 | Sorting gives a sorted permutation of the rules |
| Resolver.HasAny | app/Services/V1/Auth/AuthorizationResolver.php:94-100 | True iff some needle is in the haystack |
| Resolver.HasAll | app/Services/V1/Auth/AuthorizationResolver.php:102-108 | True iff there is at least one needle and every needle is in the haystack |
| Resolver.CoversAny | app/Services/V1/Auth/AuthorizationResolver.php:110-117 | True iff the abilities are unrestricted (empty or containing `*`) or contain some permission |
| Resolver.CoversAll | app/Services/V1/Auth/AuthorizationResolver.php:119-126 | True iff the abilities are unrestricted or contain every permission |
| Resolver.Filter | app/Services/V1/Auth/AuthorizationResolver.php:31-34 | Keeps exactly the rules with the service, the active flag and the verb or `ANY` |
| Resolver.Candidates | app/Services/V1/Auth/AuthorizationResolver.php:31-37 | The candidates are exactly the eligible rules, all of the service, sorted by priority descending and id ascending |
| Resolver.FilterIgnores | app/Services/V1/Auth/AuthorizationResolver.php:31-34 | Adding an ineligible rule does not change the filtered rules |
| Resolver.FirstWhere | app/Services/V1/Auth/AuthorizationResolver.php:42-58 | Returns the first position satisfying the test, or none when no position does |
| Resolver.Select | app/Services/V1/Auth/AuthorizationResolver.php:41-58 | A selected rule is one of the candidates |
| Resolver.RouteNameTakesPrecedence | app/Services/V1/Auth/AuthorizationResolver.php:42-51 | With a truthy route name that some candidate carries, the first such candidate is selected whatever the path |
| Resolver.PathMatchWhenNoRoute | app/Services/V1/Auth/AuthorizationResolver.php:51-58 | Without a route match, a rule is selected iff some candidate's pattern matches the path, and it is the first such candidate |
| Resolver.Evaluate | app/Services/V1/Auth/AuthorizationResolver.php:66-91 | A rule's verdict authorises iff it is granted by roles, any-permissions or all-permissions |
| Resolver.EvaluateAuthorizedIff | app/Services/V1/Auth/AuthorizationResolver.php:66-91 | A rule authorises iff its roles match, or its any-permissions or all-permissions are held and covered by the token abilities |
| Resolver.EvaluateRequired | app/Services/V1/Auth/AuthorizationResolver.php:66-91 | A denial requires the any-permissions if non-empty, else the all-permissions; each grant reports the list it used |
| Resolver.RolesComeFirst | app/Services/V1/Auth/AuthorizationResolver.php:66-69 | A shared role grants by roles before any permission is examined |
| Resolver.NoRequirementDenies | app/Services/V1/Auth/AuthorizationResolver.php:90-108 | A rule with no requirements always denies |
| Resolver.EvaluateMonotone | app/Services/V1/Auth/AuthorizationResolver.php:66-91 | More roles and permissions never turn an authorisation into a denial |
| Resolver.WildcardAbilityIsUnrestricted | app/Services/V1/Auth/AuthorizationResolver.php:110-126 | Abilities containing `*` decide like an empty ability list |
| Resolver.AbilitiesCanRestrict | app/Services/V1/Auth/AuthorizationResolver.php:71-80 | A held permission is refused when the token's abilities do not cover it |
| Resolver.Check | app/Services/V1/Auth/AuthorizationResolver.php:12-92 | A super-role verdict authorises with no required permissions; a no-rule verdict requires nothing |
| Resolver.SuperRoleBypass | app/Services/V1/Auth/AuthorizationResolver.php:24-28 | A user with a super role is authorised by `super-role` whatever the rules |
| Resolver.NoMatchUsesDefault | app/Services/V1/Auth/AuthorizationResolver.php:42-63 | When no eligible rule carries the route name (or none is given) and none matches the path, the verdict is the configured default (a missing key means deny) with reason `no-rule` |
| Resolver.ShippedConfigAllowsUnmatched | config/authz.php:5 | With the shipped configuration a request that no rule matches, by route name or path, is allowed |
| Resolver.IneligibleRulesIgnored | app/Services/V1/Auth/AuthorizationResolver.php:31-34 | A rule of another service, inactive, or for another verb never changes the verdict |
| RuleManagement.ListOrNull | app/Services/V1/AuthRules/AuthRuleManagementService.php:51-53 | An empty or missing list is stored as null and a non-empty list as itself |
| RuleManagement.CreateRow | app/Services/V1/AuthRules/AuthRuleManagementService.php:43-57 | A new row gets the next id, passes through the saving hook and is appended |
| RuleManagement.CreateRowKeepsValid | app/Services/V1/AuthRules/AuthRuleManagementService.php:43-57 | Appending a row keeps ids unique and rows saved |
| RuleManagement.MethodsOf | app/Services/V1/AuthRules/AuthRuleManagementService.php:33-34 | A scalar method is a one-element list; every method is upper-cased |
| RuleManagement.Template | app/Services/V1/AuthRules/AuthRuleManagementService.php:37-40 | A truthy route name forces the DSL to null; otherwise the route name is null and the DSL kept |
| RuleManagement.CreateEach | app/Services/V1/AuthRules/AuthRuleManagementService.php:43-57 | One row per method is appended and the earlier rows are kept |
| RuleManagement.CreateEachKeepsValid | app/Services/V1/AuthRules/AuthRuleManagementService.php:43-57 | Creating every row keeps the ids unique and below the counter, and every row saved |
| RuleManagement.CreateEachRow | app/Services/V1/AuthRules/AuthRuleManagementService.php:43-57 | The i-th new row is the template with the i-th method and the next id, saved |
| RuleManagement.CreateAll | app/Services/V1/AuthRules/AuthRuleManagementService.php:43-59 | The result rule exists iff some method was listed, and it is the last row created; with no method nothing is created and the result is the null that the return type refuses |
| RuleManagement.CreateRule | app/Services/V1/AuthRules/AuthRuleManagementService.php:31-60 | One row is appended per method, earlier rows are kept, and the last created rule is returned; an empty method list gives the refused null |
| RuleManagement.CreateRuleRows | app/Services/V1/AuthRules/AuthRuleManagementService.php:31-60 | Each created row has its id, service and normalised method; route rules have neither DSL nor pattern; path rules carry the compiled DSL; each of the three lists is the given list, or null when absent or empty; priority defaults to 100 and the active flag to true |
| RuleManagement.RouteRulesNeverPathMatch | app/Services/V1/AuthRules/AuthRuleManagementService.php:37-40 | A rule created with a route name never matches by path |
| RuleManagement.UpdateRule | app/Services/V1/AuthRules/AuthRuleManagementService.php:62-89 | An update keeps the id and leaves the rule saved |
| RuleManagement.UpdateRuleFields | app/Services/V1/AuthRules/AuthRuleManagementService.php:62-89 | Only the fields supplied change; a new DSL is recompiled; an empty requirement list resets that field to null; a route name cannot be cleared |
| RuleManagement.EmptyUpdateIsIdentity | app/Services/V1/AuthRules/AuthRuleManagementService.php:64-70 | An update that supplies nothing leaves a saved rule as it was |
| RuleManagement.ToggleRule | app/Services/V1/AuthRules/AuthRuleManagementService.php:96-100 | Toggling negates the active flag |
| RuleManagement.ToggleRuleOnlyFlips | app/Services/V1/AuthRules/AuthRuleManagementService.php:96-100 | Toggling changes nothing else, and toggling twice restores the rule |
| RuleManagement.KeepService | app/Services/V1/AuthRules/AuthRuleManagementService.php:19-21 | Keeps exactly the rows of the service |
| RuleManagement.ListRules | app/Services/V1/AuthRules/AuthRuleManagementService.php:9-29 | The listing is sorted and holds exactly the rows, narrowed to a truthy service filter |
| RuleManagement.ListingMatchesResolverOrder | app/Services/V1/AuthRules/AuthRuleManagementService.php:25-28 | Within one service the listing follows the resolver's order |
| RuleManagement.TestRule | app/Services/V1/AuthRules/AuthRuleManagementService.php:107-127 | The report says compiled iff a pattern was produced; without one nothing matches; the test path defaults to `/` |
| RuleManagement.TestRuleAgreesWithResolver | app/Services/V1/AuthRules/AuthRuleManagementService.php:107-127 | The tester matches a path iff a saved rule with that DSL path-matches it in the resolver |
| RuleManagement.CreateRuleAsWritten | app/Services/V1/AuthRules/AuthRuleManagementService.php:37-40 | The written service fails exactly for path rules, at its call to an undefined method |
| RuleManagement.PathRuleCreationFailsAsWritten | app/Services/V1/AuthRules/AuthRuleManagementService.php:40 | As written, creating a rule with a truthy DSL and no route name fails |
| RuleManagement.PathRuleCreationCompiles | app/Services/V1/AuthRules/AuthRuleManagementService.php:37-59 | With the intended compiler call, such a rule is created and carries its compiled pattern |
| RuleManagement.UpdateRuleAsWritten | app/Services/V1/AuthRules/AuthRuleManagementService.php:62-89 | The written update fails iff a non-null DSL is supplied, before anything is written; otherwise it is the corrected update |
| RuleManagement.PathUpdateFailsAsWritten | app/Services/V1/AuthRules/AuthRuleManagementService.php:77-79 | A DSL update fails as written, while the corrected update stores the DSL and its compiled pattern |
| RuleManagement.TestRuleAsWritten | app/Services/V1/AuthRules/AuthRuleManagementService.php:107-127 | The written tester fails iff the DSL is truthy, so a report it gives never shows a pattern or a match |
| RuleManagement.LiteralTestFailsAsWritten | app/Services/V1/AuthRules/AuthRuleManagementService.php:110-118 | A literal path tested against itself fails as written and matches when corrected |
| RuleUpdateRequest.Validate | app/Http/Requests/Api/V1/AuthRules/UpdateAuthRuleRequest.php:16-78 | Each error is reported iff its condition holds: no target, both targets, no non-empty requirement list, a method outside the allowed set, a priority outside [1, 1000] |
| RuleUpdateRequest.ValidateEmptyIff | app/Http/Requests/Api/V1/AuthRules/UpdateAuthRuleRequest.php:16-78 | An update passes the modelled rules iff every present text is at most 255 long, the method is allowed, the priority is in [1, 1000], exactly one target is truthy and some requirement list is non-empty |
| RuleUpdateRequest.PartialUpdateWithoutTargetRejected | app/Http/Requests/Api/V1/AuthRules/UpdateAuthRuleRequest.php:51-56 | An update that names neither target is rejected, even though each field is optional |
| RuleUpdateRequest.PathUpdateKeepsRouteName | app/Services/V1/AuthRules/AuthRuleManagementService.php:64-79 | Updating a route rule with a DSL alone keeps its route name and adds a pattern |
| RuleAddCommand.TrimAll | app/Console/Commands/AuthzRuleAdd.php:85 | Trims every item and keeps the order |
| RuleAddCommand.DropEmpty | app/Console/Commands/AuthzRuleAdd.php:86 | Drops exactly the empty items |
| RuleAddCommand.DropEmptySingle | app/Console/Commands/AuthzRuleAdd.php:86 | One item is kept iff it is non-empty |
| RuleAddCommand.DropEmptyAppend | app/Console/Commands/AuthzRuleAdd.php:86 | Dropping distributes over concatenation, so the kept items stay in order |
| RuleAddCommand.Csv | app/Console/Commands/AuthzRuleAdd.php:83-87 | A falsy option gives the empty list; every item is non-empty, trimmed and free of `,` |
| RuleAddCommand.CsvOfJoin | app/Console/Commands/AuthzRuleAdd.php:83-87 | A truthy comma-joined list of comma-free items reads back as the items trimmed, empty ones dropped, in order |
| RuleAddCommand.CsvJoinRoundTrip | app/Console/Commands/AuthzRuleAdd.php:83-87 | Splitting a comma-joined list of clean items gives the items back in order |
| RuleAddCommand.CsvOfZero | app/Console/Commands/AuthzRuleAdd.php:84 | The option `0` is falsy and gives the empty list |
| RuleAddCommand.MethodEntries | app/Console/Commands/AuthzRuleAdd.php:25-28 | One entry per comma piece of the argument, in order, each the piece trimmed and upper-cased |
| RuleAddCommand.MethodEntryIn | app/Console/Commands/AuthzRuleAdd.php:25-28 | A value is an entry iff it is some comma piece trimmed and upper-cased |
| RuleAddCommand.CommandMethods | app/Console/Commands/AuthzRuleAdd.php:25-48 | The methods used are exactly the non-empty trimmed, upper-cased comma pieces |
| RuleAddCommand.SingleMethod | app/Console/Commands/AuthzRuleAdd.php:25-48 | An argument without a comma gives exactly its trimmed, upper-cased self |
| Text.SplitUpper | app/Console/Commands/AuthzRuleAdd.php:25-28 | Upper-casing before `explode` on `,` gives the upper-cased pieces |
| Text.TrimUpper | app/Console/Commands/AuthzRuleAdd.php:28 | `trim` and `strtoupper` commute |
| RuleAddCommand.ParseTarget | app/Console/Commands/AuthzRuleAdd.php:35-37 | A target starting with `route:` is the route name after the prefix; any other target is the DSL |
| RuleAddCommand.ListedTarget | app/Console/Commands/AuthzRuleList.php:30 | A route rule is listed as `route:` followed by its name |
| RuleAddCommand.ListedRouteTargetRoundTrip | app/Console/Commands/AuthzRuleAdd.php:35-36 | A listed route target parses back to the route name |
| RuleAddCommand.ListedPathTargetRoundTrip | app/Console/Commands/AuthzRuleAdd.php:35-37 | A listed path target parses back to the DSL |
| RuleAddCommand.RunAdd | app/Console/Commands/AuthzRuleAdd.php:23-64 | The command fails iff there is neither a route name nor a compiled path; otherwise one row per method is appended |
| RuleAddCommand.BareRoutePrefixFails | app/Console/Commands/AuthzRuleAdd.php:41-44 | The bare target `route:` fails and creates nothing |
| RuleAddCommand.RunAddRows | app/Console/Commands/AuthzRuleAdd.php:46-61 | Each row carries its method (`0` becomes ANY), target and priority; each list is the parsed option, or null when it parses empty; the active flag is the absence of `--inactive` |
| RuleAddCommand.RouteTargetSucceeds | app/Console/Commands/AuthzRuleAdd.php:35-44 | A non-empty route target always succeeds |
| RuleAddCommand.RunAddAsWritten | app/Console/Commands/AuthzRuleAdd.php:39 | The written command succeeds only for route targets, because every path target reaches the undefined method |
| RuleAddCommand.PathTargetFailsAsWritten | app/Console/Commands/AuthzRuleAdd.php:39 | As written, every path target fails |
| RuleAddCommand.PathTargetCompiles | app/Console/Commands/AuthzRuleAdd.php:39-61 | With the intended compiler call, a non-blank path target succeeds and its rows carry the compiled pattern |
| Collections.Dedup | app/Models/Role.php:58-60 | Keeps one copy of each element and nothing else |
| Collections.DedupAfterAppend | app/Models/Role.php:58-60 | An appended value comes out at the end exactly when it was neither seen nor met earlier |
| Collections.DedupAppend | app/Services/V1/Users/UserManagementService.php:169-170 | De-duplicating `xs + [x]` gives the de-duplicated `xs`, then `x` when it is new: first occurrences, in order |
| Collections.DedupOfDistinct | app/Services/V1/Users/UserManagementService.php:169-170 | A list without duplicates is kept as it is |
| Collections.Flatten | app/Models/User.php:164-168 | The elements are exactly those of the inner lists |
| Collections.Without | app/Services/V1/Users/UserManagementService.php:172-173 | Keeps exactly the elements not in the second list and never grows |
| Collections.WithoutSingle | app/Services/V1/Users/UserManagementService.php:172-173 | One element is kept iff it is not in the second list |
| Collections.WithoutAppend | app/Services/V1/Users/UserManagementService.php:172-173 | The difference distributes over concatenation, so survivors keep their order |
| Collections.WithoutNone | app/Services/V1/Roles/RoleManagementService.php:126-127 | Removing nothing keeps the list |
| Collections.WithoutAllIn | app/Services/V1/Users/UserManagementService.php:172-173 | Removing a superset leaves nothing |
| Collections.WithoutKeepsDistinct | app/Services/V1/Users/UserManagementService.php:172-173 | A distinct list stays distinct |
| RoleGraph.ActiveIn | app/Models/Role.php:30-36 | Keeps exactly the active edges of the store |
| RoleGraph.ActiveInAppend | app/Models/Role.php:30-36 | Filtering distributes over appended edge lists |
| RoleGraph.Children | app/Models/Role.php:30-36 | The children of a role are exactly the lower ends of its edges |
| RoleGraph.ReachesTrans | app/Models/Role.php:46-61 | Reachability composes |
| RoleGraph.Walk | app/Models/Role.php:46-61 | The search grows the visited set, returns distinct roles, and expands every newly visited role |
| RoleGraph.WalkAll | app/Models/Role.php:53-58 | Searching from each child in turn visits every child and expands what it visits |
| RoleGraph.WalkSound | app/Models/Role.php:46-61 | Every role found is reachable from the start |
| RoleGraph.WalkComplete | app/Models/Role.php:46-61 | Every reachable role is found when the search starts with nothing visited |
| RoleGraph.WalkExact | app/Models/Role.php:46-61 | Found iff reachable |
| RoleGraph.LowerRoles | app/Models/Role.php:46-61 | The lower roles are distinct and are exactly the roles reachable over the store's active edges |
| RoleGraph.IsHigherThanTransitive | app/Models/Role.php:63-66 | Being higher in a store is transitive |
| RoleGraph.ActiveEdgeIsHigher | app/Models/Role.php:30-66 | An active edge makes its higher role higher than its lower one in its store |
| RoleGraph.SelfBelowOnlyOnCycle | app/Models/Role.php:46-60 | A role is among its own lower roles iff it lies on a cycle |
| RoleGraph.LeafHasNoLowerRoles | app/Models/Role.php:30-61 | A role with no active edge down in the store has no lower roles |
| RoleGraph.IgnoredEdgeKeepsLowerRoles | app/Models/Role.php:30-36 | An inactive edge or another store's edge does not change the lower roles |
| RoleGraph.PermsOfAll | app/Models/Role.php:72-75 | The permissions are exactly those of the listed roles |
| RoleGraph.AllPermissionsForStore | app/Models/Role.php:68-78 | Distinct, and exactly the role's permissions and those of its lower roles in the store |
| StoreAccess.RolesForStore | app/Models/User.php:143-149 | Exactly the roles the user has through an active assignment in the store |
| StoreAccess.RolesForStoreAppend | app/Models/User.php:143-149 | The store's roles distribute over appended assignments |
| StoreAccess.LowerOfAll | app/Models/User.php:164-168 | Exactly the roles some listed role is higher than |
| StoreAccess.LowerOfAllIgnoresEdge | app/Models/Role.php:30-36 | An edge of another store, or an inactive one, does not change them |
| StoreAccess.EffectiveRoles | app/Models/User.php:159-170 | Distinct, and exactly the direct store roles and their lower roles |
| StoreAccess.EffectivePermissions | app/Models/User.php:172-182 | Distinct, and exactly the permissions of the effective roles |
| StoreAccess.HasPermissionInStore | app/Models/User.php:200-203 | True iff some effective permission in the store has the name |
| StoreAccess.AnyNamed | app/Models/User.php:202 | True iff some listed permission has the name |
| StoreAccess.RolePermissions | app/Models/User.php:75-82 | Distinct, and exactly the permissions of the given roles |
| StoreAccess.AllPermissions | app/Models/User.php:124-127 | Exactly the direct permissions and those of the roles |
| StoreAccess.AnyHigher | app/Models/User.php:190-196 | True iff some of the first roles is higher than some of the second |
| StoreAccess.OutranksAny | app/Models/User.php:191-195 | True iff the role is higher than some of the target's roles |
| StoreAccess.CanActOnUserInStore | app/Models/User.php:184-198 | True iff some effective role of the actor is higher than some effective role of the target in the store |
| StoreAccess.DirectEdgeLetsActorAct | app/Models/User.php:184-198 | An active edge between two users' assigned roles lets the higher user act on the lower |
| StoreAccess.FlatStoreNobodyActs | app/Models/User.php:184-198 | In a store without active edges nobody can act on anybody |
| StoreAccess.OtherStoreIsolated | app/Models/User.php:143-170 | An assignment and an edge in another store never change effective roles |
| StoreAccess.OtherStorePermissionsIsolated | app/Models/User.php:143-182 | They never change effective permissions either |
| StoreAccess.CurrentStoreSession | app/Models/User.php:210-216 | The latest session of the user whose expiry is strictly after now, or none when no session qualifies |
| StoreAccess.OpenEndedSessionNeverCurrent | app/Models/User.php:210-216 | A session without expiry is never current, although the session model treats it as never expiring |
| HierarchyService.CreateHierarchy | app/Services/V1/Roles/RoleHierarchyService.php:11-20 | Refused exactly when a role or the store is not a row (the foreign keys) or the triple exists (the unique key); otherwise the edge is appended, active by default, and triples stay unique |
| HierarchyService.RemoveHierarchy | app/Services/V1/Roles/RoleHierarchyService.php:22-28 | Deletes exactly the rows of the triple and reports whether there were any |
| HierarchyService.RemoveUndoesCreate | app/Services/V1/Roles/RoleHierarchyService.php:11-28 | Removing an edge that was just created, whatever its ids, restores the table |
| HierarchyService.SelfEdgeCreatesCycle | app/Services/V1/Roles/RoleHierarchyService.php:11-20 | Creation does not validate, so a self edge on an existing role and store makes that role higher than itself |
| HierarchyService.ValidateHierarchy | app/Services/V1/Roles/RoleHierarchyService.php:83-136 | Each error is reported iff its condition holds; circular iff both roles exist and the lower is already higher than the higher |
| HierarchyService.ValidateEmptyIff | app/Services/V1/Roles/RoleHierarchyService.php:83-123 | No errors iff both roles and the store exist, they differ, the triple is new and no cycle would form |
| HierarchyService.ValidateOrder | app/Services/V1/Roles/RoleHierarchyService.php:85-104 | For every input the errors appear at most once each, in the order of the checks: missing higher, missing lower, missing store, self reference, duplicate, cycle |
| HierarchyService.ValidateLeadingErrors | app/Services/V1/Roles/RoleHierarchyService.php:85-95 | With the higher role, the lower role and the store missing, those three errors lead the list in that order |
| HierarchyService.InactiveDuplicateStillExists | app/Services/V1/Roles/RoleHierarchyService.php:107-110 | An inactive edge still counts as a duplicate but not as a cycle |
| HierarchyService.ChainIsCircular | app/Services/V1/Roles/RoleHierarchyService.php:117-136 | With A over B and B over C, C over A is circular in that store and not in another |
| HierarchyService.RequestErrors | app/Http/Requests/Api/V1/Roles/CreateRoleHierarchyRequest.php:14-42 | The request rejects a self reference, a direct reverse edge and unknown roles or store, each iff its condition |
| HierarchyService.RequestMissesLongCycle | app/Http/Requests/Api/V1/Roles/CreateRoleHierarchyRequest.php:33-40 | A two-step cycle passes the request but the service reports it circular |
| HierarchyService.ChildRoles | app/Services/V1/Roles/RoleHierarchyService.php:68-74 | Exactly the existing children of the role |
| HierarchyService.BuildTree | app/Services/V1/Roles/RoleHierarchyService.php:59-81 | A processed role is re-emitted with no children; an expanded role has one child per existing lower role, in edge order, and so on all the way down; each role is expanded at most once |
| HierarchyService.BuildForest | app/Services/V1/Roles/RoleHierarchyService.php:68-78 | One tree per child, in order, each built the same way, expanding each role at most once across them |
| HierarchyService.Roots | app/Services/V1/Roles/RoleHierarchyService.php:45-47 | Distinct, and exactly the higher roles that are never a lower role |
| HierarchyService.HigherEnds | app/Services/V1/Roles/RoleHierarchyService.php:45 | Exactly the higher ends of the edges |
| HierarchyService.LowerEnds | app/Services/V1/Roles/RoleHierarchyService.php:46 | Exactly the lower ends of the edges |
| HierarchyService.Existing | app/Services/V1/Roles/RoleHierarchyService.php:49-54 | Keeps exactly the roles that exist |
| HierarchyService.HierarchyTree | app/Services/V1/Roles/RoleHierarchyService.php:38-57 | Exactly one tree per existing root of the store's active edges, in root order; below every expanded role hang the trees of its existing lower roles, in edge order; no role is expanded twice |
| HierarchyService.OneEdgeTree | app/Services/V1/Roles/RoleHierarchyService.php:38-81 | A single active edge gives one tree: the higher role with the lower role as its only, childless child |
| HierarchyService.PureCyclesGiveEmptyTree | app/Services/V1/Roles/RoleHierarchyService.php:45-47 | A store whose active edges form only cycles has an empty tree |
| Assignments.Assign | app/Services/V1/Users/UserRoleStoreService.php:12-21 | Refused exactly when the user, role or store is not a row (the foreign keys) or the triple exists (the unique key); otherwise the row, active and without metadata unless given, is appended and triples stay unique |
| Assignments.ReassignFails | database/migrations/2025_08_18_140529_create_stores_user_role_store_role_hierarchy_tables.php:34 | Assigning the same triple again fails |
| Assignments.Remove | app/Services/V1/Users/UserRoleStoreService.php:23-29 | Deletes exactly the matching rows and reports whether there were any |
| Assignments.Find | app/Services/V1/Users/UserRoleStoreService.php:33-36 | The first matching row, or none iff none matches |
| Assignments.Toggle | app/Services/V1/Users/UserRoleStoreService.php:31-44 | Reports whether the triple exists; flips only the active flag of the matching row; without a match nothing changes |
| Assignments.ToggleTwice | app/Services/V1/Users/UserRoleStoreService.php:31-44 | Toggling twice restores the table |
| Assignments.UserAssignments | app/Services/V1/Users/UserRoleStoreService.php:46-56 | Exactly the user's active rows, narrowed to a given store |
| Assignments.StoreAssignments | app/Services/V1/Users/UserRoleStoreService.php:58-68 | Exactly the store's active rows, narrowed to a given role |
| Assignments.EntryRows | app/Services/V1/Users/UserRoleStoreService.php:74-82 | One new row per entry, in order, all for the user |
| Assignments.BulkAssign | app/Services/V1/Users/UserRoleStoreService.php:70-85 | Appends the entries' rows in order; every created entry was accepted against the rows before it, the first refused entry stops the loop, and triples stay unique |
| Assignments.BulkAssignAllNew | app/Services/V1/Users/UserRoleStoreService.php:70-85 | Distinct new entries over existing users, roles and stores are all assigned |
| Assignments.CreateStore | app/Services/V1/Stores/StoreManagementService.php:25-33 | A taken external id or a taken name is refused, the id first; otherwise exactly that store is added, active by default, and the others are kept |
| Assignments.CreateStoreKeepsValid | database/migrations/2025_08_18_140529_create_stores_user_role_store_role_hierarchy_tables.php:11-20 | Creating a store keeps every store under its own id and the names unique |
| Assignments.FillableOf | app/Models/Store.php:15-20 | Mass assignment keeps exactly the fillable attributes |
| Assignments.CreateStoreAsWritten | app/Services/V1/Stores/StoreManagementService.php:25-33 | As written, every creation fails for lack of `store_id` |
| Assignments.StoreCreationFailsAsWritten | app/Services/V1/Stores/StoreManagementService.php:27-32 | The first store of an empty table is refused as written and created when corrected |
| Assignments.UpdateStore | app/Services/V1/Stores/StoreManagementService.php:35-39 | Only truthy values are written, so the name and metadata change only when truthy and the store is active if either value says so |
| Assignments.UpdateNeverDeactivates | app/Services/V1/Stores/StoreManagementService.php:35-39 | An active store stays active, and an `is_active` of false is ignored |
| Assignments.StoreUsers | app/Services/V1/Stores/StoreManagementService.php:46-55 | Exactly the users with an active row in the store, narrowed to a given role |
| Assignments.StoreRoles | app/Services/V1/Stores/StoreManagementService.php:57-66 | Exactly the roles with an active row in the store, narrowed to a given user |
| Assignments.AccessibleStores | app/Services/V1/Stores/StoreManagementService.php:68-71 | Exactly the stores where the user has an active row |
| Assignments.ToggleOffHidesStore | app/Services/V1/Users/UserRoleStoreService.php:31-44 | Switching off a user's only row in a store hides that store from the user |
| ServiceClients.ProvidedToken | app/Services/V1/Auth/ServiceCallerAuthenticator.php:21 | The token is the trimmed text after `Bearer ` |
| ServiceClients.ProvidedTokenRoundTrip | app/Services/V1/Auth/ServiceCallerAuthenticator.php:17-21 | `Bearer ` followed by a trimmed token yields that token |
| ServiceClients.Validate | app/Services/V1/Auth/ServiceCallerAuthenticator.php:12-46 | Each failure is reported iff the earlier checks pass and its own fails, in the order unauthorised, unknown, wrong token, inactive, expired; success counts one use and stamps now |
| ServiceClients.AcceptedAtExpiryInstant | app/Models/ServiceClient.php:19-27 | A client is still accepted at its expiry instant and refused just after |
| ServiceClients.ValidateCountsEachCall | app/Services/V1/Auth/ServiceCallerAuthenticator.php:40-43 | Two successful calls count two uses when each reads the stored record (no cached copy) |
| ServiceClients.ExpiryOf | app/Services/V1/ServiceClients/ServiceClientManagementService.php:28-31 | A truthy date gives its end of day; otherwise there is no expiry |
| ServiceClients.CreateService | app/Services/V1/ServiceClients/ServiceClientManagementService.php:24-45 | A taken name is refused; the stored hash is the hash of the returned token; active unless given false; unused; the expiry is the end of the given day when a truthy date is given, else none |
| ServiceClients.CreatedTokenAuthenticates | app/Services/V1/ServiceClients/ServiceClientManagementService.php:24-45 | The token returned at creation authenticates the new client until its expiry |
| ServiceClients.UpdateService | app/Services/V1/ServiceClients/ServiceClientManagementService.php:47-71 | Only supplied non-null fields change; a supplied expiry becomes the end of that day, or none when falsy; token and usage are kept |
| ServiceClients.UpdateServiceIdempotent | app/Services/V1/ServiceClients/ServiceClientManagementService.php:47-71 | Applying the same update twice is applying it once |
| ServiceClients.EmptyUpdateKeepsClient | app/Services/V1/ServiceClients/ServiceClientManagementService.php:51-67 | An update without fields changes nothing |
| ServiceClients.UpdateNeverClearsNotes | app/Services/V1/ServiceClients/ServiceClientManagementService.php:51-67 | Notes once set can never be cleared |
| ServiceClients.RotateExpiry | app/Http/Requests/Api/V1/ServiceClients/RotateServiceTokenRequest.php:52-60 | `never_expires` replaces the expiry by null; otherwise the given expiry is passed on |
| ServiceClients.RotateToken | app/Services/V1/ServiceClients/ServiceClientManagementService.php:73-91 | Rotation always replaces the hash with that of the new token; a supplied expiry becomes the end of that day, or none when falsy; a null expiry leaves the old one; nothing else changes |
| ServiceClients.NeverExpiresKeepsExpiry | app/Services/V1/ServiceClients/ServiceClientManagementService.php:77-83 | Rotating with `never_expires` keeps the old expiry |
| ServiceClients.RotationReplacesToken | app/Services/V1/ServiceClients/ServiceClientManagementService.php:73-91 | After rotation, once no cached copy of the record is read, the old token is refused and the new one authenticates an active client |
| ServiceClients.ToggleService | app/Services/V1/ServiceClients/ServiceClientManagementService.php:98-102 | Toggling negates the active flag and changes nothing else |
| ServiceClients.ToggleServiceTwice | app/Services/V1/ServiceClients/ServiceClientManagementService.php:98-102 | Toggling twice restores the client |
| TokenVerify.AsArray | app/Http/Controllers/Api/V1/Auth/TokenVerifyController.php:30-32 | Null becomes an empty list, a scalar a one-element list, a list itself |
| TokenVerify.NormalizeContext | app/Http/Controllers/Api/V1/Auth/TokenVerifyController.php:28-33 | The store context has exactly path, query and body, each a list defaulting to empty |
| TokenVerify.NormalizeContextIdempotent | app/Http/Controllers/Api/V1/Auth/TokenVerifyController.php:28-33 | Normalising a normalised context changes nothing |
| TokenVerify.SplitFirst | app/Http/Controllers/Api/V1/Auth/TokenVerifyController.php:40 | The token splits at its first `|` |
| TokenVerify.SplitFirstOf | app/Http/Controllers/Api/V1/Auth/TokenVerifyController.php:40 | An id without `|` is split back out even when the secret contains `|` |
| TokenVerify.VerbOf | app/Http/Controllers/Api/V1/Auth/TokenVerifyController.php:24 | The method is upper-cased and defaults to GET |
| TokenVerify.ScopeRoundTrip | app/Http/Controllers/Api/V1/Auth/TokenVerifyController.php:57-58 | The scope is the abilities joined by single spaces and splits back into them |
| TokenVerify.Verify | app/Http/Controllers/Api/V1/Auth/TokenVerifyController.php:13-97 | The handler with the resolver's three values taken as they come: fails iff the caller fails; the token is active iff it has a record, the right hash, an unexpired time and an owner; the verdict is the resolver's; the store entry is null |
| TokenVerify.VerifyAsWritten | app/Http/Controllers/Api/V1/Auth/TokenVerifyController.php:13-97 | The handler as written: the caller's 401 iff the caller fails; the exception iff the caller passes and the token is live, after the caller's use is recorded; otherwise the same inactive answer as `Verify`; never an active answer |
| TokenVerify.IssuedTokenIsActive | app/Http/Controllers/Api/V1/Auth/TokenVerifyController.php:40-65 | An owned, unexpired token presented with its secret is live; a validated caller gets an active answer for the owner from `Verify` and the exception from the handler as written |
| TokenVerify.TokenWithoutBarInactive | app/Http/Controllers/Api/V1/Auth/TokenVerifyController.php:35-37 | A token without `|` is inactive |
| TokenVerify.StoreContextIgnored | app/Http/Controllers/Api/V1/Auth/TokenVerifyController.php:64-65 | The store context never changes the response |
| OtpLifecycle.Decimal | app/Models/Otp.php:38 | The decimal text of a number is non-empty and all digits |
| OtpLifecycle.DecimalParses | app/Models/Otp.php:38 | Reading the decimal text back gives the number |
| OtpLifecycle.PadLeft | app/Models/Otp.php:38 | Left padding reaches the width with the pad character and keeps the text at the end |
| OtpLifecycle.GenerateOtp | app/Models/Otp.php:36-39 | The code is digits that read back as the draw, so distinct draws give distinct codes, and every draw in [0, 999999] gives exactly 6 of them |
| OtpLifecycle.PaddedDecimal | app/Models/Otp.php:36-39 | Zero padding keeps the value and reaches the width |
| OtpLifecycle.MarkAsUsed | app/Models/Otp.php:41-44 | Marks the code used and changes nothing else |
| OtpLifecycle.DropPending | app/Services/V1/Auth/AuthService.php:54-57 | Deletes exactly the unused codes of the email and kind |
| OtpLifecycle.SendOtp | app/Services/V1/Auth/AuthService.php:51-69 | The unused codes of the email and kind are replaced by one new code that expires ten minutes later |
| OtpLifecycle.SendOtpKeepsSinglePending | app/Services/V1/Auth/AuthService.php:54-66 | At most one unused code per email and kind remains |
| OtpLifecycle.FindCandidate | app/Services/V1/Auth/AuthService.php:73-77 | The first unused code with the email, code and kind, or none iff there is none |
| OtpLifecycle.MarkVerified | app/Services/V1/Auth/AuthService.php:85-89 | Stamps the email's account as verified and changes no other account |
| OtpLifecycle.VerifyOtp | app/Services/V1/Auth/AuthService.php:71-92 | Succeeds iff an unused, unexpired matching code exists; it is then marked used; only a verification code verifies the email; a failure changes nothing |
| OtpLifecycle.VerifyOtpKeepsSinglePending | app/Services/V1/Auth/AuthService.php:71-92 | Verification keeps at most one unused code per email and kind |
| OtpLifecycle.VerifyAtMostOnce | app/Services/V1/Auth/AuthService.php:73-83 | A code that verified once never verifies again |
| OtpLifecycle.SentOtpVerifies | app/Services/V1/Auth/AuthService.php:59-83 | A sent code verifies iff it is used no later than ten minutes after sending |
| OtpLifecycle.Register | app/Services/V1/Auth/AuthService.php:14-28 | A taken email is refused; otherwise an unverified account is added and a verification code sent |
| OtpLifecycle.ResetPassword | app/Services/V1/Auth/AuthService.php:94-105 | The password changes iff a password-reset code verifies; no other account changes |
| OtpLifecycle.Login | app/Services/V1/Auth/AuthService.php:30-49 | Unknown email or wrong password gives invalid credentials; an unverified account is refused; success adds one token |
| OtpLifecycle.RegisterVerifyLogin | app/Services/V1/Auth/AuthService.php:14-92 | A new account cannot log in until its code verifies, and can afterwards |
| OtpLifecycle.RefreshToken | app/Services/V1/Auth/AuthService.php:107-119 | The account's tokens are replaced by the new one alone |
| ChangeSets.Lookup | app/Services/AuthEvents/ModelChangeSet.php:19-20 | A missing key reads as null |
| ChangeSets.FromArrays | app/Services/AuthEvents/ModelChangeSet.php:14-31 | A field appears iff it is allowed and its values differ; each entry carries the old and new values; fields are distinct and in allow-list order |
| ChangeSets.ChangesAfter | app/Services/AuthEvents/ModelChangeSet.php:18-28 | The same over the allowed fields not yet seen |
| ChangeSets.IdenticalNoChange | app/Services/AuthEvents/ModelChangeSet.php:19-23 | Identical rows give no change |
| ChangeSets.ChangesDependOnLookups | app/Services/AuthEvents/ModelChangeSet.php:19-23 | The change set depends only on what each field reads as |
| ChangeSets.NullLikeMissing | app/Services/AuthEvents/ModelChangeSet.php:19-20 | An explicit null and a missing key give the same change set |
| ChangeSets.DiffAddedRemoved | app/Services/V1/Users/UserManagementService.php:167-181 | Both lists are de-duplicated keeping first occurrences; added is what only the new list has and removed what only the old list has, each the `array_diff` of the de-duplicated lists and so in its list's order |
| ChangeSets.DiffReconstructs | app/Services/V1/Users/UserManagementService.php:167-181 | The old set minus removed plus added is the new set |
| ChangeSets.DiffDisjoint | app/Services/V1/Users/UserManagementService.php:167-181 | Added is disjoint from the old list and removed from the new |
| ChangeSets.SameElementsNoDelta | app/Services/V1/Users/UserManagementService.php:167-181 | Lists with the same elements give no delta |
| ChangeSets.DistinctListsKept | app/Services/V1/Users/UserManagementService.php:169-170 | Duplicate-free lists are reported unchanged |
| ServiceEvents.SubjectsDistinguishKinds | app/Services/V1/Users/UserManagementService.php:209-313 | Events with the same subject are of the same kind |
| ServiceEvents.CreateUserEvents | app/Services/V1/Users/UserManagementService.php:209-235 | user.created first, then role.assigned only with roles, then permission.granted only with permissions |
| ServiceEvents.UpdatedUser | app/Services/V1/Users/UserManagementService.php:253-263 | Only the supplied name and email change, and the password only when non-empty, to its hash |
| ServiceEvents.UserChanges | app/Services/V1/Users/UserManagementService.php:298-313 | Each change is of a tracked field and carries its old and new values |
| ServiceEvents.UpdateUserEvents | app/Services/V1/Users/UserManagementService.php:244-317 | role.synced only with roles, permission.synced only with permissions, then user.updated only when a tracked field changed |
| ServiceEvents.UserUpdatedIffNameOrEmailChanged | app/Services/V1/Users/UserManagementService.php:302-313 | user.updated fires iff the name or email changed, and the password never appears |
| ServiceEvents.CreateRole | app/Services/V1/Roles/RoleManagementService.php:46-93 | The guard defaults to `web`; role.created always fires, and the assignment event only for a non-empty permission list |
| ServiceEvents.SyncTarget | app/Services/V1/Roles/RoleManagementService.php:122 | A non-array permissions value counts as the empty list |
| ServiceEvents.SyncedEvent | app/Services/V1/Roles/RoleManagementService.php:122-138 | added is the new list without the old names, removed the old list without the new ones, each in its list's order with repeats kept (`array_diff`); final is the new list |
| ServiceEvents.RoleChanges | app/Services/V1/Roles/RoleManagementService.php:141-146 | Each change is of a role field and carries its old and new values |
| ServiceEvents.UpdateRole | app/Services/V1/Roles/RoleManagementService.php:100-158 | synced fires whenever permissions are present, then role.updated only when a role field changed |
| ServiceEvents.RoleUpdatedIffRenamed | app/Services/V1/Roles/RoleManagementService.php:141-154 | role.updated fires iff the name changed, and records just the name |
| ServiceEvents.UpdateRoleSyncsEvenWithoutChange | app/Services/V1/Roles/RoleManagementService.php:111-138 | synced fires even when nothing was added or removed |
| ServiceEvents.NonArrayPermissionsRemoveAll | app/Services/V1/Roles/RoleManagementService.php:122-127 | A non-array value removes every permission |
| ServiceEvents.DeleteRoleEvents | app/Services/V1/Roles/RoleManagementService.php:172-183 | role.deleted fires only when the deletion succeeded |
| ServiceEvents.SyncRolePermissionsEvents | app/Services/V1/Roles/RoleManagementService.php:245-260 | Exactly one synced event for the role, with source `sync_role_permissions` and the same ordered `array_diff` deltas |
| EventFactory.DefaultMeta | app/Services/AuthEvents/AuthEventFactory.php:18-25 | Six keys; the actor is a user iff the request has one, else a service client; the correlation id is the header or else the fresh UUID; the causation id, actor id, address and agent are the request's, null when absent |
| EventFactory.MergeMeta | app/Services/AuthEvents/AuthEventFactory.php:18-25 | Overrides win key by key and every other default stays |
| EventFactory.Make | app/Services/AuthEvents/AuthEventFactory.php:10-38 | Version `1.0`, source `auth-system`, JSON content; type and subject are the given type; the data is passed through; the meta merges the overrides |
| EventFactory.NoOverridesKeepDefaults | app/Services/AuthEvents/AuthEventFactory.php:18-25 | Without overrides the meta is the default meta |
| EventFactory.OverridesCompose | app/Services/AuthEvents/AuthEventFactory.php:18-25 | Two rounds of overrides are one round of their union, the later winning |
| EventFactory.EventKeepsRejectedCorrelationHeader | app/Services/AuthEvents/AuthEventFactory.php:19 | The event carries the raw header even when the middleware rejected it and echoed a fresh id |
| Outbox.Record | app/Services/AuthEvents/AuthOutboxService.php:9-16 | A new row is unpublished, without error, with no attempts, and its type is its subject |
| Outbox.Handle | app/Jobs/PublishAuthOutboxEventJob.php:21-37 | A published row is left alone; otherwise the attempt is counted first, a failure keeps the count, and a success stamps the row and clears the error |
| Outbox.Failed | app/Jobs/PublishAuthOutboxEventJob.php:39-44 | Records the message as the last error and nothing else |
| Outbox.HandleIdempotent | app/Jobs/PublishAuthOutboxEventJob.php:25-27 | Running the job on a published row changes nothing |
| Outbox.RunAll | app/Jobs/PublishAuthOutboxEventJob.php:21-37 | Retries keep the row's identity and never lower its attempts |
| Outbox.FailingRunsCountAttempts | app/Jobs/PublishAuthOutboxEventJob.php:29-32 | Every failed run counts one attempt and leaves the row unpublished |
| Outbox.FirstSuccessPublishes | app/Jobs/PublishAuthOutboxEventJob.php:29-36 | The first successful run publishes at its time with one attempt per run so far |
| Outbox.PublishedStays | app/Jobs/PublishAuthOutboxEventJob.php:25-27 | Further runs leave a published row unchanged |
| Outbox.DisallowedSubjectNeverPublished | app/Services/Nats/JetStreamPublisher.php:35 | A row whose subject is filtered out is never published, however often the job runs |
| NatsSubjects.MatchesNatsSubject | app/Services/Nats/JetStreamPublisher.php:88-118 | The token scan agrees with the reference meaning of subject patterns |
| NatsSubjects.LiteralPatternMatchesOnlyItself | app/Services/Nats/JetStreamPublisher.php:104-117 | A pattern without wildcards matches exactly the same token list |
| NatsSubjects.TrailingGreaterMatchesPrefixItself | app/Services/Nats/JetStreamPublisher.php:99-102 | A last `>` also matches no remaining tokens, so `auth.v1.>` matches `auth.v1` |
| NatsSubjects.InnerGreaterMatchesNothing | app/Services/Nats/JetStreamPublisher.php:99-102 | A `>` before the last token matches nothing |
| NatsSubjects.StarIsOneToken | app/Services/Nats/JetStreamPublisher.php:108 | `*` stands for exactly one token |
| NatsSubjects.SubjectAllowed | app/Services/Nats/JetStreamPublisher.php:62-81 | No patterns allow everything; otherwise allowed iff some non-empty pattern matches |
| NatsSubjects.EmptyPatternsRejectAll | app/Services/Nats/JetStreamPublisher.php:71-76 | A list of only empty patterns rejects every subject |
| NatsSubjects.AuthRootAllowed | app/Services/Nats/JetStreamPublisher.php:88-118 | `auth.v1.>` allows every subject under `auth.v1.` |
| NatsSubjects.ServiceEventSubjectsAllowed | app/Services/V1/Users/UserManagementService.php:209-313 | Every subject the user and role services record passes the `auth.v1.>` filter |
| NatsSubjects.Publish | app/Services/Nats/JetStreamPublisher.php:29-56 | Disabled first, then a filtered subject, then encoding, stream and acknowledgement failures; published iff all pass |
| NatsSubjects.GuardsPrecedeDelivery | app/Services/Nats/JetStreamPublisher.php:31-41 | The guards' verdict does not depend on the encoder or the server |
| CorrelationIds.Sanitize | app/Http/Middleware/CorrelationIdMiddleware.php:32-43 | Accepted iff truthy and the trimmed value has 8 to 128 characters of `[A-Za-z0-9-_.]`; the result is then the trimmed value |
| CorrelationIds.AcceptableIsTrimmed | app/Http/Middleware/CorrelationIdMiddleware.php:36-40 | An acceptable id is its own trimmed form |
| CorrelationIds.SanitizeIdempotent | app/Http/Middleware/CorrelationIdMiddleware.php:32-43 | Sanitising an accepted value again keeps it |
| CorrelationIds.PaddedIdAccepted | app/Http/Middleware/CorrelationIdMiddleware.php:36-42 | Surrounding whitespace is dropped and the id kept |
| CorrelationIds.Handle | app/Http/Middleware/CorrelationIdMiddleware.php:13-30 | The sanitised id, or else the fresh one, is both the request attribute and the response header |
| CorrelationIds.EchoedIdSurvivesRoundTrip | app/Http/Middleware/CorrelationIdMiddleware.php:13-43 | The echoed id is accepted back unchanged |

## Left out

- Regular expressions: the compiled pattern is a token sequence, not a PCRE string, and the exact `preg_quote` output is not modelled. Paths are assumed to hold no newline, because PCRE `$` also matches before a final newline.
- The internal placeholder `__SEG_WILD__`: a DSL that contains that text literally is compiled as if it had a wildcard there, as the source does; no lemma speaks about such DSLs.
- Store scope modes, per-store authorization, a decision cache and a ruleset version: the rule table has the columns, but `check` never reads them.
- HierarchyService.BuildTree: an expanded node of the source also carries `'permissions' => $role->permissions`, and each node carries the whole role record; the model keeps only the role id, the children and whether the role was expanded, because role permissions are an Eloquent relation.
- Persistence: Eloquent, transactions, pagination, `like` search, and the Redis cache of service clients. Tables are sequences or maps, and lookups are direct queries.
- Crypto, randomness and time: SHA-256, bcrypt, `random_bytes`, `random_int`, UUID, ULID, `now()` and date parsing with `endOfDay` are parameters.
- I/O: mail and the OTP template, the NATS client and JetStream `put`, queue dispatch and retry timing, and `DB::afterCommit`. Retries are a list of job runs.
- Sanctum internals: tokens are a map from id to record, and the owner's role and permission names are data on the record.
- The user-facing fields of the introspection response (`exp`, `iat`, `sub`, `aud`, `iss`, `jti`, `user`): they are plain copies of the record.
- Thin controllers, routes, seeders and the declarative FormRequest rule tables other than the update-rule and role-hierarchy after-checks. Also left out: `CreateAuthRuleRequest`, `LoginRequest`, the rule list/activate/deactivate/delete commands, and the service-client console commands.
- `UserManagementService` methods other than `createUser`, `updateUser` and `diffAddedRemoved`, and `RoleManagementService` assign/remove: they are left out because they only wrap single relation calls.
- `User::getStoresWithRoles`, `getWithRolesPermissionsAndStores` and `ModelChangeSet::fields`: their meaning depends on Eloquent relations and dirty tracking.
- `Otp::isUsed` and `RoleHierarchyService::getStoreHierarchy`: the first is the `used` field itself, and the second is the filter `RoleGraph.ActiveIn` without the eager loads.
- The `(int)` casts on priorities and ids: priorities and ids are integers from the start.
- Byte length in the correlation-id check: lengths are counted in characters. The two agree on every accepted value, since accepted values are ASCII.
- Resolver.Check: its own contract covers only the super-role and no-rule shapes. The route, path and evaluation behaviour is stated by `Resolver.SuperRoleBypass`, `Resolver.RouteNameTakesPrecedence`, `Resolver.PathMatchWhenNoRoute`, `Resolver.NoMatchUsesDefault` and `Resolver.EvaluateAuthorizedIff`.
- Resolver.Select: its own contract states only membership; the selection order is stated by `Resolver.RouteNameTakesPrecedence` and `Resolver.PathMatchWhenNoRoute`.
- RuleManagement.UpdateRule: its own contract keeps only the id and the saved form; the field rules are in `RuleManagement.UpdateRuleFields`.
- RuleManagement.CreateRule: with an empty method list, `createRule` returns null from a method declared to return `AuthRule`, which PHP refuses with a TypeError. The model returns `None` with the table unchanged rather than a separate error value; the same holds for `RuleManagement.CreateAll`.
- ServiceClients.ValidateCountsEachCall: the client record is cached for 60 seconds (ServiceCallerAuthenticator.php:24-31). Two calls inside that window both write the cached use count plus one, so the stored count grows by one, not two. The model reads the table directly, as if the cache were always fresh.
- ServiceClients.RotationReplacesToken: for up to 60 seconds after a rotation, the cached record still holds the old hash. The old token is still accepted and the new one refused until the cache entry expires. The model assumes the cache is fresh.
- Text comparisons: emails, names and service names are compared code point for code point. A case-insensitive database collation, under which `A@x` and `a@x` would be the same user or service, is not modelled.
- The stores' auto-increment key: stores are identified by their external id, the `store_id` column. The numeric primary key that assignment rows point to is not modelled.
- RuleUpdateRequest.ValidateEmptyIff: the `exists:roles,name`, `exists:permissions,name`, `string`, `array`, `integer` and `boolean` rules of the update-rule request are not modelled. Those checks need the roles and permissions tables and PHP's types. The model checks lengths, the method list, the priority range and the after-checks only.

Behaviours of the source that the model keeps as written:

- `RotateServiceTokenRequest` turns `never_expires` into an expiry of null. `rotateServiceToken` then ignores the null and keeps the old expiry, so a rotated token never becomes open-ended (`ServiceClients.NeverExpiresKeepsExpiry`). The request's after-check on `never_expires` together with `expires_at` can never fire for the same reason.
- `AuthEventFactory` reads the raw `X-Correlation-Id` header rather than the id the middleware chose, so an event may carry a header the middleware rejected (`EventFactory.EventKeepsRejectedCorrelationHeader`).
- The introspection endpoint's store context is normalised but never used, so it never changes the answer (`TokenVerify.StoreContextIgnored`).
- `getCurrentStoreSession` requires an expiry strictly after now, so an open-ended session is never current (`StoreAccess.OpenEndedSessionNeverCurrent`).
- A last `>` in a NATS pattern also matches no remaining token, unlike the NATS server convention (`NatsSubjects.TrailingGreaterMatchesPrefixItself`).

## Findings

| source | as written | input that shows it | evidently intended | confidence | as-written member | corrected member |
|---|---|---|---|---|---|---|
| app/Services/V1/AuthRules/AuthRuleManagementService.php:40 | a path rule is compiled with `AuthRule::compilePathDsl`, which does not exist (only `compilePathDslToRegex` at app/Models/AuthRule.php:65) | `createRule` with `path_dsl = "/orders"` and no route name | compile with `compilePathDslToRegex`; the saving hook recomputes the pattern anyway | not executed | RuleManagement.CreateRuleAsWritten | RuleManagement.PathRuleCreationCompiles |
| app/Console/Commands/AuthzRuleAdd.php:39 | the command compiles every non-route target with the same undefined `AuthRule::compilePathDsl` | `authz:rule:add svc GET /orders` | compile with `compilePathDslToRegex` | not executed | RuleAddCommand.RunAddAsWritten | RuleAddCommand.PathTargetCompiles |
| app/Services/V1/Stores/StoreManagementService.php:28 | the external id is passed as `id`, which app/Models/Store.php:15-20 does not list as fillable, so it is dropped; the row then lacks `store_id`, which the migration declares NOT NULL and unique with no default, and the insert fails | `createStore` with `id = "03759-00001"`, `name = "Main"` on an empty table | write the id to `store_id`, refusing a taken id or name | not executed | Assignments.CreateStoreAsWritten | Assignments.CreateStore |
| app/Services/V1/AuthRules/AuthRuleManagementService.php:78 | `updateRule` recompiles a supplied DSL with the undefined `AuthRule::compilePathDsl` | `updateRule` with `path_dsl = "/orders"` | compile with `compilePathDslToRegex` | not executed | RuleManagement.UpdateRuleAsWritten | RuleManagement.UpdateRuleFields |
| app/Services/V1/AuthRules/AuthRuleManagementService.php:111 | `testRule` compiles a truthy DSL with the undefined `AuthRule::compilePathDsl` | `testRule` with `path_dsl = "/orders"`, `test_path = "/orders"` | compile with `compilePathDslToRegex` | not executed | RuleManagement.TestRuleAsWritten | RuleManagement.TestRuleAgreesWithResolver |
| app/Http/Controllers/Api/V1/Auth/TokenVerifyController.php:64-65 | four values are destructured from `check`, which returns three (app/Services/V1/Auth/AuthorizationResolver.php:27-91); reading key 3 raises "Undefined array key 3", which the framework's error handler turns into an exception | a validated caller presenting any live token | take the three values and answer with `store` null | not executed | TokenVerify.VerifyAsWritten | TokenVerify.Verify |

`RuleManagement.PathRuleCreationFailsAsWritten`, `RuleAddCommand.PathTargetFailsAsWritten`, `RuleManagement.PathUpdateFailsAsWritten`, `RuleManagement.LiteralTestFailsAsWritten`, `Assignments.StoreCreationFailsAsWritten` and `TokenVerify.IssuedTokenIsActive` exhibit the failing inputs. The corrected `RuleManagement.CreateRule`, `RuleAddCommand.RunAdd`, `RuleManagement.UpdateRule`, `RuleManagement.TestRule`, `Assignments.CreateStore` and `TokenVerify.Verify` are the definitions the rest of the model uses.


=== FILE: assignments.dfy ===
/**
 * The (user, role, store) assignment relation
 * (app/Services/V1/Users/UserRoleStoreService.php) and the stores themselves
 * (app/Services/V1/Stores/StoreManagementService.php). The assignment table's unique
 * key is the triple (database/migrations/2025_08_18_140529_create_stores_user_role_store_role_hierarchy_tables.php).
 */
module Assignments {
  import opened Wrappers
  import opened Text
  import opened RoleGraph
  import opened StoreAccess

  // ---------------------------------------------------------------------------
  // The relation

  predicate Matches(a: Assignment, u: UserId, r: RoleId, s: StoreId) {
    a.user == u && a.role == r && a.store == s
  }

  predicate HasTriple(table: seq<Assignment>, u: UserId, r: RoleId, s: StoreId) {
    exists a :: a in table && Matches(a, u, r, s)
  }

  /** The unique key: no two rows share (user, role, store). */
  predicate UniqueTriples(table: seq<Assignment>) {
    forall i, j :: 0 <= i < j < |table| ==> !Matches(table[j], table[i].user, table[i].role, table[i].store)
  }

  datatype AssignInput = AssignInput(user: UserId, role: RoleId, store: StoreId, metadata: Option<Metadata>, isActive: Option<bool>)

  /** The row an assignment creates: active and without metadata unless given. */
  function NewRow(input: AssignInput): Assignment {
    Assignment(input.user, input.role, input.store, input.isActive.GetOr(true), input.metadata)
  }

  /** The rows of the users, roles and stores tables, by primary key. */
  datatype Keys = Keys(users: set<UserId>, roles: set<RoleId>, stores: set<StoreId>)

  /**
   * The database refuses a row for (u, r, s) when one of its foreign keys names no row
   * or when the triple is already present (the unique key).
   */
  predicate Refused(keys: Keys, table: seq<Assignment>, u: UserId, r: RoleId, s: StoreId) {
    u !in keys.users || r !in keys.roles || s !in keys.stores || HasTriple(table, u, r, s)
  }

  /**
   * assignUserRoleStore: appends the row; the database refuses (`None`) a user, role or
   * store id that is not a row, and an existing triple.
   */
  function Assign(keys: Keys, table: seq<Assignment>, input: AssignInput): (r: Option<seq<Assignment>>)
    ensures r.None? <==> Refused(keys, table, input.user, input.role, input.store)
    ensures r.Some? ==> r.value == table + [NewRow(input)]
    ensures r.Some? && UniqueTriples(table) ==> UniqueTriples(r.value)
  {
    if Refused(keys, table, input.user, input.role, input.store) then None
    else
      var t := table + [NewRow(input)];
      assert forall i :: 0 <= i < |table| ==> t[i] == table[i] && t[i] in table;
      Some(t)
  }

  /** Assigning the same triple twice fails the second time, whatever the other fields. */
  lemma ReassignFails(keys: Keys, table: seq<Assignment>, input: AssignInput, again: AssignInput)
    requires Assign(keys, table, input).Some?
    requires again.user == input.user && again.role == input.role && again.store == input.store
    ensures Assign(keys, Assign(keys, table, input).value, again).None?
  {
    var t := Assign(keys, table, input).value;
    assert t[|table|] in t;
  }

  /** removeUserRoleStore: deletes the triple's rows and reports whether any existed. */
  function Remove(table: seq<Assignment>, u: UserId, r: RoleId, s: StoreId): (res: (seq<Assignment>, bool))
    ensures forall a :: a in res.0 <==> a in table && !Matches(a, u, r, s)
    ensures res.1 <==> HasTriple(table, u, r, s)
  {
    if |table| == 0 then ([], false)
    else
      var rest := Remove(table[1..], u, r, s);
      assert forall a :: a in table <==> a == table[0] || a in table[1..];
      if Matches(table[0], u, r, s) then (rest.0, true) else ([table[0]] + rest.0, rest.1)
  }

  /** The position of the first row of the triple (`->first()`), if any. */
  function Find(table: seq<Assignment>, u: UserId, r: RoleId, s: StoreId): (k: Option<nat>)
    ensures k.None? <==> !HasTriple(table, u, r, s)
    ensures k.Some? ==> k.value < |table| && Matches(table[k.value], u, r, s)
    ensures k.Some? ==> forall j :: 0 <= j < k.value ==> !Matches(table[j], u, r, s)
  {
    if |table| == 0 then None
    else if Matches(table[0], u, r, s) then Some(0)
    else
      var k := Find(table[1..], u, r, s);
      assert forall a :: a in table <==> a == table[0] || a in table[1..];
      if k.None? then None else Some(k.value + 1)
  }

  /**
   * toggleUserRoleStore: flips the active flag of the triple's row and returns true;
   * without such a row returns false and changes nothing.
   */
  function Toggle(table: seq<Assignment>, u: UserId, r: RoleId, s: StoreId): (res: (seq<Assignment>, bool))
    ensures res.1 <==> HasTriple(table, u, r, s)
    ensures !res.1 ==> res.0 == table
    ensures |res.0| == |table|
    ensures forall i :: 0 <= i < |table| ==> res.0[i].(isActive := table[i].isActive) == table[i]
    ensures forall i :: 0 <= i < |table| && !Matches(table[i], u, r, s) ==> res.0[i] == table[i]
  {
    match Find(table, u, r, s)
    case None => (table, false)
    case Some(k) => (table[k := table[k].(isActive := !table[k].isActive)], true)
  }

  /** Toggling twice restores the table. */
  lemma ToggleTwice(table: seq<Assignment>, u: UserId, r: RoleId, s: StoreId)
    ensures Toggle(Toggle(table, u, r, s).0, u, r, s).0 == table
  {
    var k := Find(table, u, r, s);
    if k.Some? {
      var t := Toggle(table, u, r, s).0;
      var k2 := Find(t, u, r, s);
      assert Matches(t[k.value], u, r, s);
      assert k2 == k;
    }
  }

  // ---------------------------------------------------------------------------
  // Queries

  /**
   * getUserRoleStoreAssignments: the user's active rows, narrowed to the store when a
   * truthy store id is given.
   */
  function UserAssignments(table: seq<Assignment>, u: UserId, store: Option<StoreId>): (r: seq<Assignment>)
    ensures forall a :: a in r <==> a in table && a.user == u && a.isActive && (TruthyOpt(store) ==> a.store == store.value)
  {
    if |table| == 0 then []
    else
      var a := table[0];
      var rest := UserAssignments(table[1..], u, store);
      assert forall b :: b in table <==> b == a || b in table[1..];
      if a.user == u && a.isActive && (TruthyOpt(store) ==> a.store == store.value) then [a] + rest else rest
  }

  /** A role id narrows a query only when it is truthy (not 0). */
  predicate Narrows(id: Option<nat>) {
    id.Some? && id.value != 0
  }

  /**
   * getStoreRoleAssignments: the store's active rows, narrowed to the role when a
   * truthy role id is given.
   */
  function StoreAssignments(table: seq<Assignment>, s: StoreId, role: Option<RoleId>): (r: seq<Assignment>)
    ensures forall a :: a in r <==> a in table && a.store == s && a.isActive && (Narrows(role) ==> a.role == role.value)
  {
    if |table| == 0 then []
    else
      var a := table[0];
      var rest := StoreAssignments(table[1..], s, role);
      assert forall b :: b in table <==> b == a || b in table[1..];
      if a.store == s && a.isActive && (Narrows(role) ==> a.role == role.value) then [a] + rest else rest
  }

  /** A bulk entry: role, store and the optional fields. */
  datatype BulkEntry = BulkEntry(role: RoleId, store: StoreId, metadata: Option<Metadata>, isActive: Option<bool>)

  function EntryInput(u: UserId, e: BulkEntry): AssignInput {
    AssignInput(u, e.role, e.store, e.metadata, e.isActive)
  }

  function EntryRows(u: UserId, entries: seq<BulkEntry>): (r: seq<Assignment>)
    ensures |r| == |entries|
    ensures forall i :: 0 <= i < |r| ==> r[i] == NewRow(EntryInput(u, entries[i]))
  {
    if |entries| == 0 then [] else [NewRow(EntryInput(u, entries[0]))] + EntryRows(u, entries[1..])
  }

  lemma EntryRowsPrefix(u: UserId, entries: seq<BulkEntry>, n: nat)
    requires n < |entries|
    ensures EntryRows(u, entries[..n + 1]) == [NewRow(EntryInput(u, entries[0]))] + EntryRows(u, entries[1..][..n])
  {
    assert entries[..n + 1][1..] == entries[1..][..n];
  }

  /** One created entry followed by `n` more: the rows line up with the first `n + 1` entries. */
  lemma BulkStep(table: seq<Assignment>, u: UserId, entries: seq<BulkEntry>, after: seq<Assignment>, n: nat)
    requires n < |entries|
    requires after == table + [NewRow(EntryInput(u, entries[0]))] + EntryRows(u, entries[1..][..n])
    ensures after == table + EntryRows(u, entries[..n + 1])
  {
    EntryRowsPrefix(u, entries, n);
  }

  /**
   * The entries before a created one stay accepted once the first entry's row is put in
   * front of the tables they were checked against.
   */
  lemma BulkAcceptedPrefix(keys: Keys, table: seq<Assignment>, u: UserId, entries: seq<BulkEntry>, n: nat)
    requires n < |entries|
    requires !Refused(keys, table, u, entries[0].role, entries[0].store)
    requires var t := table + [NewRow(EntryInput(u, entries[0]))];
      forall i :: 0 <= i < n ==> !Refused(keys, t + EntryRows(u, entries[1..][..i]), u, entries[1..][i].role, entries[1..][i].store)
    ensures forall i :: 0 <= i < n + 1 ==> !Refused(keys, table + EntryRows(u, entries[..i]), u, entries[i].role, entries[i].store)
  {
    var t := table + [NewRow(EntryInput(u, entries[0]))];
    forall i | 0 <= i < n + 1
      ensures !Refused(keys, table + EntryRows(u, entries[..i]), u, entries[i].role, entries[i].store)
    {
      if i == 0 {
        assert table + EntryRows(u, entries[..0]) == table;
      } else {
        EntryRowsPrefix(u, entries, i - 1);
        assert table + EntryRows(u, entries[..i]) == t + EntryRows(u, entries[1..][..i - 1]);
        assert entries[i] == entries[1..][i - 1];
      }
    }
  }

  /**
   * bulkAssignUserRoleStore: one assignment per entry, in order, all for the same
   * user. There is no transaction: the first entry the database refuses stops the
   * loop, and the rows created before it stay. The result is the table and how many
   * entries were created; every created entry was accepted against the rows before it.
   */
  function BulkAssign(keys: Keys, table: seq<Assignment>, u: UserId, entries: seq<BulkEntry>): (r: (seq<Assignment>, nat))
    ensures r.1 <= |entries|
    ensures r.0 == table + EntryRows(u, entries[..r.1])
    ensures forall i :: 0 <= i < r.1 ==> !Refused(keys, table + EntryRows(u, entries[..i]), u, entries[i].role, entries[i].store)
    ensures r.1 < |entries| ==> Refused(keys, r.0, u, entries[r.1].role, entries[r.1].store)
    ensures UniqueTriples(table) ==> UniqueTriples(r.0)
    decreases |entries|
  {
    if |entries| == 0 then (table, 0)
    else
      match Assign(keys, table, EntryInput(u, entries[0]))
      case None => (table, 0)
      case Some(t) =>
        var rest := BulkAssign(keys, t, u, entries[1..]);
        var n := rest.1;
        BulkStep(table, u, entries, rest.0, n);
        BulkAcceptedPrefix(keys, table, u, entries, n);
        assert n + 1 < |entries| ==> entries[n + 1] == entries[1..][n];
        (rest.0, n + 1)
  }

  /** Entries with distinct, new triples over existing rows are all created. */
  lemma BulkAssignAllNew(keys: Keys, table: seq<Assignment>, u: UserId, entries: seq<BulkEntry>)
    requires u in keys.users
    requires forall i :: 0 <= i < |entries| ==> entries[i].role in keys.roles && entries[i].store in keys.stores
    requires forall i :: 0 <= i < |entries| ==> !HasTriple(table, u, entries[i].role, entries[i].store)
    requires forall i, j :: 0 <= i < j < |entries| ==> (entries[i].role, entries[i].store) != (entries[j].role, entries[j].store)
    ensures BulkAssign(keys, table, u, entries).1 == |entries|
    decreases |entries|
  {
    if |entries| > 0 {
      var t := table + [NewRow(EntryInput(u, entries[0]))];
      forall i | 0 <= i < |entries[1..]| ensures !HasTriple(t, u, entries[1..][i].role, entries[1..][i].store) {
        assert entries[1..][i] == entries[i + 1];
      }
      BulkAssignAllNew(keys, t, u, entries[1..]);
    }
  }

  // ---------------------------------------------------------------------------
  // Stores

  datatype Store = Store(id: StoreId, name: string, metadata: Option<Metadata>, isActive: bool)

  datatype StoreInput = StoreInput(id: StoreId, name: string, metadata: Option<Metadata>, isActive: Option<bool>)

  /** Why the insert of a store row fails: one of the table's constraints is violated. */
  datatype StoreError = StoreIdTaken | NameTaken | StoreIdMissing

  /** Some store already has the name; `name` is a unique column. */
  predicate HasName(stores: map<StoreId, Store>, name: string) {
    exists k :: k in stores && stores[k].name == name
  }

  /** The store table's constraints: every store under its own id, and names unique. */
  predicate ValidStores(stores: map<StoreId, Store>) {
    && (forall k :: k in stores ==> stores[k].id == k)
    && (forall k1, k2 :: k1 in stores && k2 in stores && k1 != k2 ==> stores[k1].name != stores[k2].name)
  }

  /** The store as created: active and without metadata unless given. */
  function NewStore(input: StoreInput): Store {
    Store(input.id, input.name, input.metadata, input.isActive.GetOr(true))
  }

  /**
   * createStore with the given id written to the unique `store_id` column: a taken
   * external id or a taken name violates a unique index and nothing is written;
   * otherwise the store is added and the others are kept.
   */
  function CreateStore(stores: map<StoreId, Store>, input: StoreInput): (r: Result<map<StoreId, Store>, StoreError>)
    ensures r.Failure? <==> input.id in stores || HasName(stores, input.name)
    ensures r.Failure? ==> r.error == (if input.id in stores then StoreIdTaken else NameTaken)
    ensures r.Success? ==> r.value.Keys == stores.Keys + {input.id}
    ensures r.Success? ==> r.value[input.id] == Store(input.id, input.name, input.metadata, input.isActive.GetOr(true))
    ensures r.Success? ==> forall k :: k in stores ==> r.value[k] == stores[k]
  {
    if input.id in stores then Failure(StoreIdTaken)
    else if HasName(stores, input.name) then Failure(NameTaken)
    else Success(stores[input.id := NewStore(input)])
  }

  /** Creating a store keeps the table's constraints. */
  lemma CreateStoreKeepsValid(stores: map<StoreId, Store>, input: StoreInput)
    requires ValidStores(stores)
    ensures CreateStore(stores, input).Success? ==> ValidStores(CreateStore(stores, input).value)
  {
    if CreateStore(stores, input).Success? {
      var t := CreateStore(stores, input).value;
      forall k1, k2 | k1 in t && k2 in t && k1 != k2 ensures t[k1].name != t[k2].name {
        if k1 == input.id {
          assert k2 in stores && stores[k2].name != input.name;
        } else if k2 == input.id {
          assert k1 in stores && stores[k1].name != input.name;
        }
      }
    }
  }

  /** The columns `Store::create` accepts: `$fillable` in app/Models/Store.php. */
  const StoreFillable: seq<string> := ["store_id", "name", "metadata", "is_active"]

  /** The attribute names createStore passes. */
  const CreateStoreAttributes: seq<string> := ["id", "name", "metadata", "is_active"]

  /** Mass assignment keeps only the fillable attributes, in order. */
  function FillableOf(given: seq<string>): (r: seq<string>)
    ensures forall c :: c in r <==> c in given && c in StoreFillable
  {
    if |given| == 0 then []
    else
      var rest := FillableOf(given[1..]);
      assert forall c :: c in given <==> c == given[0] || c in given[1..];
      if given[0] in StoreFillable then [given[0]] + rest else rest
  }

  /**
   * createStore as written: `id` is not fillable and is dropped, so the insert lacks
   * the NOT NULL `store_id`, which has no default, and fails for every input.
   */
  function CreateStoreAsWritten(stores: map<StoreId, Store>, input: StoreInput): (r: Result<map<StoreId, Store>, StoreError>)
    ensures r == Failure(StoreIdMissing)
  {
    if "store_id" in FillableOf(CreateStoreAttributes) then CreateStore(stores, input)
    else Failure(StoreIdMissing)
  }

  /** The first store of an empty table is refused as written and created by `CreateStore`. */
  lemma StoreCreationFailsAsWritten()
    ensures var input := StoreInput("03759-00001", "Main", None, None);
            CreateStoreAsWritten(map[], input).Failure? && CreateStore(map[], input).Success?
  {
  }

  /** The fields an update may carry; `None` is an absent key. */
  datatype StoreUpdate = StoreUpdate(name: Option<string>, metadata: Option<Option<Metadata>>, isActive: Option<bool>)

  /** PHP truthiness of a metadata value: null and the empty object are falsy. */
  predicate TruthyMeta(m: Option<Metadata>) {
    m.Some? && |m.value| > 0
  }

  /**
   * updateStore: `array_filter` first drops every falsy value (an empty name, "0",
   * null or empty metadata, `false`), then the rest is written.
   */
  function UpdateStore(st: Store, u: StoreUpdate): (r: Store)
    ensures r.id == st.id
    ensures r.name == (if TruthyOpt(u.name) then u.name.value else st.name)
    ensures r.metadata == (if u.metadata.Some? && TruthyMeta(u.metadata.value) then u.metadata.value else st.metadata)
    ensures r.isActive == (u.isActive == Some(true) || st.isActive)
  {
    st.(name := if TruthyOpt(u.name) then u.name.value else st.name,
        metadata := if u.metadata.Some? && TruthyMeta(u.metadata.value) then u.metadata.value else st.metadata,
        isActive := if u.isActive == Some(true) then true else st.isActive)
  }

  /** An update can activate a store but never deactivate it, nor clear its name or metadata. */
  lemma UpdateNeverDeactivates(st: Store, u: StoreUpdate)
    requires st.isActive
    ensures UpdateStore(st, u).isActive
    ensures u.isActive == Some(false) ==> UpdateStore(st, u) == UpdateStore(st, u.(isActive := None))
    ensures st.metadata.Some? ==> UpdateStore(st, u).metadata.Some?
  {
  }

  /** Rows that are active and of the store, optionally narrowed by role or by user. */
  function StoreUsers(table: seq<Assignment>, s: StoreId, role: Option<RoleId>): (r: seq<UserId>)
    ensures forall x :: x in r <==> exists a :: a in table && a.store == s && a.isActive && (Narrows(role) ==> a.role == role.value) && a.user == x
  {
    if |table| == 0 then []
    else
      var a := table[0];
      var rest := StoreUsers(table[1..], s, role);
      assert forall b :: b in table <==> b == a || b in table[1..];
      if a.store == s && a.isActive && (Narrows(role) ==> a.role == role.value) then [a.user] + rest else rest
  }

  /** getStoreRoles: the roles of the store's active rows, narrowed to the user when truthy. */
  function StoreRoles(table: seq<Assignment>, s: StoreId, user: Option<UserId>): (r: seq<RoleId>)
    ensures forall x :: x in r <==> exists a :: a in table && a.store == s && a.isActive && (Narrows(user) ==> a.user == user.value) && a.role == x
  {
    if |table| == 0 then []
    else
      var a := table[0];
      var rest := StoreRoles(table[1..], s, user);
      assert forall b :: b in table <==> b == a || b in table[1..];
      if a.store == s && a.isActive && (Narrows(user) ==> a.user == user.value) then [a.role] + rest else rest
  }

  /** getUserAccessibleStores: the stores of the user's active rows. */
  function AccessibleStores(table: seq<Assignment>, u: UserId): (r: seq<StoreId>)
    ensures forall x :: x in r <==> exists a :: a in table && a.user == u && a.isActive && a.store == x
  {
    if |table| == 0 then []
    else
      var a := table[0];
      var rest := AccessibleStores(table[1..], u);
      assert forall b :: b in table <==> b == a || b in table[1..];
      if a.user == u && a.isActive then [a.store] + rest else rest
  }

  /** Toggling an active assignment off removes its store from the user's accessible stores, unless another active row keeps it. */
  lemma ToggleOffHidesStore(table: seq<Assignment>, u: UserId, r: RoleId, s: StoreId)
    requires UniqueTriples(table)
    requires forall a :: a in table && a.user == u && a.store == s ==> a.role == r && a.isActive
    requires HasTriple(table, u, r, s)
    ensures s in AccessibleStores(table, u)
    ensures s !in AccessibleStores(Toggle(table, u, r, s).0, u)
  {
    var t := Toggle(table, u, r, s).0;
    var k := Find(table, u, r, s).value;
    assert table[k] in table;
    forall a | a in t && a.user == u && a.store == s ensures !a.isActive {
      var i :| 0 <= i < |t| && t[i] == a;
      assert table[i] in table;
      if i != k {
        assert false;
      }
    }
  }
}

=== FILE: auth_rules.dfy ===
/**
 * Authorization rules (app/Models/AuthRule.php): the record and the normalisation
 * the model applies on every save.
 *
 * A rule targets either a route name or a path DSL; its requirements are three
 * optional lists of role and permission names. `pathRegex` holds the compiled DSL.
 */
module AuthRules {
  import opened Wrappers
  import opened Text
  import opened PathDsl

  datatype Rule = Rule(
    id: nat,
    service: string,
    httpMethod: string,
    pathDsl: Option<string>,
    pathRegex: Option<Pattern>,
    routeName: Option<string>,
    rolesAny: Option<seq<string>>,
    permissionsAny: Option<seq<string>>,
    permissionsAll: Option<seq<string>>,
    isActive: bool,
    priority: int)

  /** `strtoupper($method ?: 'ANY')`: a falsy method ("" or "0") becomes ANY. */
  function NormalizeMethod(m: string): (r: string)
    ensures !Truthy(m) ==> r == "ANY"
    ensures Truthy(m) ==> |r| == |m| && forall i :: 0 <= i < |m| ==> r[i] == UpperChar(m[i])
  {
    if Truthy(m) then ToUpper(m) else "ANY"
  }

  /** The method of a saved rule is upper case and never falsy. */
  lemma NormalizeMethodIdempotent(m: string)
    ensures Truthy(NormalizeMethod(m))
    ensures NormalizeMethod(NormalizeMethod(m)) == NormalizeMethod(m)
  {
    if Truthy(m) {
      var u := ToUpper(m);
      assert u != "" by { assert |u| == |m|; }
      ToUpperIdempotent(m);
    } else {
      assert "ANY" != "0" by { assert "ANY"[0] != "0"[0]; }
      ToUpperOfUpper("ANY");
    }
  }

  /**
   * The saving hook: the method is normalised and the compiled path is recomputed from
   * the DSL, overwriting whatever was supplied. An empty DSL gives no compiled path,
   * and so does a DSL that compiles to nothing.
   */
  function SaveHook(r: Rule): (s: Rule)
    ensures s.httpMethod == NormalizeMethod(r.httpMethod)
    ensures s.pathRegex.Some? <==> TruthyOpt(r.pathDsl) && Trim(r.pathDsl.value) != ""
    ensures s.pathRegex.Some? ==> s.pathRegex == Compile(r.pathDsl)
    ensures s.(httpMethod := r.httpMethod, pathRegex := r.pathRegex) == r
  {
    r.(httpMethod := NormalizeMethod(r.httpMethod), pathRegex := Compile(r.pathDsl))
  }

  /** A rule in the form every save leaves it in. */
  predicate Saved(r: Rule) {
    r.httpMethod == NormalizeMethod(r.httpMethod) && r.pathRegex == Compile(r.pathDsl)
  }

  /** Saving produces a saved rule, and saving a saved rule again changes nothing. */
  lemma SaveHookNormalizes(r: Rule)
    ensures Saved(SaveHook(r))
    ensures Saved(r) ==> SaveHook(r) == r
    ensures SaveHook(SaveHook(r)) == SaveHook(r)
  {
    NormalizeMethodIdempotent(r.httpMethod);
  }

  /** A saved rule never carries a compiled path for an empty or falsy DSL. */
  lemma SavedRuleWithoutDslHasNoPattern(r: Rule)
    requires Saved(r) && !TruthyOpt(r.pathDsl)
    ensures r.pathRegex.None?
  {
  }
}

=== FILE: change_set.dfy ===
/**
 * Change sets and list deltas carried by the auth events:
 * `ModelChangeSet::fromArrays` (app/Services/AuthEvents/ModelChangeSet.php), the
 * user service's `diffAddedRemoved` (app/Services/V1/Users/UserManagementService.php)
 * and the role service's plain `array_diff` deltas
 * (app/Services/V1/Roles/RoleManagementService.php).
 *
 * Attribute snapshots are maps from field name to a scalar value; a missing key reads
 * as null (`?? null`), and two values are "not identical" (`!==`) exactly when they
 * differ as values of the `Value` datatype, so an int and a string never match.
 */
module ChangeSets {
  import opened Collections

  /** The scalar attribute values of a model snapshot. */
  datatype Value = Null | Str(s: string) | Int(i: int) | Bool(b: bool)

  type Snapshot = map<string, Value>

  /** `$row[$field] ?? null`. */
  function Lookup(row: Snapshot, field: string): (v: Value)
    ensures field !in row ==> v == Null
    ensures field in row ==> v == row[field]
  {
    if field in row then row[field] else Null
  }

  /** One `changed_fields` entry. */
  datatype FieldChange = FieldChange(field: string, from: Value, to: Value)

  /** The field names of a change set, in order. */
  function FieldNames(cs: seq<FieldChange>): (r: seq<string>)
    ensures |r| == |cs|
    ensures forall i :: 0 <= i < |cs| ==> r[i] == cs[i].field
  {
    if |cs| == 0 then [] else [cs[0].field] + FieldNames(cs[1..])
  }

  /** The position of the first occurrence of `x` in `xs`. */
  function FirstIndex(xs: seq<string>, x: string): (k: nat)
    requires x in xs
    ensures k < |xs| && xs[k] == x
    ensures forall j :: 0 <= j < k ==> xs[j] != x
  {
    if xs[0] == x then 0 else 1 + FirstIndex(xs[1..], x)
  }

  /** The field differs between the two snapshots, a missing key counting as null. */
  predicate Changed(before: Snapshot, after: Snapshot, field: string) {
    Lookup(before, field) != Lookup(after, field)
  }

  /**
   * fromArrays: one entry per allow-listed field whose old and new values are not
   * identical, in allow-list order, carrying both values. A field listed twice is one
   * array key and appears once.
   */
  function FromArrays(before: Snapshot, after: Snapshot, allow: seq<string>): (r: seq<FieldChange>)
    ensures forall f :: f in FieldNames(r) <==> f in allow && Changed(before, after, f)
    ensures forall c :: c in r ==> c.from == Lookup(before, c.field) && c.to == Lookup(after, c.field)
    ensures NoDups(FieldNames(r))
    ensures InAllowOrder(r, allow)
  {
    ChangesAfter(before, after, allow, [])
  }

  /** fromArrays is empty exactly when no allow-listed field changed. */
  lemma FromArraysEmptyIff(before: Snapshot, after: Snapshot, allow: seq<string>)
    ensures FromArrays(before, after, allow) == [] <==> forall f :: f in allow ==> !Changed(before, after, f)
  {
    var r := FromArrays(before, after, allow);
    if r != [] {
      assert FieldNames(r)[0] in FieldNames(r);
    }
  }

  /** The changes for the fields of `allow` not in `seen`. */
  function ChangesAfter(before: Snapshot, after: Snapshot, allow: seq<string>, seen: seq<string>): (r: seq<FieldChange>)
    ensures forall f :: f in FieldNames(r) <==> f in allow && f !in seen && Changed(before, after, f)
    ensures forall c :: c in r ==> c.from == Lookup(before, c.field) && c.to == Lookup(after, c.field)
    ensures NoDups(FieldNames(r))
    ensures InAllowOrder(r, allow)
  {
    if |allow| == 0 then []
    else
      var f := allow[0];
      var rest := ChangesAfter(before, after, allow[1..], seen + [f]);
      var entry := FieldChange(f, Lookup(before, f), Lookup(after, f));
      var keep := f !in seen && Changed(before, after, f);
      var r := if !keep then rest else [entry] + rest;
      StepFields(before, after, allow, seen, rest, entry, keep, r);
      StepValues(before, after, rest, entry, r);
      StepDistinct(allow, rest, entry, keep, r);
      OrderShift(allow, rest, entry.from, entry.to);
      r
  }

  /** The step of `ChangesAfter` for the first allowed field: the entry is kept or not. */
  lemma StepFields(before: Snapshot, after: Snapshot, allow: seq<string>, seen: seq<string>,
                   rest: seq<FieldChange>, entry: FieldChange, keep: bool, r: seq<FieldChange>)
    requires |allow| > 0 && entry.field == allow[0]
    requires keep == (allow[0] !in seen && Changed(before, after, allow[0]))
    requires forall g :: g in FieldNames(rest) <==> g in allow[1..] && g !in seen + [allow[0]] && Changed(before, after, g)
    requires r == if !keep then rest else [entry] + rest
    ensures forall g :: g in FieldNames(r) <==> g in allow && g !in seen && Changed(before, after, g)
  {
    var f := allow[0];
    assert forall g :: g in allow <==> g == f || g in allow[1..];
    assert forall g :: g in seen + [f] <==> g in seen || g == f;
    if keep {
      assert FieldNames(r) == [f] + FieldNames(rest);
    }
  }

  lemma StepValues(before: Snapshot, after: Snapshot, rest: seq<FieldChange>, entry: FieldChange, r: seq<FieldChange>)
    requires entry.from == Lookup(before, entry.field) && entry.to == Lookup(after, entry.field)
    requires forall c :: c in rest ==> c.from == Lookup(before, c.field) && c.to == Lookup(after, c.field)
    requires r == rest || r == [entry] + rest
    ensures forall c :: c in r ==> c.from == Lookup(before, c.field) && c.to == Lookup(after, c.field)
  {
    assert forall c :: c in [entry] + rest <==> c == entry || c in rest;
  }

  lemma StepDistinct(allow: seq<string>, rest: seq<FieldChange>, entry: FieldChange, keep: bool, r: seq<FieldChange>)
    requires |allow| > 0 && entry.field == allow[0]
    requires NoDups(FieldNames(rest)) && allow[0] !in FieldNames(rest)
    requires r == if !keep then rest else [entry] + rest
    ensures NoDups(FieldNames(r))
  {
    if keep {
      ConsDistinct(allow[0], FieldNames(rest));
      assert FieldNames(r) == [allow[0]] + FieldNames(rest);
    }
  }

  /** The entries appear in the order their fields first appear in `allow`. */
  predicate InAllowOrder(r: seq<FieldChange>, allow: seq<string>) {
    (forall c :: c in r ==> c.field in allow)
    && forall i, j :: 0 <= i < j < |r| ==> FirstIndex(allow, r[i].field) < FirstIndex(allow, r[j].field)
  }

  lemma ConsDistinct(f: string, xs: seq<string>)
    requires NoDups(xs) && f !in xs
    ensures NoDups([f] + xs)
  {
    assert forall j :: 0 < j <= |xs| ==> ([f] + xs)[j] == xs[j - 1];
  }

  lemma FirstIndexTail(allow: seq<string>, x: string)
    requires |allow| > 0 && x in allow[1..] && x != allow[0]
    ensures FirstIndex(allow, x) == 1 + FirstIndex(allow[1..], x)
  {
  }

  /** Entries ordered by the tail of `allow`, none for its head, stay ordered by `allow`. */
  lemma OrderShiftRest(allow: seq<string>, rest: seq<FieldChange>)
    requires |allow| > 0 && InAllowOrder(rest, allow[1..])
    requires forall c :: c in rest ==> c.field != allow[0]
    ensures InAllowOrder(rest, allow)
    ensures forall j :: 0 <= j < |rest| ==> FirstIndex(allow, rest[j].field) >= 1
  {
    forall j | 0 <= j < |rest| ensures FirstIndex(allow, rest[j].field) == 1 + FirstIndex(allow[1..], rest[j].field) {
      assert rest[j] in rest;
      FirstIndexTail(allow, rest[j].field);
    }
  }

  /** ... and also behind an entry for the head. */
  lemma OrderShift(allow: seq<string>, rest: seq<FieldChange>, from: Value, to: Value)
    requires |allow| > 0 && InAllowOrder(rest, allow[1..])
    requires forall c :: c in rest ==> c.field != allow[0]
    ensures InAllowOrder(rest, allow)
    ensures InAllowOrder([FieldChange(allow[0], from, to)] + rest, allow)
  {
    OrderShiftRest(allow, rest);
    var r := [FieldChange(allow[0], from, to)] + rest;
    assert FirstIndex(allow, r[0].field) == 0;
    assert forall j :: 0 < j < |r| ==> r[j] == rest[j - 1];
    assert forall c :: c in r <==> c == r[0] || c in rest;
  }

  /** Identical snapshots give no change. */
  lemma IdenticalNoChange(row: Snapshot, allow: seq<string>)
    ensures FromArrays(row, row, allow) == []
  {
    var r := FromArrays(row, row, allow);
    assert forall i :: 0 <= i < |r| ==> FieldNames(r)[i] in FieldNames(r);
  }

  /** Two pairs of snapshots that read alike on every field give the same change set. */
  lemma {:induction false} ChangesDependOnLookups(before: Snapshot, after: Snapshot, before': Snapshot, after': Snapshot, allow: seq<string>, seen: seq<string>)
    requires forall f :: Lookup(before, f) == Lookup(before', f) && Lookup(after, f) == Lookup(after', f)
    ensures ChangesAfter(before, after, allow, seen) == ChangesAfter(before', after', allow, seen)
  {
    if |allow| > 0 {
      var f := allow[0];
      ChangesDependOnLookups(before, after, before', after', allow[1..], seen + [f]);
      ChangesAfterUnfold(before, after, allow, seen);
      ChangesAfterUnfold(before', after', allow, seen);
      assert Lookup(before, f) == Lookup(before', f) && Lookup(after, f) == Lookup(after', f);
    }
  }

  lemma ChangesAfterUnfold(before: Snapshot, after: Snapshot, allow: seq<string>, seen: seq<string>)
    requires |allow| > 0
    ensures var f := allow[0];
      var rest := ChangesAfter(before, after, allow[1..], seen + [f]);
      ChangesAfter(before, after, allow, seen)
        == if f !in seen && Changed(before, after, f) then [FieldChange(f, Lookup(before, f), Lookup(after, f))] + rest else rest
  {
  }

  /** An explicit null and a missing key are the same to a change set. */
  lemma NullLikeMissing(before: Snapshot, after: Snapshot, field: string, allow: seq<string>)
    ensures FromArrays(before, after[field := Null], allow) == FromArrays(before, after - {field}, allow)
  {
    ChangesDependOnLookups(before, after[field := Null], before, after - {field}, allow, []);
  }

  // ---------------------------------------------------------------------------
  // List deltas

  /** diffAddedRemoved's result: both lists de-duplicated, and the two deltas. */
  datatype Diff = Diff(from: seq<string>, to: seq<string>, added: seq<string>, removed: seq<string>)

  /**
   * diffAddedRemoved: de-duplicates both lists keeping first occurrences; added is what
   * `to` has and `from` lacks, removed the reverse, each in its list's order.
   */
  function DiffAddedRemoved(from: seq<string>, to: seq<string>): (d: Diff)
    ensures NoDups(d.from) && NoDups(d.to) && NoDups(d.added) && NoDups(d.removed)
    ensures forall x :: x in d.from <==> x in from
    ensures forall x :: x in d.to <==> x in to
    ensures forall x :: x in d.added <==> x in to && x !in from
    ensures forall x :: x in d.removed <==> x in from && x !in to
    ensures d.from == Dedup(from) && d.to == Dedup(to)
    ensures d.added == Without(d.to, d.from) && d.removed == Without(d.from, d.to)
  {
    var f := Dedup(from);
    var t := Dedup(to);
    WithoutKeepsDistinct(t, f);
    WithoutKeepsDistinct(f, t);
    Diff(f, t, Without(t, f), Without(f, t))
  }

  /** Removing `removed` from `from` and adding `added` gives exactly `to`, as sets. */
  lemma DiffReconstructs(from: seq<string>, to: seq<string>)
    ensures var d := DiffAddedRemoved(from, to);
            (set x | x in d.from) - (set x | x in d.removed) + (set x | x in d.added) == set x | x in d.to
  {
  }

  /** The deltas are disjoint from the list they are measured against. */
  lemma DiffDisjoint(from: seq<string>, to: seq<string>)
    ensures var d := DiffAddedRemoved(from, to);
            (forall x :: x in d.added ==> x !in d.from) && (forall x :: x in d.removed ==> x !in d.to)
  {
  }

  /** Lists with the same elements give empty deltas. */
  lemma SameElementsNoDelta(from: seq<string>, to: seq<string>)
    requires forall x :: x in from <==> x in to
    ensures DiffAddedRemoved(from, to).added == [] && DiffAddedRemoved(from, to).removed == []
  {
    var f := Dedup(from);
    var t := Dedup(to);
    WithoutAllIn(t, f);
    WithoutAllIn(f, t);
  }

  /** A list without duplicates is reported as itself. */
  lemma DistinctListsKept(from: seq<string>, to: seq<string>)
    requires NoDups(from) && NoDups(to)
    ensures DiffAddedRemoved(from, to).from == from && DiffAddedRemoved(from, to).to == to
  {
    DedupOfDistinct(from, []);
    DedupOfDistinct(to, []);
  }
}

=== FILE: collections.dfy ===
/**
 * Collection helpers shared by the models: duplicate removal that keeps first
 * occurrences (`unique()` / `array_unique`), and flattening a list of lists.
 */
module Collections {

  predicate NoDups<T(==,!new)>(xs: seq<T>) {
    forall i, j :: 0 <= i < j < |xs| ==> xs[i] != xs[j]
  }

  /** `x` followed by `rest` when the condition holds, else `rest`: one check that reports an error. */
  function PrependIf<T(!new)>(cond: bool, x: T, rest: seq<T>): (r: seq<T>)
    ensures forall y :: y in r <==> (cond && y == x) || y in rest
    ensures |r| == |rest| + (if cond then 1 else 0)
    ensures cond ==> r[0] == x
  {
    if cond then [x] + rest else rest
  }

  /** Keeps the first occurrence of every value, in order. */
  function Dedup<T(==,!new)>(xs: seq<T>): (r: seq<T>)
    ensures NoDups(r)
    ensures forall x :: x in r <==> x in xs
    ensures |r| <= |xs|
  {
    DedupAfter(xs, [])
  }

  /** The elements of `xs` not in `seen`, first occurrences only. */
  function DedupAfter<T(==,!new)>(xs: seq<T>, seen: seq<T>): (r: seq<T>)
    ensures NoDups(r)
    ensures forall x :: x in r <==> x in xs && x !in seen
    ensures |r| <= |xs|
  {
    if |xs| == 0 then []
    else if xs[0] in seen then DedupAfter(xs[1..], seen)
    else
      var rest := DedupAfter(xs[1..], seen + [xs[0]]);
      assert xs[0] !in rest;
      assert forall k :: 0 < k <= |rest| ==> ([xs[0]] + rest)[k] == rest[k - 1];
      [xs[0]] + rest
  }

  /**
   * Appending a value adds it at the end exactly when it was neither seen nor met
   * before: de-duplication keeps first occurrences, in their order.
   */
  lemma {:induction false} DedupAfterAppend<T(!new)>(xs: seq<T>, x: T, seen: seq<T>)
    ensures DedupAfter(xs + [x], seen) == DedupAfter(xs, seen) + (if x in xs || x in seen then [] else [x])
    decreases |xs|
  {
    if |xs| == 0 {
      assert xs + [x] == [x];
      assert [x][1..] == [];
    } else {
      assert (xs + [x])[0] == xs[0];
      assert (xs + [x])[1..] == xs[1..] + [x];
      assert x in xs <==> x == xs[0] || x in xs[1..];
      if xs[0] in seen {
        DedupAfterAppend(xs[1..], x, seen);
      } else {
        DedupAfterAppend(xs[1..], x, seen + [xs[0]]);
        assert x in seen + [xs[0]] <==> x in seen || x == xs[0];
      }
    }
  }

  /** `Dedup(xs + [x])` is `Dedup(xs)`, followed by `x` when `x` is new. */
  lemma DedupAppend<T(!new)>(xs: seq<T>, x: T)
    ensures Dedup(xs + [x]) == Dedup(xs) + (if x in xs then [] else [x])
  {
    DedupAfterAppend(xs, x, []);
  }

  /** The tail of a distinct list, none of it seen, is distinct and avoids its head too. */
  lemma DistinctTail<T(!new)>(xs: seq<T>, seen: seq<T>)
    requires |xs| > 0 && NoDups(xs) && forall x :: x in xs ==> x !in seen
    ensures NoDups(xs[1..]) && xs[0] !in seen
    ensures forall x :: x in xs[1..] ==> x !in seen + [xs[0]]
  {
    assert xs[0] in xs;
    forall x | x in xs[1..] ensures x !in seen + [xs[0]] {
      var j :| 0 <= j < |xs[1..]| && xs[1..][j] == x;
      assert xs[j + 1] == x && x in xs;
    }
    forall i, j | 0 <= i < j < |xs[1..]| ensures xs[1..][i] != xs[1..][j] {
      assert xs[1..][i] == xs[i + 1] && xs[1..][j] == xs[j + 1];
    }
  }

  /** A list without duplicates is its own de-duplication. */
  lemma {:induction false} DedupOfDistinct<T(!new)>(xs: seq<T>, seen: seq<T>)
    requires NoDups(xs) && forall x :: x in xs ==> x !in seen
    ensures DedupAfter(xs, seen) == xs
  {
    if |xs| > 0 {
      DistinctTail(xs, seen);
      DedupOfDistinct(xs[1..], seen + [xs[0]]);
      assert xs == [xs[0]] + xs[1..];
    }
  }

  /** The concatenation of a list of lists. */
  function Flatten<T(!new)>(xss: seq<seq<T>>): (r: seq<T>)
    ensures forall x :: x in r <==> exists i :: 0 <= i < |xss| && x in xss[i]
  {
    if |xss| == 0 then []
    else
      var rest := Flatten(xss[1..]);
      assert forall i :: 1 <= i < |xss| ==> xss[i] == xss[1..][i - 1];
      xss[0] + rest
  }

  /** `array_values(array_diff($xs, $ys))`: the elements of `xs` not in `ys`, in order. */
  function Without<T(==,!new)>(xs: seq<T>, ys: seq<T>): (r: seq<T>)
    ensures forall x :: x in r <==> x in xs && x !in ys
    ensures |r| <= |xs|
  {
    if |xs| == 0 then []
    else
      var rest := Without(xs[1..], ys);
      assert forall x :: x in xs <==> x == xs[0] || x in xs[1..];
      if xs[0] in ys then rest else [xs[0]] + rest
  }

  /** A single element is kept exactly when it is not in `ys`. */
  lemma WithoutSingle<T(!new)>(x: T, ys: seq<T>)
    ensures Without([x], ys) == if x in ys then [] else [x]
  {
    assert [x][1..] == [];
  }

  /** The difference is taken element by element, so it distributes over concatenation. */
  lemma {:induction false} WithoutAppend<T(!new)>(a: seq<T>, b: seq<T>, ys: seq<T>)
    ensures Without(a + b, ys) == Without(a, ys) + Without(b, ys)
  {
    if |a| > 0 {
      assert (a + b)[0] == a[0];
      assert (a + b)[1..] == a[1..] + b;
      WithoutAppend(a[1..], b, ys);
      if a[0] in ys {
        assert Without(a + b, ys) == Without(a[1..] + b, ys);
        assert Without(a, ys) == Without(a[1..], ys);
      } else {
        assert Without(a + b, ys) == [a[0]] + Without(a[1..] + b, ys);
        assert Without(a, ys) == [a[0]] + Without(a[1..], ys);
      }
    } else {
      assert a + b == b;
    }
  }

  /** Removing nothing keeps the list. */
  lemma {:induction false} WithoutNone<T(!new)>(xs: seq<T>)
    ensures Without(xs, []) == xs
  {
    if |xs| > 0 {
      WithoutNone(xs[1..]);
    }
  }

  /** Removing a superset leaves nothing. */
  lemma {:induction false} WithoutAllIn<T(!new)>(xs: seq<T>, ys: seq<T>)
    requires forall x :: x in xs ==> x in ys
    ensures Without(xs, ys) == []
  {
    if |xs| > 0 {
      WithoutAllIn(xs[1..], ys);
    }
  }

  /** A list without duplicates keeps none after the difference. */
  lemma {:induction false} WithoutKeepsDistinct<T(!new)>(xs: seq<T>, ys: seq<T>)
    requires NoDups(xs)
    ensures NoDups(Without(xs, ys))
  {
    if |xs| > 0 {
      assert NoDups(xs[1..]) by {
        forall i, j | 0 <= i < j < |xs[1..]| ensures xs[1..][i] != xs[1..][j] {
          assert xs[1..][i] == xs[i + 1] && xs[1..][j] == xs[j + 1];
        }
      }
      WithoutKeepsDistinct(xs[1..], ys);
      var rest := Without(xs[1..], ys);
      if xs[0] !in ys {
        assert xs[0] !in xs[1..];
        assert forall j :: 0 < j <= |rest| ==> ([xs[0]] + rest)[j] == rest[j - 1];
      }
    }
  }
}

=== FILE: correlation_id.dfy ===
/**
 * The correlation-id middleware (app/Http/Middleware/CorrelationIdMiddleware.php): an
 * incoming `X-Correlation-Id` is trimmed and kept only if it is 8 to 128 characters of
 * `[A-Za-z0-9-_.]`; otherwise a fresh UUID, passed in as a parameter, is used. The
 * chosen id is attached to the request and echoed in the response header.
 *
 * Lengths are counted in characters. The source counts bytes, but every accepted value
 * is ASCII, so the two agree on which values are accepted.
 */
module CorrelationIds {
  import opened Wrappers
  import opened Text

  const MinIdLength: nat := 8
  const MaxIdLength: nat := 128

  predicate IsIdChar(c: char) {
    ('a' <= c <= 'z') || ('A' <= c <= 'Z') || ('0' <= c <= '9') || c == '-' || c == '_' || c == '.'
  }

  /** A value the middleware keeps as it is. */
  predicate AcceptableId(v: string) {
    MinIdLength <= |v| <= MaxIdLength && forall i :: 0 <= i < |v| ==> IsIdChar(v[i])
  }

  /**
   * sanitize: a missing or falsy header gives nothing; otherwise the trimmed value,
   * if it is acceptable.
   */
  function Sanitize(value: Option<string>): (r: Option<string>)
    ensures r.Some? <==> TruthyOpt(value) && AcceptableId(Trim(value.value))
    ensures r.Some? ==> r.value == Trim(value.value) && Truthy(r.value)
  {
    if !TruthyOpt(value) then None
    else
      var v := Trim(value.value);
      if !AcceptableId(v) then None else Some(v)
  }

  /** An acceptable id is its own trimmed form. */
  lemma AcceptableIsTrimmed(v: string)
    requires AcceptableId(v)
    ensures Trim(v) == v && Truthy(v)
  {
    assert IsIdChar(v[0]) && IsIdChar(v[|v| - 1]);
    TrimOfTrimmed(v);
  }

  /** Sanitizing an accepted value again keeps it. */
  lemma SanitizeIdempotent(value: Option<string>)
    ensures Sanitize(value).Some? ==> Sanitize(Sanitize(value)) == Sanitize(value)
  {
    if Sanitize(value).Some? {
      AcceptableIsTrimmed(Sanitize(value).value);
    }
  }

  /** Surrounding whitespace is dropped and the rest kept when it is acceptable. */
  lemma PaddedIdAccepted(pad1: string, id: string, pad2: string)
    requires AcceptableId(id)
    requires forall i :: 0 <= i < |pad1| ==> IsTrimChar(pad1[i])
    requires forall i :: 0 <= i < |pad2| ==> IsTrimChar(pad2[i])
    ensures Sanitize(Some(pad1 + id + pad2)) == Some(id)
  {
    var s := pad1 + id + pad2;
    assert IsIdChar(id[0]) && IsIdChar(id[|id| - 1]);
    TrimOfPadded(pad1, id, pad2);
    AcceptableIsTrimmed(id);
    assert |s| >= MinIdLength;
  }

  lemma {:induction false} TrimOfPadded(pad1: string, core: string, pad2: string)
    requires |core| > 0 && !IsTrimChar(core[0]) && !IsTrimChar(core[|core| - 1])
    requires forall i :: 0 <= i < |pad1| ==> IsTrimChar(pad1[i])
    requires forall i :: 0 <= i < |pad2| ==> IsTrimChar(pad2[i])
    ensures Trim(pad1 + core + pad2) == core
  {
    var s := pad1 + core + pad2;
    var l := TrimLeft(s);
    assert s[|pad1|] == core[0] && !IsTrimChar(s[|pad1|]);
    assert forall i :: 0 <= i < |pad1| ==> s[i] == pad1[i];
    assert l == core + pad2;
    var r := TrimRight(l);
    assert l[|core| - 1] == core[|core| - 1];
    assert forall i :: |core| <= i < |l| ==> l[i] == pad2[i - |core|];
    assert r == core;
    assert Trim(s) == TrimRight(TrimLeft(s));
  }

  /** What handle does with the id: the request attribute and the response header. */
  datatype Exchange = Exchange(requestAttribute: string, responseHeader: string)

  /** handle: the sanitized incoming id, or the fresh one when it was rejected, on both sides. */
  function Handle(incoming: Option<string>, uuid: string): (x: Exchange)
    ensures x.requestAttribute == x.responseHeader
    ensures Sanitize(incoming).Some? ==> x.responseHeader == Sanitize(incoming).value
    ensures Sanitize(incoming).None? ==> x.responseHeader == uuid
  {
    var sanitized := Sanitize(incoming);
    var id := if TruthyOpt(sanitized) then sanitized.value else uuid;
    Exchange(id, id)
  }

  /** The shape of `Str::uuid()`: 36 characters of hexadecimal digits and hyphens. */
  predicate IsUuidShape(u: string) {
    |u| == 36 && forall i :: 0 <= i < |u| ==> ('0' <= u[i] <= '9') || ('a' <= u[i] <= 'f') || u[i] == '-'
  }

  /** Whatever arrives, the echoed id is one the middleware would accept back unchanged. */
  lemma EchoedIdSurvivesRoundTrip(incoming: Option<string>, uuid: string)
    requires IsUuidShape(uuid)
    ensures var echoed := Handle(incoming, uuid).responseHeader;
            AcceptableId(echoed) && Handle(Some(echoed), uuid) == Handle(incoming, uuid)
  {
    var echoed := Handle(incoming, uuid).responseHeader;
    assert AcceptableId(echoed);
    AcceptableIsTrimmed(echoed);
  }
}

=== FILE: event_factory.dfy ===
/**
 * The CloudEvents 1.0 envelope the auth events are wrapped in
 * (app/Services/AuthEvents/AuthEventFactory.php): fixed context attributes, the event
 * type repeated as the subject, the data passed through, and a `meta` object of request
 * details that the caller's overrides replace key by key.
 *
 * The ULID, the UUID and the formatted clock reading are parameters; the request is
 * reduced to the headers and user it is asked about.
 */
module EventFactory {
  import opened Wrappers
  import CorrelationIds
  import Text

  datatype MetaValue = MNull | MText(text: string) | MUserId(id: nat)

  type Meta = map<string, MetaValue>

  /** The parts of the HTTP request the factory reads; `user` is the authenticated user's id. */
  datatype EventRequest = EventRequest(correlationHeader: Option<string>, causationHeader: Option<string>,
                                       user: Option<nat>, ip: Option<string>, userAgent: Option<string>)

  const MetaKeys: set<string> := {"correlation_id", "causation_id", "actor_user_id", "actor_type", "actor_ip", "user_agent"}

  function TextOrNull(o: Option<string>): MetaValue {
    if o.Some? then MText(o.value) else MNull
  }

  /**
   * The default meta: the correlation header or else the fresh UUID, the causation
   * header, the acting user and whether there is one, the client address and agent;
   * without a request every request-derived value is null and the actor is a service client.
   */
  function DefaultMeta(req: Option<EventRequest>, uuid: string): (m: Meta)
    ensures m.Keys == MetaKeys
    ensures m["actor_type"] == MText("user") <==> req.Some? && req.value.user.Some?
    ensures m["actor_type"] == MText("service_client") <==> !(req.Some? && req.value.user.Some?)
    ensures m["actor_user_id"] != MNull <==> req.Some? && req.value.user.Some?
    ensures req.Some? && req.value.correlationHeader.Some? ==> m["correlation_id"] == MText(req.value.correlationHeader.value)
    ensures !(req.Some? && req.value.correlationHeader.Some?) ==> m["correlation_id"] == MText(uuid)
    ensures req.None? ==> forall k :: k in m && k != "correlation_id" && k != "actor_type" ==> m[k] == MNull
    ensures req.Some? ==> var r := req.value;
      && (r.causationHeader.Some? ==> m["causation_id"] == MText(r.causationHeader.value))
      && (r.causationHeader.None? ==> m["causation_id"] == MNull)
      && (r.user.Some? ==> m["actor_user_id"] == MUserId(r.user.value))
      && (r.ip.Some? ==> m["actor_ip"] == MText(r.ip.value))
      && (r.ip.None? ==> m["actor_ip"] == MNull)
      && (r.userAgent.Some? ==> m["user_agent"] == MText(r.userAgent.value))
      && (r.userAgent.None? ==> m["user_agent"] == MNull)
  {
    if req.None? then
      map["correlation_id" := MText(uuid), "causation_id" := MNull, "actor_user_id" := MNull,
          "actor_type" := MText("service_client"), "actor_ip" := MNull, "user_agent" := MNull]
    else
      var r := req.value;
      map["correlation_id" := MText(r.correlationHeader.GetOr(uuid)),
          "causation_id" := TextOrNull(r.causationHeader),
          "actor_user_id" := if r.user.Some? then MUserId(r.user.value) else MNull,
          "actor_type" := MText(if r.user.Some? then "user" else "service_client"),
          "actor_ip" := TextOrNull(r.ip),
          "user_agent" := TextOrNull(r.userAgent)]
  }

  /** `array_merge` on string keys: the overrides win, every other default stays. */
  function MergeMeta(defaults: Meta, overrides: Meta): (m: Meta)
    ensures m.Keys == defaults.Keys + overrides.Keys
    ensures forall k :: k in overrides ==> m[k] == overrides[k]
    ensures forall k :: k in defaults && k !in overrides ==> m[k] == defaults[k]
  {
    defaults + overrides
  }

  datatype Envelope<D> = Envelope(specversion: string, id: string, eventType: string, source: string,
                                  subject: string, time: string, datacontenttype: string, data: D, meta: Meta)

  const SpecVersion: string := "1.0"
  const Source: string := "auth-system"
  const ContentType: string := "application/json"

  /** make: the envelope for one event. */
  function Make<D>(eventType: string, data: D, req: Option<EventRequest>, overrides: Meta,
                   ulid: string, uuid: string, now: string): (e: Envelope<D>)
    ensures e.specversion == SpecVersion && e.source == Source && e.datacontenttype == ContentType
    ensures e.eventType == eventType && e.subject == eventType
    ensures e.id == ulid && e.time == now && e.data == data
    ensures e.meta.Keys == MetaKeys + overrides.Keys
    ensures forall k :: k in overrides ==> e.meta[k] == overrides[k]
    ensures forall k :: k in MetaKeys && k !in overrides ==> e.meta[k] == DefaultMeta(req, uuid)[k]
  {
    Envelope(SpecVersion, ulid, eventType, Source, eventType, now, ContentType, data, MergeMeta(DefaultMeta(req, uuid), overrides))
  }

  /** Without overrides the meta is the default meta. */
  lemma NoOverridesKeepDefaults<D>(eventType: string, data: D, req: Option<EventRequest>, ulid: string, uuid: string, now: string)
    ensures Make(eventType, data, req, map[], ulid, uuid, now).meta == DefaultMeta(req, uuid)
  {
  }

  /** Overriding a key twice in a row is overriding it with the last value. */
  lemma OverridesCompose(defaults: Meta, first: Meta, second: Meta)
    ensures MergeMeta(MergeMeta(defaults, first), second) == MergeMeta(defaults, first + second)
  {
  }

  /**
   * The event's correlation id is the raw header, not the middleware's sanitized one:
   * a header the middleware rejects is echoed back as the fresh UUID while the event
   * carries the header itself.
   */
  lemma EventKeepsRejectedCorrelationHeader(uuid: string)
    requires CorrelationIds.IsUuidShape(uuid)
    ensures var header := "not valid";
            var req := EventRequest(Some(header), None, None, None, None);
            CorrelationIds.Handle(Some(header), uuid).responseHeader == uuid
            && DefaultMeta(Some(req), uuid)["correlation_id"] == MText(header)
            && MText(uuid) != MText(header)
  {
    var header := "not valid";
    RejectedHeader(header);
    assert |uuid| != |header|;
  }

  lemma RejectedHeader(header: string)
    requires header == "not valid"
    ensures CorrelationIds.Sanitize(Some(header)).None?
  {
    assert header[0] == 'n' && header[|header| - 1] == 'd';
    Text.TrimOfTrimmed(header);
    assert !CorrelationIds.IsIdChar(header[3]);
  }
}

=== FILE: hierarchy_service.dfy ===
/**
 * Writes to and reads of the role hierarchy
 * (app/Services/V1/Roles/RoleHierarchyService.php) and the request check for a new
 * edge (app/Http/Requests/Api/V1/Roles/CreateRoleHierarchyRequest.php). The roles and
 * stores tables are sets of ids.
 */
module HierarchyService {
  import opened Wrappers
  import opened Collections
  import opened RoleGraph

  // ---------------------------------------------------------------------------
  // createHierarchy / removeHierarchy

  datatype NewEdge = NewEdge(higher: RoleId, lower: RoleId, store: StoreId, metadata: Option<Metadata>, isActive: Option<bool>)

  /** The rows a delete by (higher, lower, store) hits, whatever their active flag. */
  predicate SameTriple(e: Edge, higher: RoleId, lower: RoleId, s: StoreId) {
    e.higher == higher && e.lower == lower && e.store == s
  }

  predicate HasTriple(edges: seq<Edge>, higher: RoleId, lower: RoleId, s: StoreId) {
    exists e :: e in edges && SameTriple(e, higher, lower, s)
  }

  /** The table's unique key: no two rows share (higher, lower, store). */
  predicate UniqueTriples(edges: seq<Edge>) {
    forall i, j :: 0 <= i < j < |edges| ==> !SameTriple(edges[j], edges[i].higher, edges[i].lower, edges[i].store)
  }

  /**
   * The table's foreign keys: both roles must be rows of `roles` and the store a row of
   * `stores`.
   */
  predicate KeysExist(roles: set<RoleId>, stores: set<StoreId>, input: NewEdge) {
    input.higher in roles && input.lower in roles && input.store in stores
  }

  /**
   * createHierarchy: stores the edge as given, active unless told otherwise, without
   * validating it. Only the database refuses it (`None`): a role or store id that is not
   * a row breaks a foreign key, and an existing triple breaks the unique key.
   */
  function CreateHierarchy(roles: set<RoleId>, stores: set<StoreId>, edges: seq<Edge>, input: NewEdge): (r: Option<seq<Edge>>)
    ensures r.None? <==> !KeysExist(roles, stores, input) || HasTriple(edges, input.higher, input.lower, input.store)
    ensures r.Some? ==> |r.value| == |edges| + 1 && r.value[..|edges|] == edges
    ensures r.Some? ==> var e := r.value[|edges|];
      && SameTriple(e, input.higher, input.lower, input.store)
      && e.metadata == input.metadata && e.isActive == input.isActive.GetOr(true)
    ensures r.Some? && UniqueTriples(edges) ==> UniqueTriples(r.value)
  {
    if !KeysExist(roles, stores, input) || HasTriple(edges, input.higher, input.lower, input.store) then None
    else
      var r := edges + [Edge(input.higher, input.lower, input.store, input.isActive.GetOr(true), input.metadata)];
      assert forall i :: 0 <= i < |edges| ==> r[i] == edges[i] && r[i] in edges;
      Some(r)
  }

  /** removeHierarchy: deletes every row of the triple and reports whether there was one. */
  function RemoveHierarchy(edges: seq<Edge>, higher: RoleId, lower: RoleId, s: StoreId): (r: (seq<Edge>, bool))
    ensures forall e :: e in r.0 <==> e in edges && !SameTriple(e, higher, lower, s)
    ensures r.1 <==> HasTriple(edges, higher, lower, s)
    ensures |r.0| <= |edges|
  {
    if |edges| == 0 then ([], false)
    else
      var rest := RemoveHierarchy(edges[1..], higher, lower, s);
      assert forall e :: e in edges <==> e == edges[0] || e in edges[1..];
      if SameTriple(edges[0], higher, lower, s) then (rest.0, true) else ([edges[0]] + rest.0, rest.1)
  }

  /** Removing an edge just created takes exactly it out again, and reports it. */
  lemma RemoveUndoesCreate(roles: set<RoleId>, stores: set<StoreId>, edges: seq<Edge>, input: NewEdge)
    requires CreateHierarchy(roles, stores, edges, input).Some?
    ensures var r := RemoveHierarchy(CreateHierarchy(roles, stores, edges, input).value, input.higher, input.lower, input.store);
      r.1 && forall e :: e in r.0 <==> e in edges
  {
    var c := CreateHierarchy(roles, stores, edges, input).value;
    assert c[|edges|] in c;
    assert forall e :: e in c <==> e in edges || e == c[|edges|];
  }

  /** Since nothing is validated, a new active self edge makes its role lie below itself. */
  lemma SelfEdgeCreatesCycle(roles: set<RoleId>, stores: set<StoreId>, edges: seq<Edge>, x: RoleId, s: StoreId)
    requires x in roles && s in stores && !HasTriple(edges, x, x, s)
    ensures IsHigherThan(CreateHierarchy(roles, stores, edges, NewEdge(x, x, s, None, None)).value, s, x, x)
  {
    var c := CreateHierarchy(roles, stores, edges, NewEdge(x, x, s, None, None)).value;
    assert c[|edges|] in c;
    ActiveEdgeIsHigher(c, c[|edges|]);
  }

  // ---------------------------------------------------------------------------
  // validateHierarchy

  datatype HierarchyError =
    | HigherMissing
    | LowerMissing
    | StoreMissing
    | SelfReference
    | AlreadyExists
    | Circular

  /** wouldCreateCircularHierarchy: false unless both roles exist; then `lower` is already higher. */
  predicate WouldCreateCycle(roles: set<RoleId>, edges: seq<Edge>, higher: RoleId, lower: RoleId, s: StoreId) {
    lower in roles && higher in roles && IsHigherThan(edges, s, lower, higher)
  }

  /** validateHierarchy: every failed check, in a fixed order; nothing is thrown. */
  function ValidateHierarchy(roles: set<RoleId>, stores: set<StoreId>, edges: seq<Edge>, higher: RoleId, lower: RoleId, s: StoreId): (errs: seq<HierarchyError>)
    ensures HigherMissing in errs <==> higher !in roles
    ensures LowerMissing in errs <==> lower !in roles
    ensures StoreMissing in errs <==> s !in stores
    ensures SelfReference in errs <==> higher == lower
    ensures AlreadyExists in errs <==> HasTriple(edges, higher, lower, s)
    ensures Circular in errs <==> lower in roles && higher in roles && IsHigherThan(edges, s, lower, higher)
  {
    Failures(higher !in roles, lower !in roles, s !in stores, higher == lower,
             HasTriple(edges, higher, lower, s), WouldCreateCycle(roles, edges, higher, lower, s))
  }

  /** The errors of the six checks, in the order they are made. */
  function Failures(noHigher: bool, noLower: bool, noStore: bool, selfRef: bool, duplicate: bool, cycle: bool): (errs: seq<HierarchyError>)
    ensures HigherMissing in errs <==> noHigher
    ensures LowerMissing in errs <==> noLower
    ensures StoreMissing in errs <==> noStore
    ensures SelfReference in errs <==> selfRef
    ensures AlreadyExists in errs <==> duplicate
    ensures Circular in errs <==> cycle
  {
    PrependIf(noHigher, HigherMissing, PrependIf(noLower, LowerMissing, PrependIf(noStore, StoreMissing,
      PrependIf(selfRef, SelfReference, PrependIf(duplicate, AlreadyExists, PrependIf(cycle, Circular, []))))))
  }

  /** An edge passes validation exactly when all six conditions hold. */
  lemma ValidateEmptyIff(roles: set<RoleId>, stores: set<StoreId>, edges: seq<Edge>, higher: RoleId, lower: RoleId, s: StoreId)
    ensures ValidateHierarchy(roles, stores, edges, higher, lower, s) == [] <==>
      && higher in roles && lower in roles && s in stores && higher != lower
      && !HasTriple(edges, higher, lower, s)
      && !IsHigherThan(edges, s, lower, higher)
  {
  }

  /** The position of each check in the order validateHierarchy makes them. */
  function Rank(e: HierarchyError): nat {
    match e
    case HigherMissing => 0
    case LowerMissing => 1
    case StoreMissing => 2
    case SelfReference => 3
    case AlreadyExists => 4
    case Circular => 5
  }

  /** Errors listed in strictly increasing check order. */
  predicate Ranked(errs: seq<HierarchyError>) {
    forall i, j :: 0 <= i < j < |errs| ==> Rank(errs[i]) < Rank(errs[j])
  }

  /** Every error ranks above `n`. */
  predicate Above(errs: seq<HierarchyError>, n: int) {
    forall k :: 0 <= k < |errs| ==> n < Rank(errs[k])
  }

  lemma RankedPrepend(cond: bool, x: HierarchyError, rest: seq<HierarchyError>)
    requires Ranked(rest) && Above(rest, Rank(x))
    ensures Ranked(PrependIf(cond, x, rest)) && Above(PrependIf(cond, x, rest), Rank(x) - 1)
  {
    if cond {
      var r := [x] + rest;
      forall i, j | 0 <= i < j < |r| ensures Rank(r[i]) < Rank(r[j]) {
        assert r[j] == rest[j - 1];
        if i > 0 { assert r[i] == rest[i - 1]; }
      }
      forall k | 0 <= k < |r| ensures Rank(x) - 1 < Rank(r[k]) {
        if k > 0 { assert r[k] == rest[k - 1]; }
      }
    }
  }

  /** The six checks' errors are listed in check order, whatever fails. */
  lemma FailuresRanked(noHigher: bool, noLower: bool, noStore: bool, selfRef: bool, duplicate: bool, cycle: bool)
    ensures Ranked(Failures(noHigher, noLower, noStore, selfRef, duplicate, cycle))
  {
    var e5 := PrependIf(cycle, Circular, []);
    RankedPrepend(cycle, Circular, []);
    var e4 := PrependIf(duplicate, AlreadyExists, e5);
    RankedPrepend(duplicate, AlreadyExists, e5);
    var e3 := PrependIf(selfRef, SelfReference, e4);
    RankedPrepend(selfRef, SelfReference, e4);
    var e2 := PrependIf(noStore, StoreMissing, e3);
    RankedPrepend(noStore, StoreMissing, e3);
    var e1 := PrependIf(noLower, LowerMissing, e2);
    RankedPrepend(noLower, LowerMissing, e2);
    RankedPrepend(noHigher, HigherMissing, e1);
    assert Failures(noHigher, noLower, noStore, selfRef, duplicate, cycle) == PrependIf(noHigher, HigherMissing, e1);
  }

  /** For every input the errors come in the order of the checks, each at most once. */
  lemma ValidateOrder(roles: set<RoleId>, stores: set<StoreId>, edges: seq<Edge>, higher: RoleId, lower: RoleId, s: StoreId)
    ensures Ranked(ValidateHierarchy(roles, stores, edges, higher, lower, s))
  {
    FailuresRanked(higher !in roles, lower !in roles, s !in stores, higher == lower,
                   HasTriple(edges, higher, lower, s), WouldCreateCycle(roles, edges, higher, lower, s));
  }

  /** With the first three checks failing, they lead the list in order. */
  lemma ValidateLeadingErrors(roles: set<RoleId>, stores: set<StoreId>, edges: seq<Edge>, higher: RoleId, lower: RoleId, s: StoreId)
    requires higher !in roles && s !in stores && higher == lower
    ensures ValidateHierarchy(roles, stores, edges, higher, lower, s)[..3] == [HigherMissing, LowerMissing, StoreMissing]
  {
  }

  /** An inactive row of the same triple still counts as existing, but not as a path. */
  lemma InactiveDuplicateStillExists(roles: set<RoleId>, stores: set<StoreId>, higher: RoleId, lower: RoleId, s: StoreId)
    ensures var errs := ValidateHierarchy(roles, stores, [Edge(higher, lower, s, false, None)], higher, lower, s);
      AlreadyExists in errs && Circular !in errs
  {
    var edges := [Edge(higher, lower, s, false, None)];
    assert edges[0] in edges;
    LeafHasNoLowerRoles(edges, s, lower);
  }

  /**
   * Circularity sees through chains: with a -> b and b -> c active in store s, the
   * edge c -> a is circular in s but not in another store without those edges.
   */
  lemma ChainIsCircular(roles: set<RoleId>, stores: set<StoreId>, a: RoleId, b: RoleId, c: RoleId, s: StoreId, other: StoreId)
    requires a in roles && c in roles && other != s
    ensures var edges := [Edge(a, b, s, true, None), Edge(b, c, s, true, None)];
      && Circular in ValidateHierarchy(roles, stores, edges, c, a, s)
      && Circular !in ValidateHierarchy(roles, stores, edges, c, a, other)
  {
    var edges := [Edge(a, b, s, true, None), Edge(b, c, s, true, None)];
    assert edges[0] in edges && edges[1] in edges;
    ActiveEdgeIsHigher(edges, edges[0]);
    ActiveEdgeIsHigher(edges, edges[1]);
    IsHigherThanTransitive(edges, s, a, b, c);
    LeafHasNoLowerRoles(edges, other, a);
  }

  // ---------------------------------------------------------------------------
  // CreateRoleHierarchyRequest

  datatype RequestError =
    | HigherRoleUnknown
    | LowerRoleUnknown
    | LowerSameAsHigher
    | StoreUnknown
    | ManagesItself
    | ReverseEdgeExists

  /**
   * The request's errors: the field rules (existence, `different`), then the after-hook,
   * which repeats the self check and rejects only a direct reverse row of the same
   * store, active or not.
   */
  function RequestErrors(roles: set<RoleId>, stores: set<StoreId>, edges: seq<Edge>, higher: RoleId, lower: RoleId, s: StoreId): (errs: seq<RequestError>)
    ensures ReverseEdgeExists in errs <==> HasTriple(edges, lower, higher, s)
    ensures (ManagesItself in errs) == (LowerSameAsHigher in errs) == (higher == lower)
    ensures (HigherRoleUnknown in errs <==> higher !in roles) && (LowerRoleUnknown in errs <==> lower !in roles)
    ensures StoreUnknown in errs <==> s !in stores
  {
    PrependIf(higher !in roles, HigherRoleUnknown,
    PrependIf(lower !in roles, LowerRoleUnknown,
    PrependIf(higher == lower, LowerSameAsHigher,
    PrependIf(s !in stores, StoreUnknown,
    PrependIf(higher == lower, ManagesItself,
    PrependIf(HasTriple(edges, lower, higher, s), ReverseEdgeExists, []))))))
  }

  /**
   * The request lets a longer cycle through: with a -> b and b -> c in store s, the
   * request for c -> a passes, while the service validation reports it as circular.
   */
  lemma RequestMissesLongCycle(roles: set<RoleId>, stores: set<StoreId>, a: RoleId, b: RoleId, c: RoleId, s: StoreId)
    requires a in roles && b in roles && c in roles && s in stores
    requires a != b && b != c && a != c
    ensures var edges := [Edge(a, b, s, true, None), Edge(b, c, s, true, None)];
      && RequestErrors(roles, stores, edges, c, a, s) == []
      && Circular in ValidateHierarchy(roles, stores, edges, c, a, s)
  {
    var edges := [Edge(a, b, s, true, None), Edge(b, c, s, true, None)];
    assert !HasTriple(edges, a, c, s) by {
      assert !SameTriple(edges[0], a, c, s) && !SameTriple(edges[1], a, c, s);
    }
    ChainIsCircular(roles, stores, a, b, c, s, s + "'");
  }

  // ---------------------------------------------------------------------------
  // getRoleHierarchyTree

  /** A tree node; `expanded` is false for a role already expanded elsewhere (no children, no permissions). */
  datatype Tree = Tree(role: RoleId, children: seq<Tree>, expanded: bool)

  /** The roles expanded in a tree, in pre-order. */
  function ExpandedRoles(t: Tree): seq<RoleId>
    decreases t
  {
    (if t.expanded then [t.role] else []) + ExpandedRolesAll(t.children)
  }

  function ExpandedRolesAll(ts: seq<Tree>): seq<RoleId>
    decreases ts
  {
    if |ts| == 0 then [] else ExpandedRoles(ts[0]) + ExpandedRolesAll(ts[1..])
  }

  /**
   * The lower roles of `x` among the store's active edges that exist in the roles
   * table (`$hierarchy->lowerRole`), in edge order.
   */
  function ChildRoles(es: seq<Edge>, roles: set<RoleId>, x: RoleId): (r: seq<RoleId>)
    ensures forall y :: y in r <==> y in Children(es, x) && y in roles
    ensures |r| > 0 ==> x in Nodes(es)
  {
    if |es| == 0 then []
    else
      var rest := ChildRoles(es[1..], roles, x);
      if es[0].higher == x && es[0].lower in roles then [es[0].lower] + rest else rest
  }

  /**
   * Every expanded node of `t` has one child per existing lower role of its role, in
   * edge order, and every node that is not expanded has no children.
   */
  predicate Shaped(es: seq<Edge>, roles: set<RoleId>, t: Tree)
    decreases t
  {
    && (t.expanded ==>
          var cs := ChildRoles(es, roles, t.role);
          && |t.children| == |cs|
          && forall i :: 0 <= i < |t.children| ==> t.children[i].role == cs[i] && Shaped(es, roles, t.children[i]))
    && (!t.expanded ==> t.children == [])
  }

  /**
   * buildHierarchyTree with the shared processed set `done`: the roles it expands are
   * exactly those new in the returned set, each once, and an expanded role's children
   * are the trees of its existing lower roles.
   */
  function BuildTree(es: seq<Edge>, roles: set<RoleId>, x: RoleId, done: set<RoleId>): (res: (Tree, set<RoleId>))
    ensures done <= res.1 && x in res.1
    ensures res.0.expanded ==> |res.0.children| == |ChildRoles(es, roles, x)|
    ensures res.0.expanded ==> forall i :: 0 <= i < |res.0.children| ==> res.0.children[i].role == ChildRoles(es, roles, x)[i]
    ensures Shaped(es, roles, res.0)
    ensures NoDups(ExpandedRoles(res.0))
    ensures forall y :: y in ExpandedRoles(res.0) <==> y in res.1 && y !in done
    ensures res.0.role == x && (x in done <==> !res.0.expanded)
    ensures !res.0.expanded ==> res.0.children == []
    decreases |Nodes(es) - done|, 0, 0
  {
    if x in done then (Tree(x, [], false), done)
    else
      var cs := ChildRoles(es, roles, x);
      if |cs| == 0 then (Tree(x, [], true), done + {x})
      else
        assert (Nodes(es) - done) == (Nodes(es) - (done + {x})) + {x};
        var sub := BuildForest(es, roles, cs, done + {x});
        var t := Tree(x, sub.0, true);
        assert ExpandedRoles(t) == [x] + ExpandedRolesAll(sub.0);
        DisjointConcat([x], ExpandedRolesAll(sub.0));
        (t, sub.1)
  }

  function BuildForest(es: seq<Edge>, roles: set<RoleId>, cs: seq<RoleId>, done: set<RoleId>): (res: (seq<Tree>, set<RoleId>))
    ensures done <= res.1
    ensures |res.0| == |cs| && forall i :: 0 <= i < |cs| ==> res.0[i].role == cs[i]
    ensures forall i :: 0 <= i < |res.0| ==> Shaped(es, roles, res.0[i])
    ensures NoDups(ExpandedRolesAll(res.0))
    ensures forall y :: y in ExpandedRolesAll(res.0) <==> y in res.1 && y !in done
    decreases |Nodes(es) - done|, 1, |cs|
  {
    if |cs| == 0 then ([], done)
    else
      var first := BuildTree(es, roles, cs[0], done);
      SubsetCard(Nodes(es) - first.1, Nodes(es) - done);
      var rest := BuildForest(es, roles, cs[1..], first.1);
      var ts := [first.0] + rest.0;
      assert ts[0] == first.0 && ts[1..] == rest.0;
      ShapedCons(es, roles, first.0, rest.0);
      DisjointConcat(ExpandedRoles(first.0), ExpandedRolesAll(rest.0));
      (ts, rest.1)
  }

  /** A shaped tree in front of shaped trees gives shaped trees. */
  lemma ShapedCons(es: seq<Edge>, roles: set<RoleId>, t: Tree, ts: seq<Tree>)
    requires Shaped(es, roles, t) && forall i :: 0 <= i < |ts| ==> Shaped(es, roles, ts[i])
    ensures forall i :: 0 <= i < |[t] + ts| ==> Shaped(es, roles, ([t] + ts)[i])
  {
    forall i | 1 <= i < |[t] + ts| ensures Shaped(es, roles, ([t] + ts)[i]) {
      assert ([t] + ts)[i] == ts[i - 1];
    }
  }

  lemma DisjointConcat(a: seq<RoleId>, b: seq<RoleId>)
    requires NoDups(a) && NoDups(b) && forall x :: x in a ==> x !in b
    ensures NoDups(a + b)
  {
    var ab := a + b;
    forall i, j | 0 <= i < j < |ab| ensures ab[i] != ab[j] {
      if i < |a| && j >= |a| {
        assert ab[i] in a && ab[j] == b[j - |a|];
      } else if i >= |a| {
        assert ab[i] == b[i - |a|] && ab[j] == b[j - |a|];
      }
    }
  }

  /** The higher roles of the store's active edges that are never a lower role, each once. */
  function Roots(es: seq<Edge>): (r: seq<RoleId>)
    ensures NoDups(r)
    ensures forall x :: x in r <==> (exists e :: e in es && e.higher == x) && forall e :: e in es ==> e.lower != x
  {
    var highers := HigherEnds(es);
    var lowers := LowerEnds(es);
    Dedup(Without(highers, lowers))
  }

  function HigherEnds(es: seq<Edge>): (r: seq<RoleId>)
    ensures forall x :: x in r <==> exists e :: e in es && e.higher == x
  {
    if |es| == 0 then []
    else
      assert forall e :: e in es <==> e == es[0] || e in es[1..];
      [es[0].higher] + HigherEnds(es[1..])
  }

  function LowerEnds(es: seq<Edge>): (r: seq<RoleId>)
    ensures forall x :: x in r <==> exists e :: e in es && e.lower == x
  {
    if |es| == 0 then []
    else
      assert forall e :: e in es <==> e == es[0] || e in es[1..];
      [es[0].lower] + LowerEnds(es[1..])
  }

  /**
   * getRoleHierarchyTree: one tree per existing root, sharing one processed set, so
   * every role is expanded at most once in the whole forest.
   */
  function HierarchyTree(roles: set<RoleId>, edges: seq<Edge>, s: StoreId): (r: seq<Tree>)
    ensures NoDups(ExpandedRolesAll(r))
    ensures forall i :: 0 <= i < |r| ==> r[i].role in Roots(ActiveIn(edges, s)) && r[i].role in roles
    ensures |r| == |Existing(Roots(ActiveIn(edges, s)), roles)|
    ensures forall i :: 0 <= i < |r| ==> r[i].role == Existing(Roots(ActiveIn(edges, s)), roles)[i]
    ensures forall i :: 0 <= i < |r| ==> Shaped(ActiveIn(edges, s), roles, r[i])
  {
    var es := ActiveIn(edges, s);
    BuildForest(es, roles, Existing(Roots(es), roles), {}).0
  }

  /** The roles of `xs` that `Role::find` finds, in order. */
  function Existing(xs: seq<RoleId>, roles: set<RoleId>): (r: seq<RoleId>)
    ensures forall x :: x in r <==> x in xs && x in roles
  {
    if |xs| == 0 then []
    else if xs[0] in roles then [xs[0]] + Existing(xs[1..], roles)
    else Existing(xs[1..], roles)
  }

  /** A store whose active edges form only cycles has no roots, so its tree is empty. */
  lemma PureCyclesGiveEmptyTree(roles: set<RoleId>, edges: seq<Edge>, s: StoreId)
    requires forall e :: e in ActiveIn(edges, s) ==> exists f :: f in ActiveIn(edges, s) && f.lower == e.higher
    ensures HierarchyTree(roles, edges, s) == []
  {
  }

  /** A single active edge gives one tree: its higher role, with its lower role as the only child. */
  lemma OneEdgeTree(a: RoleId, b: RoleId, s: StoreId)
    requires a != b
    ensures HierarchyTree({a, b}, [Edge(a, b, s, true, None)], s) == [Tree(a, [Tree(b, [], true)], true)]
  {
    var es := [Edge(a, b, s, true, None)];
    var roles := {a, b};
    assert ActiveIn(es, s) == es;
    assert es[1..] == [];
    assert HigherEnds(es) == [a];
    assert LowerEnds(es) == [es[0].lower] + LowerEnds([]);
    assert LowerEnds(es) == [b];
    WithoutSingle(a, [b]);
    DedupOfDistinct([a], []);
    assert Roots(es) == [a];
    assert Existing([a], roles) == [a];
    assert ChildRoles(es, roles, a) == [b];
    assert ChildRoles(es, roles, b) == [];
    assert b !in {a} && {a} + {b} == {a, b};
    assert BuildTree(es, roles, b, {a}) == (Tree(b, [], true), {a, b});
    assert BuildForest(es, roles, [b], {a}).0 == [Tree(b, [], true)];
    assert BuildTree(es, roles, a, {}).0 == Tree(a, [Tree(b, [], true)], true);
    assert BuildForest(es, roles, [a], {}).0 == [Tree(a, [Tree(b, [], true)], true)];
  }
}

=== FILE: nats_subjects.dfy ===
/**
 * The JetStream publisher's subject guard (app/Services/Nats/JetStreamPublisher.php):
 * the minimal NATS subject matcher, the allow-list check over configured patterns,
 * and the order in which `publish` rejects a message before it reaches the server.
 *
 * Subjects and patterns are split on '.' as `explode` does; `*` matches one token and
 * `>` as the last pattern token matches whatever remains, including nothing.
 */
module NatsSubjects {
  import opened Wrappers
  import opened Text
  import ServiceEvents

  /** Pattern token `i` accepts subject token `i`, for every `i < n`. */
  predicate TokensAgree(s: seq<string>, p: seq<string>, n: nat)
    requires n <= |s| && n <= |p|
  {
    forall i :: 0 <= i < n ==> p[i] == "*" || p[i] == s[i]
  }

  /**
   * The reference meaning of the matcher on token lists: either the pattern has no
   * `>` and agrees token by token with a subject of the same length, or its only `>`
   * is its last token and the tokens before it agree with a prefix of the subject.
   */
  predicate TokensMatch(s: seq<string>, p: seq<string>) {
    ((forall i :: 0 <= i < |p| ==> p[i] != ">") && |s| == |p| && TokensAgree(s, p, |p|))
    || (|p| >= 1 && p[|p| - 1] == ">" && (forall i :: 0 <= i < |p| - 1 ==> p[i] != ">")
        && |p| - 1 <= |s| && TokensAgree(s, p, |p| - 1))
  }

  /** Whether `subject` matches `pattern`. */
  predicate Matches(subject: string, pattern: string) {
    TokensMatch(Split(subject, '.'), Split(pattern, '.'))
  }

  /** matchesNatsSubject: the two-cursor scan over the token lists. */
  method MatchesNatsSubject(subject: string, pattern: string) returns (b: bool)
    ensures b <==> Matches(subject, pattern)
  {
    var s := Split(subject, '.');
    var p := Split(pattern, '.');
    var si, pi := 0, 0;
    while pi < |p|
      invariant si == pi <= |p| && pi <= |s|
      invariant forall i :: 0 <= i < pi ==> p[i] != ">"
      invariant TokensAgree(s, p, pi)
    {
      var pt := p[pi];
      if pt == ">" {
        ScanAtGreater(s, p, pi);
        return pi == |p| - 1;
      }
      if si >= |s| {
        ScanPastSubject(s, p, pi);
        return false;
      }
      if pt != "*" && pt != s[si] {
        ScanMismatch(s, p, pi);
        return false;
      }
      ScanAgrees(s, p, pi);
      si := si + 1;
      pi := pi + 1;
    }
    ScanAtEnd(s, p);
    return si == |s|;
  }

  /** The facts a scan has established after `pi` pattern tokens. */
  ghost predicate Scanned(s: seq<string>, p: seq<string>, pi: nat) {
    pi <= |p| && pi <= |s| && (forall i :: 0 <= i < pi ==> p[i] != ">") && TokensAgree(s, p, pi)
  }

  lemma ScanAtGreater(s: seq<string>, p: seq<string>, pi: nat)
    requires Scanned(s, p, pi) && pi < |p| && p[pi] == ">"
    ensures TokensMatch(s, p) <==> pi == |p| - 1
  {
  }

  lemma ScanPastSubject(s: seq<string>, p: seq<string>, pi: nat)
    requires Scanned(s, p, pi) && pi < |p| && p[pi] != ">" && pi >= |s|
    ensures !TokensMatch(s, p)
  {
  }

  lemma ScanMismatch(s: seq<string>, p: seq<string>, pi: nat)
    requires Scanned(s, p, pi) && pi < |p| && pi < |s| && p[pi] != ">" && p[pi] != "*" && p[pi] != s[pi]
    ensures !TokensMatch(s, p)
  {
  }

  lemma ScanAgrees(s: seq<string>, p: seq<string>, pi: nat)
    requires Scanned(s, p, pi) && pi < |p| && pi < |s| && p[pi] != ">" && (p[pi] == "*" || p[pi] == s[pi])
    ensures TokensAgree(s, p, pi + 1)
  {
  }

  lemma ScanAtEnd(s: seq<string>, p: seq<string>)
    requires Scanned(s, p, |p|)
    ensures TokensMatch(s, p) <==> |p| == |s|
  {
  }

  /** A pattern without wildcards matches exactly the subject with the same tokens. */
  lemma LiteralPatternMatchesOnlyItself(s: seq<string>, p: seq<string>)
    requires forall i :: 0 <= i < |p| ==> p[i] != ">" && p[i] != "*"
    ensures TokensMatch(s, p) <==> s == p
  {
    if TokensMatch(s, p) {
      assert |s| == |p|;
      assert forall i :: 0 <= i < |p| ==> s[i] == p[i];
    }
  }

  /** A trailing `>` also matches the subject that has no token in its place. */
  lemma TrailingGreaterMatchesPrefixItself(xs: seq<string>)
    requires forall i :: 0 <= i < |xs| ==> xs[i] != ">"
    ensures TokensMatch(xs, xs + [">"])
  {
    assert forall i :: 0 <= i < |xs| ==> (xs + [">"])[i] == xs[i];
  }

  /** A `>` before the last token makes the pattern match nothing. */
  lemma InnerGreaterMatchesNothing(s: seq<string>, p: seq<string>, k: nat)
    requires k < |p| - 1 && p[k] == ">"
    ensures !TokensMatch(s, p)
  {
  }

  /** A `*` stands for any one token, and never for none or two. */
  lemma StarIsOneToken(s: seq<string>, pre: seq<string>, post: seq<string>)
    requires forall i :: 0 <= i < |pre| ==> pre[i] != ">" && pre[i] != "*"
    requires forall i :: 0 <= i < |post| ==> post[i] != ">" && post[i] != "*"
    ensures TokensMatch(s, pre + ["*"] + post)
            <==> |s| == |pre| + 1 + |post| && s[..|pre|] == pre && s[|pre| + 1..] == post
  {
    var p := pre + ["*"] + post;
    assert forall i :: 0 <= i < |pre| ==> p[i] == pre[i];
    assert forall i :: |pre| < i < |p| ==> p[i] == post[i - |pre| - 1];
    assert forall i :: 0 <= i < |p| ==> p[i] != ">";
    if TokensMatch(s, p) {
      assert s[..|pre|] == pre;
      assert forall i :: 0 <= i < |post| ==> s[|pre| + 1..][i] == s[i + |pre| + 1] == post[i];
    }
    if |s| == |pre| + 1 + |post| && s[..|pre|] == pre && s[|pre| + 1..] == post {
      forall i | 0 <= i < |p| ensures p[i] == "*" || p[i] == s[i] {
        if i < |pre| {
          assert s[..|pre|][i] == s[i];
        } else if i > |pre| {
          assert s[|pre| + 1..][i - |pre| - 1] == s[i];
        }
      }
    }
  }

  /**
   * assertSubjectAllowed: an empty pattern list allows every subject; otherwise the
   * subject is allowed iff some non-empty pattern matches it.
   */
  function SubjectAllowed(patterns: seq<string>, subject: string): (ok: bool)
    ensures ok <==> |patterns| == 0 || exists i :: 0 <= i < |patterns| && patterns[i] != "" && Matches(subject, patterns[i])
  {
    |patterns| == 0 || AnyPatternMatches(patterns, subject)
  }

  function AnyPatternMatches(patterns: seq<string>, subject: string): (ok: bool)
    ensures ok <==> exists i :: 0 <= i < |patterns| && patterns[i] != "" && Matches(subject, patterns[i])
  {
    if |patterns| == 0 then false
    else
      var rest := AnyPatternMatches(patterns[1..], subject);
      assert forall i :: 1 <= i < |patterns| ==> patterns[i] == patterns[1..][i - 1];
      (patterns[0] != "" && Matches(subject, patterns[0])) || rest
  }

  /** A list of only empty patterns is not empty, so it rejects every subject. */
  lemma EmptyPatternsRejectAll(n: nat, subject: string)
    requires n >= 1
    ensures !SubjectAllowed(seq(n, _ => ""), subject)
  {
  }

  /** `auth.v1.>` splits into its three tokens. */
  lemma AuthPatternTokens()
    ensures Split("auth.v1.>", '.') == ["auth", "v1", ">"]
  {
    var t := "v1.>";
    AuthHead();
    SplitPrefix("auth", t, '.');
    TailTokens();
    assert ["auth"] + ["v1", ">"] == ["auth", "v1", ">"];
  }

  lemma AuthHead()
    ensures "auth.v1.>" == "auth" + ['.'] + "v1.>"
    ensures !HasChar("auth", '.')
  {
    var a := "auth";
    assert a[0] != '.' && a[1] != '.' && a[2] != '.' && a[3] != '.';
  }

  lemma TailTokens()
    ensures Split("v1.>", '.') == ["v1", ">"]
  {
    assert "v1.>" == "v1" + ['.'] + ">";
    assert !HasChar("v1", '.') by {
      var a := "v1";
      assert a[0] != '.' && a[1] != '.';
    }
    SplitPrefix("v1", ">", '.');
    SplitNoDelimiter(">", '.');
  }

  /** A pattern `a.b.>` matches every subject `a.b.<tail>`. */
  lemma {:induction false} PrefixPatternMatches(a: string, b: string, tail: string)
    requires !HasChar(a, '.') && !HasChar(b, '.') && a != ">" && b != ">"
    ensures TokensMatch(Split(a + ['.'] + (b + ['.'] + tail), '.'), [a, b, ">"])
  {
    SplitPrefix(a, b + ['.'] + tail, '.');
    SplitPrefix(b, tail, '.');
    var s := Split(a + ['.'] + (b + ['.'] + tail), '.');
    assert s == [a] + ([b] + Split(tail, '.'));
    assert s[0] == a && s[1] == b;
  }

  /** `auth.v1.>` allows every subject under `auth.v1.`. */
  lemma AuthRootAllowed(tail: string)
    ensures SubjectAllowed(["auth.v1.>"], "auth.v1." + tail)
  {
    AuthRootMatches(tail);
    var patterns := ["auth.v1.>"];
    assert patterns[0] != "" && Matches("auth.v1." + tail, patterns[0]);
  }

  lemma AuthRootMatches(tail: string)
    ensures Matches("auth.v1." + tail, "auth.v1.>")
  {
    AuthSubject(tail);
    AuthHead();
    assert !HasChar("v1", '.') by {
      var a := "v1";
      assert a[0] != '.' && a[1] != '.';
    }
    PrefixPatternMatches("auth", "v1", tail);
    AuthPatternTokens();
  }

  lemma AuthSubject(tail: string)
    ensures "auth.v1." + tail == "auth" + ['.'] + ("v1" + ['.'] + tail)
  {
  }

  /** Every subject the user and role services record passes the `auth.v1.>` filter. */
  lemma ServiceEventSubjectsAllowed(e: ServiceEvents.AuthEvent)
    ensures SubjectAllowed(["auth.v1.>"], ServiceEvents.Subject(e))
  {
    AuthRootAllowed(ServiceEvents.SubjectTail(e));
  }

  // ---------------------------------------------------------------------------
  // publish

  /** The publisher's configuration: `nats.jetstream.enabled`, `.subjects`, `.stream`. */
  datatype NatsConfig = NatsConfig(enabled: bool, subjects: seq<string>, stream: string)

  datatype PublishError = Disabled | SubjectNotAllowed | EncodeFailed | MissingStream | NoAck

  /** What the JSON encoder and the server would do with a message. */
  datatype Delivery = Delivery(encodes: bool, acked: bool)

  /**
   * publish: rejects a disabled publisher first, then a subject outside the filters,
   * both before encoding; then an unencodable payload, a missing stream name and a
   * missing acknowledgement. `None` is a published message.
   */
  function Publish(cfg: NatsConfig, subject: string, d: Delivery): (err: Option<PublishError>)
    ensures err == Some(Disabled) <==> !cfg.enabled
    ensures err == Some(SubjectNotAllowed) <==> cfg.enabled && !SubjectAllowed(cfg.subjects, subject)
    ensures err.None? <==> cfg.enabled && SubjectAllowed(cfg.subjects, subject) && d.encodes && cfg.stream != "" && d.acked
    ensures err == Some(EncodeFailed) <==> cfg.enabled && SubjectAllowed(cfg.subjects, subject) && !d.encodes
    ensures err == Some(MissingStream) <==> cfg.enabled && SubjectAllowed(cfg.subjects, subject) && d.encodes && cfg.stream == ""
    ensures err == Some(NoAck) <==> cfg.enabled && SubjectAllowed(cfg.subjects, subject) && d.encodes && cfg.stream != "" && !d.acked
  {
    if !cfg.enabled then Some(Disabled)
    else if !SubjectAllowed(cfg.subjects, subject) then Some(SubjectNotAllowed)
    else if !d.encodes then Some(EncodeFailed)
    else if cfg.stream == "" then Some(MissingStream)
    else if !d.acked then Some(NoAck)
    else None
  }

  /** The guard's verdict does not depend on what the encoder or server would do. */
  lemma GuardsPrecedeDelivery(cfg: NatsConfig, subject: string, d1: Delivery, d2: Delivery)
    ensures Publish(cfg, subject, d1) == Some(Disabled) <==> Publish(cfg, subject, d2) == Some(Disabled)
    ensures Publish(cfg, subject, d1) == Some(SubjectNotAllowed) <==> Publish(cfg, subject, d2) == Some(SubjectNotAllowed)
  {
  }
}

=== FILE: otp.dfy ===
/**
 * One-time passwords and the account flows built on them (app/Models/Otp.php,
 * app/Services/V1/Auth/AuthService.php): register, login, sending and verifying
 * an OTP, resetting a password and refreshing the API token.
 *
 * The OTP table is a sequence in insertion order; `->first()` is the earliest
 * matching row. Accounts are a map keyed by e-mail (the column is unique). Time is
 * an integer number of seconds; the random OTP draw, bcrypt hashing and checking,
 * and new token ids are parameters. Mail delivery is not modelled.
 */
module OtpLifecycle {
  import opened Wrappers

  type Time = int

  /** An OTP lives for ten minutes. */
  const OtpLifetime: int := 600

  /** The width of an OTP code. */
  const OtpWidth: nat := 6

  const Verification: string := "verification"
  const PasswordReset: string := "password_reset"

  // ---------------------------------------------------------------------------
  // Decimal text

  predicate IsDigit(c: char) {
    '0' <= c <= '9'
  }

  predicate AllDigits(s: string) {
    forall i :: 0 <= i < |s| ==> IsDigit(s[i])
  }

  function DigitChar(d: nat): char
    requires d < 10
  {
    ('0' as int + d) as char
  }

  /** The decimal text of `n` without leading zeros, as PHP converts an int to string. */
  function Decimal(n: nat): (s: string)
    ensures |s| >= 1 && AllDigits(s)
  {
    if n < 10 then [DigitChar(n)] else Decimal(n / 10) + [DigitChar(n % 10)]
  }

  /** The value of a digit string (leading zeros allowed). */
  function ParseDecimal(s: string): nat
    requires AllDigits(s)
  {
    if |s| == 0 then 0 else ParseDecimal(s[..|s| - 1]) * 10 + (s[|s| - 1] as int - '0' as int)
  }

  function Pow10(k: nat): nat {
    if k == 0 then 1 else 10 * Pow10(k - 1)
  }

  lemma {:induction false} DecimalParses(n: nat)
    ensures ParseDecimal(Decimal(n)) == n
  {
    if n >= 10 {
      var s := Decimal(n);
      assert s[..|s| - 1] == Decimal(n / 10);
      DecimalParses(n / 10);
    }
  }

  lemma {:induction false} DecimalWidth(n: nat, k: nat)
    requires k >= 1 && n < Pow10(k)
    ensures |Decimal(n)| <= k
  {
    if n >= 10 {
      DecimalWidth(n / 10, k - 1);
    }
  }

  /** Leading zeros do not change a digit string's value. */
  lemma {:induction false} LeadingZerosParse(zeros: string, s: string)
    requires forall i :: 0 <= i < |zeros| ==> zeros[i] == '0'
    requires AllDigits(s)
    ensures AllDigits(zeros + s) && ParseDecimal(zeros + s) == ParseDecimal(s)
    decreases |s|
  {
    if |s| == 0 {
      assert zeros + s == zeros;
      AllZerosParse(zeros);
    } else {
      assert (zeros + s)[..|zeros + s| - 1] == zeros + s[..|s| - 1];
      LeadingZerosParse(zeros, s[..|s| - 1]);
    }
  }

  lemma {:induction false} AllZerosParse(zeros: string)
    requires forall i :: 0 <= i < |zeros| ==> zeros[i] == '0'
    ensures ParseDecimal(zeros) == 0
  {
    if |zeros| > 0 {
      AllZerosParse(zeros[..|zeros| - 1]);
    }
  }

  /** `str_pad($s, $width, $c, STR_PAD_LEFT)`. */
  function PadLeft(s: string, width: nat, c: char): (r: string)
    ensures |s| >= width ==> r == s
    ensures |s| < width ==> |r| == width && r[width - |s|..] == s
    ensures |s| < width ==> forall i :: 0 <= i < width - |s| ==> r[i] == c
  {
    if |s| >= width then s else seq(width - |s|, _ => c) + s
  }

  /**
   * generateOtp for the random draw `n`: its decimal text left-padded with zeros to
   * six characters. Every draw in [0, 999999] gives exactly six digits, and the code
   * reads back as the draw, so distinct draws give distinct codes.
   */
  function GenerateOtp(n: nat): (code: string)
    ensures AllDigits(code) && ParseDecimal(code) == n
    ensures n <= 999999 ==> |code| == 6
  {
    assert Pow10(OtpWidth) == 1000000;
    PaddedDecimal(n, OtpWidth);
    PadLeft(Decimal(n), OtpWidth, '0')
  }

  lemma PaddedDecimal(n: nat, width: nat)
    ensures AllDigits(PadLeft(Decimal(n), width, '0'))
    ensures ParseDecimal(PadLeft(Decimal(n), width, '0')) == n
    ensures width >= 1 && n < Pow10(width) ==> |PadLeft(Decimal(n), width, '0')| == width
  {
    var s := Decimal(n);
    var r := PadLeft(s, width, '0');
    DecimalParses(n);
    if |s| < width {
      assert r == r[..width - |s|] + s;
      LeadingZerosParse(r[..width - |s|], s);
    }
    if width >= 1 && n < Pow10(width) {
      DecimalWidth(n, width);
    }
  }

  // ---------------------------------------------------------------------------
  // OTP records

  /** An OTP row; `kind` is the `type` column. */
  datatype Otp = Otp(email: string, code: string, kind: string, expiresAt: Time, used: bool)

  /** isExpired: the expiry lies strictly in the past. */
  predicate IsExpired(o: Otp, now: Time) {
    o.expiresAt < now
  }

  /** markAsUsed: sets the used flag and nothing else. */
  function MarkAsUsed(o: Otp): (r: Otp)
    ensures r.used
    ensures r.(used := o.used) == o
  {
    o.(used := true)
  }

  /** An unused OTP for the e-mail and type. */
  predicate Pending(o: Otp, email: string, kind: string) {
    o.email == email && o.kind == kind && !o.used
  }

  /** A row that verifyOtp's query selects. */
  predicate Candidate(o: Otp, email: string, code: string, kind: string) {
    Pending(o, email, kind) && o.code == code
  }

  /** The number of unused OTPs for an e-mail and type. */
  function PendingCount(otps: seq<Otp>, email: string, kind: string): nat {
    if |otps| == 0 then 0
    else (if Pending(otps[0], email, kind) then 1 else 0) + PendingCount(otps[1..], email, kind)
  }

  /** The invariant sendOtp establishes: at most one unused OTP per e-mail and type. */
  ghost predicate SinglePending(otps: seq<Otp>) {
    forall email, kind :: PendingCount(otps, email, kind) <= 1
  }

  /** The rows sendOtp keeps: all but the unused ones of the e-mail and type. */
  function DropPending(otps: seq<Otp>, email: string, kind: string): (r: seq<Otp>)
    ensures forall o :: o in r <==> o in otps && !Pending(o, email, kind)
    ensures PendingCount(r, email, kind) == 0
  {
    if |otps| == 0 then []
    else
      var rest := DropPending(otps[1..], email, kind);
      assert forall o :: o in otps <==> o == otps[0] || o in otps[1..];
      if Pending(otps[0], email, kind) then rest else [otps[0]] + rest
  }

  lemma {:induction false} DropPendingCount(otps: seq<Otp>, email: string, kind: string, e: string, k: string)
    requires e != email || k != kind
    ensures PendingCount(DropPending(otps, email, kind), e, k) == PendingCount(otps, e, k)
  {
    if |otps| > 0 {
      DropPendingCount(otps[1..], email, kind, e, k);
      var rest := DropPending(otps[1..], email, kind);
      if !Pending(otps[0], email, kind) {
        assert ([otps[0]] + rest)[1..] == rest;
      }
    }
  }

  lemma {:induction false} PendingCountAppend(otps: seq<Otp>, o: Otp, e: string, k: string)
    ensures PendingCount(otps + [o], e, k) == PendingCount(otps, e, k) + (if Pending(o, e, k) then 1 else 0)
  {
    if |otps| > 0 {
      assert (otps + [o])[1..] == otps[1..] + [o];
      PendingCountAppend(otps[1..], o, e, k);
    } else {
      assert ([o])[1..] == [];
    }
  }

  /**
   * sendOtp: deletes the unused OTPs of the e-mail and type, then appends a new
   * unused one expiring ten minutes from now.
   */
  function SendOtp(otps: seq<Otp>, email: string, kind: string, code: string, now: Time): (r: seq<Otp>)
    ensures |r| >= 1 && r[|r| - 1] == Otp(email, code, kind, now + OtpLifetime, false)
    ensures forall o :: o in r[..|r| - 1] <==> o in otps && !Pending(o, email, kind)
    ensures PendingCount(r, email, kind) == 1
  {
    var kept := DropPending(otps, email, kind);
    var issued := Otp(email, code, kind, now + OtpLifetime, false);
    PendingCountAppend(kept, issued, email, kind);
    assert (kept + [issued])[..|kept|] == kept;
    kept + [issued]
  }

  /** sendOtp keeps at most one unused OTP per e-mail and type. */
  lemma SendOtpKeepsSinglePending(otps: seq<Otp>, email: string, kind: string, code: string, now: Time)
    requires SinglePending(otps)
    ensures SinglePending(SendOtp(otps, email, kind, code, now))
  {
    var kept := DropPending(otps, email, kind);
    var issued := Otp(email, code, kind, now + OtpLifetime, false);
    forall e, k ensures PendingCount(SendOtp(otps, email, kind, code, now), e, k) <= 1 {
      PendingCountAppend(kept, issued, e, k);
      if e != email || k != kind {
        DropPendingCount(otps, email, kind, e, k);
      }
    }
  }

  /** The first row verifyOtp's query selects, if any. */
  function FindCandidate(otps: seq<Otp>, email: string, code: string, kind: string): (k: Option<nat>)
    ensures k.None? <==> forall i :: 0 <= i < |otps| ==> !Candidate(otps[i], email, code, kind)
    ensures k.Some? ==> k.value < |otps| && Candidate(otps[k.value], email, code, kind)
    ensures k.Some? ==> forall j :: 0 <= j < k.value ==> !Candidate(otps[j], email, code, kind)
  {
    if |otps| == 0 then None
    else if Candidate(otps[0], email, code, kind) then Some(0)
    else
      var k := FindCandidate(otps[1..], email, code, kind);
      assert forall i :: 1 <= i < |otps| ==> otps[i] == otps[1..][i - 1];
      if k.None? then None else Some(k.value + 1)
  }

  // ---------------------------------------------------------------------------
  // Accounts

  /** A user account: bcrypt hash, verification time and the ids of its API tokens. */
  datatype Account = Account(name: string, passwordHash: string, emailVerifiedAt: Option<Time>, tokens: seq<nat>)

  datatype AuthState = AuthState(users: map<string, Account>, otps: seq<Otp>)

  /** Sets the verification time of the account with this e-mail, if there is one. */
  function MarkVerified(users: map<string, Account>, email: string, now: Time): (r: map<string, Account>)
    ensures r.Keys == users.Keys
    ensures email in users ==> r[email] == users[email].(emailVerifiedAt := Some(now))
    ensures forall e :: e in users && e != email ==> r[e] == users[e]
  {
    if email in users then users[email := users[email].(emailVerifiedAt := Some(now))] else users
  }

  /**
   * verifyOtp: the first unused row with this e-mail, code and type must exist and not
   * be expired; it is then marked used and, for a verification OTP, the account's
   * e-mail becomes verified. A failure changes nothing.
   */
  function VerifyOtp(st: AuthState, email: string, code: string, kind: string, now: Time): (r: (AuthState, bool))
    ensures !r.1 ==> r.0 == st
    ensures r.1 <==> FindCandidate(st.otps, email, code, kind).Some? && !IsExpired(st.otps[FindCandidate(st.otps, email, code, kind).value], now)
    ensures r.1 ==>
      var k := FindCandidate(st.otps, email, code, kind).value;
      r.0.otps == st.otps[k := MarkAsUsed(st.otps[k])]
    ensures r.1 && kind == Verification ==> r.0.users == MarkVerified(st.users, email, now)
    ensures kind != Verification ==> r.0.users == st.users
  {
    match FindCandidate(st.otps, email, code, kind)
    case None => (st, false)
    case Some(k) =>
      if IsExpired(st.otps[k], now) then (st, false)
      else
        var otps := st.otps[k := MarkAsUsed(st.otps[k])];
        var users := if kind == Verification then MarkVerified(st.users, email, now) else st.users;
        (AuthState(users, otps), true)
  }

  lemma {:induction false} MarkUsedCount(otps: seq<Otp>, k: nat, e: string, kd: string)
    requires k < |otps|
    ensures PendingCount(otps[k := MarkAsUsed(otps[k])], e, kd) <= PendingCount(otps, e, kd)
    ensures Pending(otps[k], e, kd) ==> PendingCount(otps[k := MarkAsUsed(otps[k])], e, kd) == PendingCount(otps, e, kd) - 1
  {
    if k > 0 {
      MarkUsedCount(otps[1..], k - 1, e, kd);
      assert otps[k := MarkAsUsed(otps[k])][1..] == otps[1..][k - 1 := MarkAsUsed(otps[k])];
    } else {
      assert otps[0 := MarkAsUsed(otps[0])][1..] == otps[1..];
    }
  }

  lemma {:induction false} CandidateCounted(otps: seq<Otp>, i: nat, email: string, kind: string)
    requires i < |otps| && Pending(otps[i], email, kind)
    ensures PendingCount(otps, email, kind) >= 1
  {
    if i > 0 {
      CandidateCounted(otps[1..], i - 1, email, kind);
    }
  }

  /** verifyOtp keeps at most one unused OTP per e-mail and type. */
  lemma VerifyOtpKeepsSinglePending(st: AuthState, email: string, code: string, kind: string, now: Time)
    requires SinglePending(st.otps)
    ensures SinglePending(VerifyOtp(st, email, code, kind, now).0.otps)
  {
    var k := FindCandidate(st.otps, email, code, kind);
    if VerifyOtp(st, email, code, kind, now).1 {
      forall e, kd ensures PendingCount(VerifyOtp(st, email, code, kind, now).0.otps, e, kd) <= 1 {
        MarkUsedCount(st.otps, k.value, e, kd);
      }
    }
  }

  /** A code verifies at most once while the single-pending invariant holds. */
  lemma VerifyAtMostOnce(st: AuthState, email: string, code: string, kind: string, now: Time, later: Time)
    requires SinglePending(st.otps)
    requires VerifyOtp(st, email, code, kind, now).1
    ensures !VerifyOtp(VerifyOtp(st, email, code, kind, now).0, email, code, kind, later).1
  {
    var k := FindCandidate(st.otps, email, code, kind).value;
    var after := VerifyOtp(st, email, code, kind, now).0;
    assert PendingCount(st.otps, email, kind) <= 1;
    MarkUsedCount(st.otps, k, email, kind);
    if FindCandidate(after.otps, email, code, kind).Some? {
      var j := FindCandidate(after.otps, email, code, kind).value;
      CandidateCounted(after.otps, j, email, kind);
      assert false;
    }
  }

  /** An OTP just sent verifies with its code until it expires, and not after. */
  lemma SentOtpVerifies(st: AuthState, email: string, kind: string, code: string, sentAt: Time, now: Time)
    ensures var sent := st.(otps := SendOtp(st.otps, email, kind, code, sentAt));
            VerifyOtp(sent, email, code, kind, now).1 <==> now <= sentAt + OtpLifetime
  {
    var otps := SendOtp(st.otps, email, kind, code, sentAt);
    var last := |otps| - 1;
    assert Candidate(otps[last], email, code, kind);
    var k := FindCandidate(otps, email, code, kind);
  }

  // ---------------------------------------------------------------------------
  // Account flows

  /**
   * register: creates the unverified account and sends it a verification OTP; an
   * e-mail already registered is refused by the unique key (`None`).
   */
  function Register(st: AuthState, name: string, email: string, passwordHash: string, code: string, now: Time): (r: Option<AuthState>)
    ensures r.None? <==> email in st.users
    ensures r.Some? ==> r.value.users == st.users[email := Account(name, passwordHash, None, [])]
    ensures r.Some? ==> r.value.otps == SendOtp(st.otps, email, Verification, code, now)
  {
    if email in st.users then None
    else Some(AuthState(st.users[email := Account(name, passwordHash, None, [])], SendOtp(st.otps, email, Verification, code, now)))
  }

  /**
   * resetPassword: verifies a password-reset OTP and only then stores the new
   * password hash for the e-mail.
   */
  function ResetPassword(st: AuthState, email: string, newHash: string, code: string, now: Time): (r: (AuthState, bool))
    ensures r.1 <==> VerifyOtp(st, email, code, PasswordReset, now).1
    ensures !r.1 ==> r.0 == st
    ensures r.1 && email in st.users ==> email in r.0.users && r.0.users[email] == st.users[email].(passwordHash := newHash)
    ensures r.0.users.Keys == st.users.Keys
    ensures forall e :: e in st.users && e != email ==> r.0.users[e] == st.users[e]
  {
    var v := VerifyOtp(st, email, code, PasswordReset, now);
    if !v.1 then (st, false)
    else
      var users := if email in v.0.users then v.0.users[email := v.0.users[email].(passwordHash := newHash)] else v.0.users;
      (v.0.(users := users), true)
  }

  datatype LoginError = InvalidCredentials | EmailNotVerified

  /**
   * login: an unknown e-mail or a wrong password is "Invalid credentials"; an
   * unverified account is refused next; otherwise a new token is added.
   */
  function Login(st: AuthState, email: string, password: string, check: (string, string) -> bool, tokenId: nat): (r: Result<AuthState, LoginError>)
    ensures r == Failure(InvalidCredentials) <==> email !in st.users || !check(password, st.users[email].passwordHash)
    ensures r == Failure(EmailNotVerified) <==> email in st.users && check(password, st.users[email].passwordHash) && st.users[email].emailVerifiedAt.None?
    ensures r.Success? ==> r.value.otps == st.otps && r.value.users == st.users[email := st.users[email].(tokens := st.users[email].tokens + [tokenId])]
  {
    if email !in st.users || !check(password, st.users[email].passwordHash) then Failure(InvalidCredentials)
    else if st.users[email].emailVerifiedAt.None? then Failure(EmailNotVerified)
    else
      var a := st.users[email];
      Success(st.(users := st.users[email := a.(tokens := a.tokens + [tokenId])]))
  }

  /**
   * A newly registered account cannot log in until it verifies the OTP it was sent,
   * and can once it has, within the OTP's lifetime.
   */
  lemma RegisterVerifyLogin(st: AuthState, name: string, email: string, password: string, passwordHash: string,
                            check: (string, string) -> bool, code: string, at: Time, now: Time, tokenId: nat)
    requires email !in st.users
    requires check(password, passwordHash)
    requires now <= at + OtpLifetime
    ensures var registered := Register(st, name, email, passwordHash, code, at).value;
            Login(registered, email, password, check, tokenId) == Failure(EmailNotVerified)
            && VerifyOtp(registered, email, code, Verification, now).1
            && Login(VerifyOtp(registered, email, code, Verification, now).0, email, password, check, tokenId).Success?
  {
    var registered := Register(st, name, email, passwordHash, code, at).value;
    SentOtpVerifies(registered.(otps := st.otps), email, Verification, code, at, now);
    assert registered.(otps := st.otps).(otps := SendOtp(st.otps, email, Verification, code, at)) == registered;
  }

  /** refreshToken: revokes every token of the account and issues exactly one new one. */
  function RefreshToken(a: Account, tokenId: nat): (r: Account)
    ensures r.tokens == [tokenId]
    ensures r.(tokens := a.tokens) == a
  {
    a.(tokens := [tokenId])
  }
}

=== FILE: outbox.dfy ===
/**
 * The auth outbox: a row is recorded with the event (app/Services/AuthEvents/AuthOutboxService.php,
 * with the column defaults of the `auth_outbox_events` migration) and later published by
 * the queued job (app/Jobs/PublishAuthOutboxEventJob.php), which is safe to run again.
 *
 * The payload is a type parameter; the clock reading and what the encoder and server do
 * on each run are parameters. Queue retries are a sequence of runs of `Handle`.
 */
module Outbox {
  import opened Wrappers
  import opened NatsSubjects

  type Time = int

  datatype OutboxRow<P> = OutboxRow(id: string, subject: string, eventType: string, payload: P,
                                     attempts: nat, lastError: Option<string>, publishedAt: Option<Time>)

  /** record: a new, unpublished row whose type is its subject. */
  function Record<P>(id: string, subject: string, payload: P): (row: OutboxRow<P>)
    ensures row.id == id && row.subject == subject && row.eventType == subject && row.payload == payload
    ensures row.attempts == 0 && row.lastError.None? && row.publishedAt.None?
  {
    OutboxRow(id, subject, subject, payload, 0, None, None)
  }

  /**
   * handle: a published row is left alone. Otherwise the attempt is counted and saved
   * first; a failed publish leaves that count and propagates the error, and a
   * successful one stamps the row and clears the last error.
   */
  function Handle<P>(row: OutboxRow<P>, cfg: NatsConfig, d: Delivery, now: Time): (r: (OutboxRow<P>, Option<PublishError>))
    ensures row.publishedAt.Some? ==> r == (row, None)
    ensures row.publishedAt.None? ==> r.1 == Publish(cfg, row.subject, d) && r.0.attempts == row.attempts + 1
    ensures row.publishedAt.None? && r.1.Some? ==> r.0 == row.(attempts := row.attempts + 1)
    ensures row.publishedAt.None? && r.1.None? ==> r.0 == row.(attempts := row.attempts + 1, publishedAt := Some(now), lastError := None)
  {
    if row.publishedAt.Some? then (row, None)
    else
      var counted := row.(attempts := row.attempts + 1);
      var err := Publish(cfg, counted.subject, d);
      if err.Some? then (counted, err)
      else (counted.(publishedAt := Some(now), lastError := None), None)
  }

  /** failed: records the message of the final error and nothing else. */
  function Failed<P>(row: OutboxRow<P>, message: string): (r: OutboxRow<P>)
    ensures r.lastError == Some(message)
    ensures r.(lastError := row.lastError) == row
  {
    row.(lastError := Some(message))
  }

  /** Running the job on a row it has published changes nothing. */
  lemma HandleIdempotent<P>(row: OutboxRow<P>, cfg: NatsConfig, d1: Delivery, d2: Delivery, t1: Time, t2: Time)
    ensures var once := Handle(row, cfg, d1, t1).0;
            once.publishedAt.Some? ==> Handle(once, cfg, d2, t2) == (once, None)
  {
  }

  /** One job run: what the encoder and server do, and the time it reads. */
  datatype Run = Run(delivery: Delivery, at: Time)

  /** The row after a series of job runs. */
  function RunAll<P>(row: OutboxRow<P>, cfg: NatsConfig, runs: seq<Run>): (r: OutboxRow<P>)
    ensures r.id == row.id && r.subject == row.subject && r.payload == row.payload
    ensures r.attempts >= row.attempts
    decreases |runs|
  {
    if |runs| == 0 then row
    else RunAll(Handle(row, cfg, runs[0].delivery, runs[0].at).0, cfg, runs[1..])
  }

  /** Whether the run publishes the row's subject. */
  predicate Succeeds(cfg: NatsConfig, subject: string, run: Run) {
    Publish(cfg, subject, run.delivery).None?
  }

  /** Runs that all fail count one attempt each and leave the row unpublished and its last error as it was. */
  lemma {:induction false} FailingRunsCountAttempts<P>(row: OutboxRow<P>, cfg: NatsConfig, runs: seq<Run>)
    requires row.publishedAt.None?
    requires forall i :: 0 <= i < |runs| ==> !Succeeds(cfg, row.subject, runs[i])
    ensures RunAll(row, cfg, runs) == row.(attempts := row.attempts + |runs|)
    decreases |runs|
  {
    if |runs| > 0 {
      var next := Handle(row, cfg, runs[0].delivery, runs[0].at).0;
      assert forall i :: 0 <= i < |runs[1..]| ==> runs[1..][i] == runs[i + 1];
      FailingRunsCountAttempts(next, cfg, runs[1..]);
    }
  }

  /**
   * When run `k` is the first to publish, the row ends published at that run's time
   * with `k + 1` more attempts and no last error, however many runs follow.
   */
  lemma {:induction false} FirstSuccessPublishes<P>(row: OutboxRow<P>, cfg: NatsConfig, runs: seq<Run>, k: nat)
    requires row.publishedAt.None?
    requires k < |runs| && Succeeds(cfg, row.subject, runs[k])
    requires forall i :: 0 <= i < k ==> !Succeeds(cfg, row.subject, runs[i])
    ensures RunAll(row, cfg, runs)
            == row.(attempts := row.attempts + k + 1, publishedAt := Some(runs[k].at), lastError := None)
    decreases k
  {
    var next := Handle(row, cfg, runs[0].delivery, runs[0].at).0;
    if k == 0 {
      PublishedStays(next, cfg, runs[1..]);
    } else {
      assert forall i :: 0 <= i < |runs[1..]| ==> runs[1..][i] == runs[i + 1];
      FirstSuccessPublishes(next, cfg, runs[1..], k - 1);
    }
  }

  /** Further runs leave a published row as it is. */
  lemma {:induction false} PublishedStays<P>(row: OutboxRow<P>, cfg: NatsConfig, runs: seq<Run>)
    requires row.publishedAt.Some?
    ensures RunAll(row, cfg, runs) == row
    decreases |runs|
  {
    if |runs| > 0 {
      PublishedStays(row, cfg, runs[1..]);
    }
  }

  /** A recorded row published on a filtered-out subject is never stamped, however often the job runs. */
  lemma DisallowedSubjectNeverPublished<P>(id: string, subject: string, payload: P, cfg: NatsConfig, runs: seq<Run>)
    requires !SubjectAllowed(cfg.subjects, subject)
    ensures RunAll(Record(id, subject, payload), cfg, runs).publishedAt.None?
    ensures RunAll(Record(id, subject, payload), cfg, runs).attempts == |runs|
  {
    FailingRunsCountAttempts(Record(id, subject, payload), cfg, runs);
  }
}

=== FILE: path_dsl.dfy ===
/**
 * The path DSL of authorization rules (app/Models/AuthRule.php, compilePathDslToRegex).
 *
 * A DSL such as `/orders/{id}/items/` followed by a `**` segment is compiled into an anchored pattern. The
 * source emits a PCRE string; here the compiled form is a sequence of tokens (a
 * literal character, a one-segment wildcard `[^/]+`, a multi-segment wildcard `.*`)
 * and `Matches` is the meaning of the anchored regex. Each segment goes through the
 * same rewriting steps as the source: `{...}` (greedy up to the last `}`), then
 * `:identifier`, then `*` become a placeholder string, and the text is exploded on
 * that placeholder; the remaining pieces are literal.
 */
module PathDsl {
  import opened Wrappers
  import opened Text

  /** One unit of a compiled pattern. */
  datatype Tok =
    | Ch(c: char)   // the literal character c
    | OneSeg        // [^/]+ : one or more characters other than '/'
    | AnyText       // .*    : any characters except a newline, '/' included

  type Pattern = seq<Tok>

  /** The marker the source substitutes for wildcards before escaping literals. */
  const Placeholder: string := "__SEG_WILD__"

  // ---------------------------------------------------------------------------
  // Meaning of a compiled pattern: a full, anchored match

  predicate NoChar(s: string, c: char) {
    forall i :: 0 <= i < |s| ==> s[i] != c
  }

  /** `s` matches `p` from its first to its last character. */
  predicate Matches(p: Pattern, s: string)
    decreases |p|
  {
    if |p| == 0 then |s| == 0
    else match p[0]
      case Ch(c) => |s| > 0 && s[0] == c && Matches(p[1..], s[1..])
      case OneSeg => exists k :: 1 <= k <= |s| && NoChar(s[..k], '/') && Matches(p[1..], s[k..])
      case AnyText => exists k :: 0 <= k <= |s| && NoChar(s[..k], '\n') && Matches(p[1..], s[k..])
  }

  /** The pattern matching exactly the text `s`. */
  function Lits(s: string): (r: Pattern)
    ensures |r| == |s|
    ensures forall i :: 0 <= i < |s| ==> r[i] == Ch(s[i])
  {
    if |s| == 0 then [] else [Ch(s[0])] + Lits(s[1..])
  }

  // ---------------------------------------------------------------------------
  // Rewriting one segment

  function FirstIndex(s: string, c: char): (r: Option<nat>)
    ensures r.None? <==> NoChar(s, c)
    ensures r.Some? ==> r.value < |s| && s[r.value] == c && NoChar(s[..r.value], c)
  {
    if |s| == 0 then None
    else if s[0] == c then Some(0)
    else
      var t := FirstIndex(s[1..], c);
      if t.None? then None else Some(t.value + 1)
  }

  function LastIndex(s: string, c: char): (r: Option<nat>)
    ensures r.None? <==> NoChar(s, c)
    ensures r.Some? ==> r.value < |s| && s[r.value] == c && NoChar(s[r.value + 1..], c)
  {
    if |s| == 0 then None
    else if s[|s| - 1] == c then Some(|s| - 1)
    else LastIndex(s[..|s| - 1], c)
  }

  /**
   * preg_replace('/\{[^\/]+\}/', placeholder, seg) on a segment (which holds no '/'):
   * the leftmost '{' that has a '}' at least two characters later opens the match and
   * the greedy body runs to the last '}'. No later match is possible after it.
   */
  function ReplaceBraces(seg: string): string {
    var o := FirstIndex(seg, '{');
    var l := LastIndex(seg, '}');
    if o.Some? && l.Some? && l.value >= o.value + 2 then
      seg[..o.value] + Placeholder + seg[l.value + 1..]
    else seg
  }

  predicate IdentStart(c: char) {
    ('A' <= c <= 'Z') || ('a' <= c <= 'z') || c == '_'
  }

  predicate IdentChar(c: char) {
    IdentStart(c) || ('0' <= c <= '9')
  }

  /** Length of the longest prefix of `s` made of identifier characters. */
  function IdentRun(s: string): (n: nat)
    ensures n <= |s|
    ensures forall i :: 0 <= i < n ==> IdentChar(s[i])
    ensures n < |s| ==> !IdentChar(s[n])
  {
    if |s| > 0 && IdentChar(s[0]) then 1 + IdentRun(s[1..]) else 0
  }

  /** preg_replace('/:[A-Za-z_][A-Za-z0-9_]*\/', placeholder, s), scanning left to right. */
  function ReplaceColons(s: string): string
    decreases |s|
  {
    if |s| == 0 then ""
    else if s[0] == ':' && |s| >= 2 && IdentStart(s[1]) then
      Placeholder + ReplaceColons(s[2 + IdentRun(s[2..])..])
    else [s[0]] + ReplaceColons(s[1..])
  }

  /** str_replace('*', placeholder, s). */
  function ReplaceStars(s: string): string {
    if |s| == 0 then ""
    else (if s[0] == '*' then Placeholder else [s[0]]) + ReplaceStars(s[1..])
  }

  /** Literal pieces separated by one-segment wildcards. */
  function Interleave(parts: seq<string>): Pattern
    requires |parts| >= 1
  {
    if |parts| == 1 then Lits(parts[0])
    else Lits(parts[0]) + [OneSeg] + Interleave(parts[1..])
  }

  /** The compiled form of one non-empty segment. */
  function CompileSegment(seg: string): Pattern {
    if seg == "**" then [AnyText]
    else if seg == "*" then [OneSeg]
    else Interleave(SplitOn(ReplaceStars(ReplaceColons(ReplaceBraces(seg))), Placeholder))
  }

  // ---------------------------------------------------------------------------
  // Compiling a whole DSL string

  /** Keeps the non-empty segments, in order. */
  function NonEmpty(segs: seq<string>): (r: seq<string>)
    ensures forall k :: 0 <= k < |r| ==> r[k] != ""
    ensures |r| <= |segs|
  {
    if |segs| == 0 then []
    else if segs[0] == "" then NonEmpty(segs[1..])
    else [segs[0]] + NonEmpty(segs[1..])
  }

  function CompileAll(segs: seq<string>): (r: seq<Pattern>)
    ensures |r| == |segs|
    ensures forall k :: 0 <= k < |segs| ==> r[k] == CompileSegment(segs[k])
  {
    if |segs| == 0 then [] else [CompileSegment(segs[0])] + CompileAll(segs[1..])
  }

  /** implode('/', $compiled) on token sequences. */
  function JoinPatterns(ps: seq<Pattern>): Pattern {
    if |ps| == 0 then []
    else if |ps| == 1 then ps[0]
    else ps[0] + [Ch('/')] + JoinPatterns(ps[1..])
  }

  /** The trimmed DSL with a leading '/' added when missing. */
  function Normalize(p: string): string
    requires p != ""
  {
    if p[0] != '/' then "/" + p else p
  }

  /** The non-empty '/'-separated segments of a normalized DSL. */
  function Segments(q: string): seq<string> {
    NonEmpty(Split(DropLeading(q, '/'), '/'))
  }

  /**
   * compilePathDslToRegex: null for a null, falsy ("" or "0") or blank DSL; otherwise
   * a pattern that starts with a literal '/'.
   */
  function Compile(dsl: Option<string>): (r: Option<Pattern>)
    ensures r.None? <==> !TruthyOpt(dsl) || Trim(dsl.value) == ""
    ensures r.Some? ==> |r.value| >= 1 && r.value[0] == Ch('/')
  {
    if !TruthyOpt(dsl) then None
    else
      var p := Trim(dsl.value);
      if p == "" then None
      else Some([Ch('/')] + JoinPatterns(CompileAll(Segments(Normalize(p)))))
  }

  // ---------------------------------------------------------------------------
  // Properties of the matcher

  /** A literal pattern matches exactly its own text. */
  lemma {:induction false} LitsMatchExactly(a: string, s: string)
    ensures Matches(Lits(a), s) <==> s == a
    decreases |a|
  {
    if |a| > 0 {
      var q := Lits(a);
      assert q[0] == Ch(a[0]) && q[1..] == Lits(a[1..]);
      MatchesCh(q, s);
      if |s| > 0 {
        LitsMatchExactly(a[1..], s[1..]);
        assert s == [s[0]] + s[1..] && a == [a[0]] + a[1..];
      }
    }
  }

  /** A literal prefix of the pattern consumes exactly that prefix of the path. */
  lemma {:induction false} LitsPrefix(a: string, p: Pattern, s: string)
    ensures Matches(Lits(a) + p, s) <==> |a| <= |s| && s[..|a|] == a && Matches(p, s[|a|..])
    decreases |a|
  {
    if |a| == 0 {
      assert Lits(a) + p == p;
      assert s[..0] == a && s[0..] == s;
    } else {
      var q := Lits(a) + p;
      assert q[0] == Ch(a[0]);
      assert q[1..] == Lits(a[1..]) + p;
      MatchesCh(q, s);
      if |s| > 0 {
        LitsPrefix(a[1..], p, s[1..]);
        if |a| <= |s| {
          PrefixStep(a, s);
        }
      }
    }
  }

  /** A pattern that starts with a literal character matches by consuming that character. */
  lemma MatchesCh(q: Pattern, s: string)
    requires |q| > 0 && q[0].Ch?
    ensures Matches(q, s) <==> |s| > 0 && s[0] == q[0].c && Matches(q[1..], s[1..])
  {
  }

  /** Comparing a non-empty prefix is comparing the first character and then the rest. */
  lemma PrefixStep(a: string, s: string)
    requires 0 < |a| <= |s|
    ensures s[..|a|] == a <==> s[0] == a[0] && s[1..][..|a| - 1] == a[1..]
    ensures s[1..][|a| - 1..] == s[|a|..]
  {
    assert s[..|a|] == [s[0]] + s[1..][..|a| - 1];
    assert a == [a[0]] + a[1..];
  }

  /** Matching the first token consumes some prefix of the path. */
  lemma MatchesStep(p: Pattern, s: string) returns (k: nat)
    requires |p| > 0 && Matches(p, s)
    ensures k <= |s| && Matches(p[1..], s[k..])
  {
    match p[0]
    case Ch(c) => k := 1;
    case OneSeg => k :| 1 <= k <= |s| && NoChar(s[..k], '/') && Matches(p[1..], s[k..]);
    case AnyText => k :| 0 <= k <= |s| && NoChar(s[..k], '\n') && Matches(p[1..], s[k..]);
  }

  /** Whatever precedes a literal suffix, a match ends with that suffix (anchoring at the end). */
  lemma {:induction false} EndsWithLits(p: Pattern, b: string, s: string)
    requires Matches(p + Lits(b), s)
    ensures |b| <= |s| && s[|s| - |b|..] == b
    decreases |p|
  {
    if |p| == 0 {
      assert p + Lits(b) == Lits(b);
      LitsMatchExactly(b, s);
    } else {
      var k := MatchesStepAppend(p, Lits(b), s);
      EndsWithLits(p[1..], b, s[k..]);
      SuffixOfDrop(s, k, |b|);
    }
  }

  /** One step of a match of `p + x` consumes the first token of `p`. */
  lemma MatchesStepAppend(p: Pattern, x: Pattern, s: string) returns (k: nat)
    requires |p| > 0 && Matches(p + x, s)
    ensures k <= |s| && Matches(p[1..] + x, s[k..])
  {
    var q := p + x;
    assert q[1..] == p[1..] + x;
    k := MatchesStep(q, s);
  }

  lemma SuffixOfDrop(s: string, k: nat, n: nat)
    requires k <= |s| && n <= |s| - k
    ensures s[k..][|s| - k - n..] == s[|s| - n..]
  {
  }

  /** A one-segment wildcard matches one or more characters, none of them '/'. */
  lemma OneSegMatches(t: string)
    ensures Matches([OneSeg], t) <==> |t| >= 1 && NoChar(t, '/')
  {
    var p: Pattern := [OneSeg];
    var rest := p[1..];
    assert rest == [];
    if Matches(p, t) {
      var k :| 1 <= k <= |t| && NoChar(t[..k], '/') && Matches(rest, t[k..]);
      assert t[..k] == t;
    }
    if |t| >= 1 && NoChar(t, '/') {
      assert t[..|t|] == t && t[|t|..] == [];
      assert Matches(rest, t[|t|..]);
    }
  }

  /** A multi-segment wildcard matches any text without a newline, '/' included, even the empty text. */
  lemma AnyTextMatches(t: string)
    ensures Matches([AnyText], t) <==> NoChar(t, '\n')
  {
    var p: Pattern := [AnyText];
    var rest := p[1..];
    assert rest == [];
    if Matches(p, t) {
      var k :| 0 <= k <= |t| && NoChar(t[..k], '\n') && Matches(rest, t[k..]);
      assert t[..k] == t;
    }
    if NoChar(t, '\n') {
      assert t[..|t|] == t && t[|t|..] == [];
      assert Matches(rest, t[|t|..]);
    }
  }

  // ---------------------------------------------------------------------------
  // Properties of the compiler

  /** A DSL without its leading '/' compiles exactly like the same DSL with it. */
  lemma CompileAddsLeadingSlash(p: string)
    requires Truthy(p) && Trim(p) == p && p[0] != '/'
    ensures Compile(Some(p)) == Compile(Some("/" + p))
  {
    var q := "/" + p;
    assert q[|q| - 1] == p[|p| - 1];
    TrimOfTrimmed(q);
    assert Normalize(p) == q;
    assert Normalize(q) == q;
  }

  lemma {:induction false} LitsConcat(a: string, b: string)
    ensures Lits(a + b) == Lits(a) + Lits(b)
  {
  }

  lemma {:induction false} ReplaceColonsWithout(s: string)
    requires NoChar(s, ':')
    ensures ReplaceColons(s) == s
    decreases |s|
  {
    if |s| > 0 {
      ReplaceColonsWithout(s[1..]);
      assert s == [s[0]] + s[1..];
    }
  }

  lemma {:induction false} ReplaceStarsWithout(s: string)
    requires NoChar(s, '*')
    ensures ReplaceStars(s) == s
    decreases |s|
  {
    if |s| > 0 {
      ReplaceStarsWithout(s[1..]);
      assert s == [s[0]] + s[1..];
    }
  }

  /** The placeholder survives the later rewriting steps and becomes one wildcard. */
  lemma PlaceholderCompiles()
    ensures ReplaceColons(Placeholder) == Placeholder
    ensures ReplaceStars(Placeholder) == Placeholder
    ensures Interleave(SplitOn(Placeholder, Placeholder)) == [OneSeg]
  {
    assert NoChar(Placeholder, ':') && NoChar(Placeholder, '*');
    MarkerCompiles(Placeholder);
  }

  /** Any non-empty marker without ':' or '*' survives the rewriting and splits into one wildcard. */
  lemma MarkerCompiles(m: string)
    requires |m| > 0 && NoChar(m, ':') && NoChar(m, '*')
    ensures ReplaceColons(m) == m && ReplaceStars(m) == m
    ensures Interleave(SplitOn(m, m)) == [OneSeg]
  {
    ReplaceColonsWithout(m);
    ReplaceStarsWithout(m);
    SplitOnItself(m);
    InterleaveEmptyPair();
  }

  /** A separator split on itself leaves an empty piece on either side. */
  lemma SplitOnItself(m: string)
    requires |m| > 0
    ensures SplitOn(m, m) == ["", ""]
  {
    assert m[0..|m|] == m;
    assert OccursAt(m, m, 0);
    var t := m[|m|..];
    assert t == "";
    assert SplitOn(m, m) == [""] + SplitOn(t, m);
  }

  lemma InterleaveEmptyPair()
    ensures Interleave(["", ""]) == [OneSeg]
  {
  }

  /**
   * A segment that opens with '{' and closes with '}' is one wildcard, whatever is
   * between: the brace match is greedy, so `{a}-{b}` is a single wildcard too.
   */
  lemma BracedSegment(seg: string)
    requires |seg| >= 3 && seg[0] == '{' && seg[|seg| - 1] == '}'
    ensures CompileSegment(seg) == [OneSeg]
  {
    BracesReplaced(seg);
    assert seg != "**" && seg != "*" by { assert |seg| >= 3; }
    PlaceholderCompiles();
  }

  /** The brace rewrite of a segment that opens with '{' and closes with '}' is the bare placeholder. */
  lemma BracesReplaced(seg: string)
    requires |seg| >= 3 && seg[0] == '{' && seg[|seg| - 1] == '}'
    ensures ReplaceBraces(seg) == Placeholder
  {
    assert FirstIndex(seg, '{') == Some(0);
    assert LastIndex(seg, '}') == Some(|seg| - 1);
    assert seg[..0] == "" && seg[|seg|..] == "";
  }

  /** A whole `:name` segment is one wildcard. */
  lemma ColonSegment(seg: string)
    requires |seg| >= 2 && seg[0] == ':' && IdentStart(seg[1])
    requires forall i :: 2 <= i < |seg| ==> IdentChar(seg[i])
    ensures CompileSegment(seg) == [OneSeg]
  {
    ColonRun(seg);
    assert NoChar(seg, '{') by {
      forall i | 0 <= i < |seg| ensures seg[i] != '{' {
        if i >= 2 { assert IdentChar(seg[i]); }
      }
    }
    assert ReplaceBraces(seg) == seg;
    assert seg != "**" && seg != "*" by { assert seg[0] != '*'; }
    PlaceholderCompiles();
  }

  lemma ColonRun(seg: string)
    requires |seg| >= 2 && seg[0] == ':' && IdentStart(seg[1])
    requires forall i :: 2 <= i < |seg| ==> IdentChar(seg[i])
    ensures ReplaceColons(seg) == Placeholder
  {
    ColonStep(seg);
    ColonRunToEnd(seg);
    PlaceholderThenNothing(seg[2 + IdentRun(seg[2..])..]);
  }

  /** One rewrite step at a `:name` that starts the text. */
  lemma ColonStep(seg: string)
    requires |seg| >= 2 && seg[0] == ':' && IdentStart(seg[1])
    ensures ReplaceColons(seg) == Placeholder + ReplaceColons(seg[2 + IdentRun(seg[2..])..])
  {
  }

  /** After `:` and a first letter, a text of identifier characters is consumed to its end. */
  lemma ColonRunToEnd(seg: string)
    requires |seg| >= 2
    requires forall i :: 2 <= i < |seg| ==> IdentChar(seg[i])
    ensures seg[2 + IdentRun(seg[2..])..] == ""
  {
    var rest := seg[2..];
    forall i | 0 <= i < |rest| ensures IdentChar(rest[i]) {
      assert rest[i] == seg[i + 2];
    }
    IdentRunAll(rest);
  }

  lemma PlaceholderThenNothing(t: string)
    requires t == ""
    ensures Placeholder + ReplaceColons(t) == Placeholder
  {
  }

  /** A text made only of identifier characters is one identifier run. */
  lemma {:induction false} IdentRunAll(s: string)
    requires forall i :: 0 <= i < |s| ==> IdentChar(s[i])
    ensures IdentRun(s) == |s|
  {
    if |s| > 0 {
      assert forall i :: 0 <= i < |s[1..]| ==> s[1..][i] == s[i + 1];
      IdentRunAll(s[1..]);
    }
  }

  /** A segment with no wildcard syntax: it is matched literally. */
  ghost predicate LiteralSegment(seg: string) {
    && seg != ""
    && NoChar(seg, '{') && NoChar(seg, ':') && NoChar(seg, '*') && NoChar(seg, '/')
    && !IsTrimChar(seg[|seg| - 1])
    && forall i: nat :: !OccursAt(seg, Placeholder, i)
  }

  lemma LiteralSegmentCompiles(seg: string)
    requires LiteralSegment(seg)
    ensures CompileSegment(seg) == Lits(seg)
  {
    assert seg != "**" by { assert "**"[0] == '*'; }
    assert seg != "*" by { assert "*"[0] == '*'; }
    assert ReplaceBraces(seg) == seg;
    ReplaceColonsWithout(seg);
    ReplaceStarsWithout(seg);
    SplitOnAbsent(seg, Placeholder);
  }

  lemma {:induction false} NonEmptyKeeps(segs: seq<string>)
    requires forall k :: 0 <= k < |segs| ==> segs[k] != ""
    ensures NonEmpty(segs) == segs
  {
    if |segs| > 0 {
      NonEmptyKeeps(segs[1..]);
      assert segs == [segs[0]] + segs[1..];
    }
  }

  /** Joining literal segments with '/' compiles like the literal joined text. */
  lemma {:induction false} JoinLiteralSegments(segs: seq<string>)
    requires |segs| >= 1
    requires forall k :: 0 <= k < |segs| ==> LiteralSegment(segs[k])
    ensures JoinPatterns(CompileAll(segs)) == Lits(Join(segs, '/'))
  {
    var cs := CompileAll(segs);
    LiteralSegmentCompiles(segs[0]);
    assert cs[0] == Lits(segs[0]);
    if |segs| == 1 {
      assert JoinPatterns(cs) == cs[0];
    } else {
      CompileAllTail(segs);
      JoinLiteralSegments(segs[1..]);
      JoinPatternsCons(cs);
      JoinCons(segs, '/');
      LitsAroundSlash(segs[0], Join(segs[1..], '/'));
    }
  }

  lemma CompileAllTail(segs: seq<string>)
    requires |segs| >= 1
    ensures CompileAll(segs)[1..] == CompileAll(segs[1..])
  {
  }

  lemma JoinPatternsCons(ps: seq<Pattern>)
    requires |ps| >= 2
    ensures JoinPatterns(ps) == ps[0] + [Ch('/')] + JoinPatterns(ps[1..])
  {
  }

  /** The literal pattern of `a`, '/', `b` is the three literal pieces in turn. */
  lemma LitsAroundSlash(a: string, b: string)
    ensures Lits(a + ['/'] + b) == Lits(a) + [Ch('/')] + Lits(b)
  {
    LitsConcat(a + ['/'], b);
    LitsConcat(a, ['/']);
  }

  /** A path of literal segments compiles to its own literal text. */
  lemma LiteralPathCompiles(segs: seq<string>)
    requires |segs| >= 1
    requires forall k :: 0 <= k < |segs| ==> LiteralSegment(segs[k])
    ensures Compile(Some("/" + Join(segs, '/'))) == Some(Lits("/" + Join(segs, '/')))
  {
    var j := Join(segs, '/');
    assert LiteralSegment(segs[0]) && LiteralSegment(segs[|segs| - 1]);
    JoinFirst(segs, '/');
    JoinLast(segs, '/');
    CompileKeepsNonEmpty(segs, j);
    NonEmptyKeeps(segs);
    JoinLiteralSegments(segs);
    LitsConcat("/", j);
  }

  /**
   * A path written without wildcard syntax (a '/' followed by non-empty literal
   * segments) compiles to the pattern that matches that path and nothing else: the
   * match is anchored at both ends and every character, '.' included, is literal.
   */
  lemma LiteralPathMatchesExactly(segs: seq<string>, s: string)
    requires |segs| >= 1
    requires forall k :: 0 <= k < |segs| ==> LiteralSegment(segs[k])
    ensures var p := "/" + Join(segs, '/');
      Compile(Some(p)).Some? && (Matches(Compile(Some(p)).value, s) <==> s == p)
  {
    LiteralPathCompiles(segs);
    LitsMatchExactly("/" + Join(segs, '/'), s);
  }

  // ---------------------------------------------------------------------------
  // Worked examples of the DSL

  /** A blank or falsy DSL compiles to nothing, so the rule never path-matches. */
  lemma BlankCompilesToNothing()
    ensures Compile(None) == None
    ensures Compile(Some("")) == None
    ensures Compile(Some("0")) == None
    ensures Compile(Some("  \t")) == None
  {
    assert Trim("  \t") == "";
  }

  /** `/` compiles to the pattern accepting only `/`. */
  lemma RootPattern(p: string, s: string)
    requires p == "/"
    ensures Compile(Some(p)) == Some(Lits(p))
    ensures Matches(Lits(p), s) <==> s == "/"
  {
    TrimOfTrimmed(p);
    assert Normalize(p) == p;
    RootSegments();
    assert JoinPatterns(CompileAll([])) == [];
    assert Lits(p) == [Ch('/')];
    LitsMatchExactly(p, s);
  }

  lemma RootSegments()
    ensures Segments("/") == []
  {
    var p := "/";
    assert p[1..] == "";
    assert DropLeading(p, '/') == DropLeading("", '/') == "";
    assert Split("", '/') == [""];
    assert NonEmpty([""]) == [];
  }

  lemma {:induction false} JoinPatternsAppend(ps: seq<Pattern>, q: Pattern)
    requires |ps| >= 1
    ensures JoinPatterns(ps + [q]) == JoinPatterns(ps) + [Ch('/')] + q
  {
    if |ps| > 1 {
      JoinPatternsAppend(ps[1..], q);
      assert (ps + [q])[1..] == ps[1..] + [q];
    }
  }

  /**
   * A trimmed path written as '/' and non-empty, slash-free segments compiles segment
   * by segment: the result is '/' followed by the compiled segments joined with '/'.
   */
  lemma SegmentwiseCompile(all: seq<string>)
    requires |all| >= 1
    requires forall k :: 0 <= k < |all| ==> all[k] != "" && NoChar(all[k], '/')
    requires !IsTrimChar(all[|all| - 1][|all[|all| - 1]| - 1])
    ensures Compile(Some("/" + Join(all, '/'))) == Some([Ch('/')] + JoinPatterns(CompileAll(all)))
  {
    var ja := Join(all, '/');
    JoinLast(all, '/');
    CompileKeepsNonEmpty(all, ja);
    NonEmptyKeeps(all);
  }

  /** An empty segment contributes nothing to the kept segments. */
  lemma {:induction false} NonEmptySkipsEmpty(xs: seq<string>, ys: seq<string>)
    ensures NonEmpty(xs + [""] + ys) == NonEmpty(xs + ys)
  {
    var a := xs + [""] + ys;
    var b := xs + ys;
    if |xs| == 0 {
      assert a[0] == "" && a[1..] == ys && b == ys;
      NonEmptyStep(a);
    } else {
      assert a[0] == xs[0] == b[0];
      assert a[1..] == xs[1..] + [""] + ys;
      assert b[1..] == xs[1..] + ys;
      NonEmptySkipsEmpty(xs[1..], ys);
      NonEmptyStep(a);
      NonEmptyStep(b);
    }
  }

  /** One step of keeping the non-empty segments. */
  lemma NonEmptyStep(xs: seq<string>)
    requires |xs| > 0
    ensures NonEmpty(xs) == (if xs[0] == "" then [] else [xs[0]]) + NonEmpty(xs[1..])
  {
  }

  /**
   * A trimmed DSL written as '/' and slash-free segments, the first non-empty, compiles
   * to '/' followed by its non-empty segments, compiled and joined with '/'.
   */
  lemma CompileKeepsNonEmpty(all: seq<string>, j: string)
    requires |all| >= 1 && all[0] != ""
    requires forall k :: 0 <= k < |all| ==> NoChar(all[k], '/')
    requires j == Join(all, '/') && |j| > 0 && !IsTrimChar(j[|j| - 1])
    ensures Compile(Some("/" + j)) == Some([Ch('/')] + JoinPatterns(CompileAll(NonEmpty(all))))
  {
    JoinFirst(all, '/');
    assert NoChar(all[0], '/');
    SlashPathCompiles(j);
    assert forall k :: 0 <= k < |all| ==> !HasChar(all[k], '/');
    SplitJoin(all, '/');
  }

  /** A trimmed DSL written as '/' and a text not starting with '/' compiles over the pieces of that text. */
  lemma SlashPathCompiles(j: string)
    requires |j| > 0 && j[0] != '/' && !IsTrimChar(j[|j| - 1])
    ensures Compile(Some("/" + j)) == Some([Ch('/')] + JoinPatterns(CompileAll(NonEmpty(Split(j, '/')))))
  {
    var p := "/" + j;
    SlashPathTrimmed(j);
    assert p[0] == '/' && p[1..] == j;
    assert Truthy(p) by { assert |p| >= 2; }
    DropSlash(p);
    CompileOfTrimmed(p);
  }

  /** '/' followed by a text that ends in a non-blank character is already trimmed. */
  lemma SlashPathTrimmed(j: string)
    requires |j| > 0 && !IsTrimChar(j[|j| - 1])
    ensures Trim("/" + j) == "/" + j
  {
    var p := "/" + j;
    assert p[0] == '/' && p[|p| - 1] == j[|j| - 1];
    TrimOfTrimmed(p);
  }

  /** A DSL that starts with a single '/' is its own normal form, and that '/' is all that is dropped. */
  lemma DropSlash(p: string)
    requires |p| >= 2 && p[0] == '/' && p[1] != '/'
    ensures Normalize(p) == p && DropLeading(p, '/') == p[1..]
  {
    var t := p[1..];
    assert t[0] == p[1];
    assert DropLeading(t, '/') == t;
  }

  /** A truthy trimmed DSL compiles over the segments of its normalized form. */
  lemma CompileOfTrimmed(t: string)
    requires Truthy(t) && Trim(t) == t
    ensures Compile(Some(t)) == Some([Ch('/')] + JoinPatterns(CompileAll(Segments(Normalize(t)))))
  {
  }

  /** The parts of `xs + [""] + ys` and `xs + ys` are those of `xs` and `ys`. */
  lemma ConcatParts(xs: seq<string>, ys: seq<string>)
    requires |xs| >= 1 && |ys| >= 1
    requires forall k :: 0 <= k < |xs| ==> xs[k] != "" && NoChar(xs[k], '/')
    requires forall k :: 0 <= k < |ys| ==> ys[k] != "" && NoChar(ys[k], '/')
    ensures var all := xs + [""] + ys;
            all[0] == xs[0] && all[|all| - 1] == ys[|ys| - 1]
            && forall k :: 0 <= k < |all| ==> NoChar(all[k], '/')
    ensures var both := xs + ys;
            both[|both| - 1] == ys[|ys| - 1]
            && forall k :: 0 <= k < |both| ==> both[k] != "" && NoChar(both[k], '/')
  {
    var all := xs + [""] + ys;
    var both := xs + ys;
    forall k | 0 <= k < |all| ensures NoChar(all[k], '/') {
      if k < |xs| { assert all[k] == xs[k]; }
      else if k > |xs| { assert all[k] == ys[k - |xs| - 1]; }
    }
    forall k | 0 <= k < |both| ensures both[k] != "" && NoChar(both[k], '/') {
      if k < |xs| { assert both[k] == xs[k]; } else { assert both[k] == ys[k - |xs|]; }
    }
  }

  /** A doubled '/' is ignored: the DSL `/a//b` compiles like `/a/b`. */
  lemma DoubleSlashIgnored(xs: seq<string>, ys: seq<string>)
    requires |xs| >= 1 && |ys| >= 1
    requires forall k :: 0 <= k < |xs| ==> xs[k] != "" && NoChar(xs[k], '/')
    requires forall k :: 0 <= k < |ys| ==> ys[k] != "" && NoChar(ys[k], '/')
    requires !IsTrimChar(ys[|ys| - 1][|ys[|ys| - 1]| - 1])
    ensures Compile(Some("/" + Join(xs + [""] + ys, '/'))) == Compile(Some("/" + Join(xs + ys, '/')))
  {
    var all := xs + [""] + ys;
    var both := xs + ys;
    ConcatParts(xs, ys);
    JoinLast(all, '/');
    NonEmptySkipsEmpty(xs, ys);
    NonEmptyKeeps(both);
    SameKeptSegments(all, both);
  }

  /** Two slash-free segment lists that keep the same segments compile alike. */
  lemma SameKeptSegments(all: seq<string>, both: seq<string>)
    requires |all| >= 1 && all[0] != ""
    requires forall k :: 0 <= k < |all| ==> NoChar(all[k], '/')
    requires var j := Join(all, '/'); |j| > 0 && !IsTrimChar(j[|j| - 1])
    requires |both| >= 1 && NonEmpty(all) == both
    requires forall k :: 0 <= k < |both| ==> both[k] != "" && NoChar(both[k], '/')
    requires !IsTrimChar(both[|both| - 1][|both[|both| - 1]| - 1])
    ensures Compile(Some("/" + Join(all, '/'))) == Compile(Some("/" + Join(both, '/')))
  {
    CompileKeepsNonEmpty(all, Join(all, '/'));
    SegmentwiseCompile(both);
  }

  /** A trailing '/' is ignored: the DSL `/a/b/` compiles like `/a/b`. */
  lemma TrailingSlashIgnored(segs: seq<string>)
    requires |segs| >= 1
    requires forall k :: 0 <= k < |segs| ==> segs[k] != "" && NoChar(segs[k], '/')
    requires !IsTrimChar(segs[|segs| - 1][|segs[|segs| - 1]| - 1])
    ensures Compile(Some("/" + Join(segs, '/') + "/")) == Compile(Some("/" + Join(segs, '/')))
  {
    var all := segs + [""];
    JoinAppend(segs, "", '/');
    assert Join(all, '/') == Join(segs, '/') + "/";
    assert "/" + Join(segs, '/') + "/" == "/" + Join(all, '/');
    assert all[0] == segs[0];
    assert forall k :: 0 <= k < |all| ==> NoChar(all[k], '/') by {
      forall k | 0 <= k < |all| ensures NoChar(all[k], '/') {
        if k < |segs| { assert all[k] == segs[k]; }
      }
    }
    CompileKeepsNonEmpty(all, Join(all, '/'));
    NonEmptySkipsEmpty(segs, []);
    assert segs + [""] + [] == all && segs + [] == segs;
    NonEmptyKeeps(segs);
    SegmentwiseCompile(segs);
  }

  lemma {:induction false} CompileAllAppend(segs: seq<string>, w: string)
    ensures CompileAll(segs + [w]) == CompileAll(segs) + [CompileSegment(w)]
  {
    if |segs| > 0 {
      CompileAllAppend(segs[1..], w);
      assert (segs + [w])[1..] == segs[1..] + [w];
    }
  }

  /**
   * A path of literal segments followed by one more segment `w` compiles to the
   * literal text up to and including the last '/', followed by the compiled `w`.
   */
  lemma LiteralPrefixCompiles(segs: seq<string>, w: string)
    requires |segs| >= 1
    requires forall k :: 0 <= k < |segs| ==> LiteralSegment(segs[k])
    requires w != "" && NoChar(w, '/') && !IsTrimChar(w[|w| - 1])
    ensures Compile(Some("/" + Join(segs + [w], '/'))) == Some(Lits("/" + Join(segs, '/') + "/") + CompileSegment(w))
  {
    var all := segs + [w];
    PlainSegments(segs, w);
    assert all[|all| - 1] == w;
    SegmentwiseCompile(all);
    var j := Join(segs, '/');
    JoinLiteralPrefix(segs, w);
    PrefixLits(j, CompileSegment(w));
    assert [Ch('/')] + JoinPatterns(CompileAll(all)) == Lits("/" + j + "/") + CompileSegment(w);
  }

  lemma PlainSegments(segs: seq<string>, w: string)
    requires forall k :: 0 <= k < |segs| ==> LiteralSegment(segs[k])
    requires w != "" && NoChar(w, '/')
    ensures forall k :: 0 <= k < |segs + [w]| ==> (segs + [w])[k] != "" && NoChar((segs + [w])[k], '/')
  {
    forall k | 0 <= k < |segs + [w]| ensures (segs + [w])[k] != "" && NoChar((segs + [w])[k], '/') {
      if k < |segs| { assert (segs + [w])[k] == segs[k] && LiteralSegment(segs[k]); }
    }
  }

  lemma JoinLiteralPrefix(segs: seq<string>, w: string)
    requires |segs| >= 1
    requires forall k :: 0 <= k < |segs| ==> LiteralSegment(segs[k])
    ensures JoinPatterns(CompileAll(segs + [w])) == Lits(Join(segs, '/')) + [Ch('/')] + CompileSegment(w)
  {
    CompileAllAppend(segs, w);
    JoinPatternsAppend(CompileAll(segs), CompileSegment(w));
    JoinLiteralSegments(segs);
  }

  lemma PrefixLits(j: string, cw: Pattern)
    ensures [Ch('/')] + (Lits(j) + [Ch('/')] + cw) == Lits("/" + j + "/") + cw
  {
    LitsConcat("/", j);
    LitsConcat("/" + j, "/");
    assert Lits("/" + j + "/") == [Ch('/')] + Lits(j) + [Ch('/')];
  }

  /**
   * A trailing `**` matches everything below the prefix: exactly the paths that start
   * with the literal prefix and its '/', whatever follows (except a newline). So the DSL
   * `/orders/` + `**` accepts `/orders/` and `/orders/5/items/9` but not `/orders`.
   */
  lemma TrailingDoubleStarMatches(segs: seq<string>, s: string)
    requires |segs| >= 1
    requires forall k :: 0 <= k < |segs| ==> LiteralSegment(segs[k])
    ensures var prefix := "/" + Join(segs, '/') + "/";
      && Compile(Some("/" + Join(segs + ["**"], '/'))) == Some(Lits(prefix) + [AnyText])
      && (Matches(Lits(prefix) + [AnyText], s) <==>
            StartsWith(s, prefix) && NoChar(s[|prefix|..], '\n'))
  {
    var prefix := "/" + Join(segs, '/') + "/";
    assert NoChar("**", '/');
    LiteralPrefixCompiles(segs, "**");
    LitsPrefix(prefix, [AnyText], s);
    if |prefix| <= |s| {
      AnyTextMatches(s[|prefix|..]);
    }
  }

  /**
   * A trailing `{name}` segment matches exactly one more non-empty segment: the paths
   * that are the literal prefix, its '/', then one or more characters none of which
   * is '/'. So `/orders/{id}` accepts `/orders/42` but not `/orders/` or
   * `/orders/42/items`.
   */
  lemma TrailingParameterMatches(segs: seq<string>, w: string, s: string)
    requires |segs| >= 1
    requires forall k :: 0 <= k < |segs| ==> LiteralSegment(segs[k])
    requires |w| >= 3 && w[0] == '{' && w[|w| - 1] == '}' && NoChar(w, '/')
    ensures var prefix := "/" + Join(segs, '/') + "/";
      && Compile(Some("/" + Join(segs + [w], '/'))) == Some(Lits(prefix) + [OneSeg])
      && (Matches(Lits(prefix) + [OneSeg], s) <==>
            StartsWith(s, prefix) && |s| > |prefix| && NoChar(s[|prefix|..], '/'))
  {
    var prefix := "/" + Join(segs, '/') + "/";
    BracedSegment(w);
    LiteralPrefixCompiles(segs, w);
    LitsPrefix(prefix, [OneSeg], s);
    if |prefix| <= |s| {
      OneSegMatches(s[|prefix|..]);
    }
  }
}

=== FILE: resolver.dfy ===
/**
 * The authorization decision (app/Services/V1/Auth/AuthorizationResolver.php, check).
 *
 * Given the rules table, a request (service, verb, path, optional route name) and
 * the caller's roles, permissions and token abilities, the resolver answers with
 * (authorized, required permissions, granted-by). Configuration (config/authz.php)
 * is a parameter.
 */
module Resolver {
  import opened Wrappers
  import opened Text
  import opened PathDsl
  import opened AuthRules
  import opened RuleOrder

  /** The `authz` configuration; a missing `allow_if_no_rule` is `None` and means deny. */
  datatype AuthzConfig = AuthzConfig(superRoles: seq<string>, allowIfNoRule: Option<bool>)

  /** The configuration as shipped: no-rule requests are allowed, `super-admin` bypasses. */
  const ShippedConfig: AuthzConfig := AuthzConfig(["super-admin"], Some(true))

  datatype GrantedBy = SuperRole | NoRule | ByRoles | ByPermissionsAny | ByPermissionsAll | Denied

  datatype Decision = Decision(authorized: bool, required: seq<string>, grantedBy: GrantedBy)

  // ---------------------------------------------------------------------------
  // Set tests on name lists

  /** Some needle is in the haystack; never true for no needles. */
  function HasAny(haystack: seq<string>, needles: seq<string>): (r: bool)
    ensures r <==> exists i :: 0 <= i < |needles| && needles[i] in haystack
  {
    if |needles| == 0 then false
    else needles[0] in haystack || HasAny(haystack, needles[1..])
  }

  /** Every needle is in the haystack; false for no needles. */
  function HasAll(haystack: seq<string>, needles: seq<string>): (r: bool)
    ensures r <==> |needles| > 0 && forall i :: 0 <= i < |needles| ==> needles[i] in haystack
  {
    |needles| > 0 && AllIn(haystack, needles)
  }

  function AllIn(haystack: seq<string>, needles: seq<string>): (r: bool)
    ensures r <==> forall i :: 0 <= i < |needles| ==> needles[i] in haystack
  {
    if |needles| == 0 then true
    else needles[0] in haystack && AllIn(haystack, needles[1..])
  }

  /** Token abilities place no restriction: none are listed, or `*` is. */
  predicate Unrestricted(abilities: seq<string>) {
    |abilities| == 0 || "*" in abilities
  }

  /** The abilities cover at least one of the permissions. */
  function CoversAny(abilities: seq<string>, perms: seq<string>): (r: bool)
    ensures r <==> Unrestricted(abilities) || exists i :: 0 <= i < |perms| && perms[i] in abilities
  {
    if |abilities| == 0 then true
    else if "*" in abilities then true
    else HasAny(abilities, perms)
  }

  /** The abilities cover every one of the permissions. */
  function CoversAll(abilities: seq<string>, perms: seq<string>): (r: bool)
    ensures r <==> Unrestricted(abilities) || forall i :: 0 <= i < |perms| ==> perms[i] in abilities
  {
    if |abilities| == 0 then true
    else if "*" in abilities then true
    else AllIn(abilities, perms)
  }

  // ---------------------------------------------------------------------------
  // Candidate rules

  /** Same service, active, and verb equal to the (upper-cased) request method or ANY. */
  predicate Eligible(r: Rule, service: string, verb: string) {
    r.service == service && r.isActive && (r.httpMethod == verb || r.httpMethod == "ANY")
  }

  function Filter(rules: seq<Rule>, service: string, verb: string): (r: seq<Rule>)
    ensures forall x :: x in r <==> x in rules && Eligible(x, service, verb)
    ensures multiset(r) <= multiset(rules)
  {
    if |rules| == 0 then []
    else
      var rest := Filter(rules[1..], service, verb);
      assert rules == [rules[0]] + rules[1..];
      if Eligible(rules[0], service, verb) then [rules[0]] + rest else rest
  }

  /** The eligible rules, priority descending then id ascending. */
  function Candidates(rules: seq<Rule>, service: string, verb: string): (r: seq<Rule>)
    ensures Sorted(r)
    ensures forall x :: x in r <==> x in rules && Eligible(x, service, verb)
    ensures forall i :: 0 <= i < |r| ==> r[i].service == service
  {
    var f := Filter(rules, service, verb);
    var c := Sort(f);
    SameElements(f, c);
    assert forall i :: 0 <= i < |c| ==> c[i] in f;
    c
  }

  lemma SameElements(a: seq<Rule>, b: seq<Rule>)
    requires multiset(a) == multiset(b)
    ensures forall x :: x in a <==> x in b
  {
    forall x ensures x in a <==> x in b {
      assert x in a <==> x in multiset(a);
      assert x in b <==> x in multiset(b);
    }
  }

  /** Index of the first element satisfying `p`, if any. */
  function FirstWhere(s: seq<Rule>, p: Rule -> bool): (r: Option<nat>)
    ensures r.Some? ==> r.value < |s| && p(s[r.value]) && forall j :: 0 <= j < r.value ==> !p(s[j])
    ensures r.None? ==> forall j :: 0 <= j < |s| ==> !p(s[j])
  {
    if |s| == 0 then None
    else if p(s[0]) then Some(0)
    else
      var t := FirstWhere(s[1..], p);
      if t.None? then None else Some(t.value + 1)
  }

  predicate RouteMatches(r: Rule, name: string) {
    TruthyOpt(r.routeName) && r.routeName.value == name
  }

  predicate PathMatches(r: Rule, path: string) {
    r.pathRegex.Some? && Matches(r.pathRegex.value, path)
  }

  /** Step 3 and 4: the first route-name match if a route name is given, else the first path match. */
  function Select(cands: seq<Rule>, path: string, routeName: Option<string>): (m: Option<Rule>)
    ensures m.Some? ==> m.value in cands
  {
    var byRoute := if TruthyOpt(routeName) then FirstWhere(cands, r => RouteMatches(r, routeName.value)) else None;
    if byRoute.Some? then Some(cands[byRoute.value])
    else
      var byPath := FirstWhere(cands, r => PathMatches(r, path));
      if byPath.Some? then Some(cands[byPath.value]) else None
  }

  // ---------------------------------------------------------------------------
  // Evaluating the matched rule

  function Evaluate(rule: Rule, roles: seq<string>, perms: seq<string>, abilities: seq<string>): (d: Decision)
    ensures d.authorized <==> d.grantedBy != Denied
    ensures d.grantedBy in {ByRoles, ByPermissionsAny, ByPermissionsAll, Denied}
  {
    var rRoles := rule.rolesAny.GetOr([]);
    var anyOf := rule.permissionsAny.GetOr([]);
    var allOf := rule.permissionsAll.GetOr([]);
    if |rRoles| > 0 && HasAny(roles, rRoles) then Decision(true, [], ByRoles)
    else if |anyOf| > 0 && HasAny(perms, anyOf) && CoversAny(abilities, anyOf) then
      Decision(true, anyOf, ByPermissionsAny)
    else if |allOf| > 0 && HasAll(perms, allOf) && CoversAll(abilities, allOf) then
      Decision(true, allOf, ByPermissionsAll)
    else Decision(false, if |anyOf| > 0 then anyOf else allOf, Denied)
  }

  /** The whole decision. */
  function Check(cfg: AuthzConfig, rules: seq<Rule>, service: string, verb: string, path: string,
                 routeName: Option<string>, roles: seq<string>, perms: seq<string>,
                 abilities: seq<string>): (d: Decision)
    ensures d.grantedBy == SuperRole ==> d.authorized && d.required == []
    ensures d.grantedBy == NoRule ==> d.required == []
  {
    if HasAny(roles, cfg.superRoles) then Decision(true, [], SuperRole)
    else
      var cands := Candidates(rules, service, ToUpper(verb));
      match Select(cands, path, routeName)
      case None => Decision(cfg.allowIfNoRule.GetOr(false), [], NoRule)
      case Some(r) => Evaluate(r, roles, perms, abilities)
  }

  // ---------------------------------------------------------------------------
  // A declarative reading of the rule requirements

  /** The user satisfies a requirement and the token may exercise it. */
  predicate Grants(rule: Rule, roles: seq<string>, perms: seq<string>, abilities: seq<string>) {
    var rRoles := rule.rolesAny.GetOr([]);
    var anyOf := rule.permissionsAny.GetOr([]);
    var allOf := rule.permissionsAll.GetOr([]);
    || (exists x :: x in rRoles && x in roles)
    || ((exists p :: p in anyOf && p in perms)
        && (Unrestricted(abilities) || exists p :: p in anyOf && p in abilities))
    || (|allOf| > 0 && (forall p :: p in allOf ==> p in perms)
        && (Unrestricted(abilities) || forall p :: p in allOf ==> p in abilities))
  }

  /** The matched rule authorizes exactly when one of its requirements is met and covered. */
  lemma EvaluateAuthorizedIff(rule: Rule, roles: seq<string>, perms: seq<string>, abilities: seq<string>)
    ensures Evaluate(rule, roles, perms, abilities).authorized <==> Grants(rule, roles, perms, abilities)
  {
    var rRoles := rule.rolesAny.GetOr([]);
    var anyOf := rule.permissionsAny.GetOr([]);
    var allOf := rule.permissionsAll.GetOr([]);
    if exists x :: x in rRoles && x in roles {
      var x :| x in rRoles && x in roles;
      var i :| 0 <= i < |rRoles| && rRoles[i] == x;
      assert HasAny(roles, rRoles);
    }
    if exists p :: p in anyOf && p in perms {
      var p :| p in anyOf && p in perms;
      var i :| 0 <= i < |anyOf| && anyOf[i] == p;
      assert HasAny(perms, anyOf);
    }
    if exists p :: p in anyOf && p in abilities {
      var p :| p in anyOf && p in abilities;
      var i :| 0 <= i < |anyOf| && anyOf[i] == p;
      assert exists i :: 0 <= i < |anyOf| && anyOf[i] in abilities;
    }
  }

  /**
   * A denial names permissions_any when it is non-empty and permissions_all otherwise;
   * a grant by roles names nothing, a grant by permissions names the list that granted.
   */
  lemma EvaluateRequired(rule: Rule, roles: seq<string>, perms: seq<string>, abilities: seq<string>)
    ensures var d := Evaluate(rule, roles, perms, abilities);
      var anyOf := rule.permissionsAny.GetOr([]);
      && (d.grantedBy == Denied ==> d.required == (if |anyOf| > 0 then anyOf else rule.permissionsAll.GetOr([])))
      && (d.grantedBy == ByRoles ==> d.required == [])
      && (d.grantedBy == ByPermissionsAny ==> d.required == anyOf)
      && (d.grantedBy == ByPermissionsAll ==> d.required == rule.permissionsAll.GetOr([]))
  {
  }

  /** A role match wins before permissions are looked at. */
  lemma RolesComeFirst(rule: Rule, roles: seq<string>, perms: seq<string>, abilities: seq<string>, x: string)
    requires x in rule.rolesAny.GetOr([]) && x in roles
    ensures Evaluate(rule, roles, perms, abilities) == Decision(true, [], ByRoles)
  {
    var rRoles := rule.rolesAny.GetOr([]);
    var i :| 0 <= i < |rRoles| && rRoles[i] == x;
    assert HasAny(roles, rRoles);
  }

  /** A rule without any requirement denies everyone, with nothing required. */
  lemma NoRequirementDenies(rule: Rule, roles: seq<string>, perms: seq<string>, abilities: seq<string>)
    requires |rule.rolesAny.GetOr([])| == 0
    requires |rule.permissionsAny.GetOr([])| == 0 && |rule.permissionsAll.GetOr([])| == 0
    ensures Evaluate(rule, roles, perms, abilities) == Decision(false, [], Denied)
  {
  }

  /** Holding more roles and permissions never turns a grant into a denial. */
  lemma EvaluateMonotone(rule: Rule, roles: seq<string>, perms: seq<string>, roles': seq<string>,
                         perms': seq<string>, abilities: seq<string>)
    requires forall x :: x in roles ==> x in roles'
    requires forall x :: x in perms ==> x in perms'
    requires Evaluate(rule, roles, perms, abilities).authorized
    ensures Evaluate(rule, roles', perms', abilities).authorized
  {
    EvaluateAuthorizedIff(rule, roles, perms, abilities);
    EvaluateAuthorizedIff(rule, roles', perms', abilities);
  }

  /** An ability list containing `*` restricts nothing: it decides like an empty list. */
  lemma WildcardAbilityIsUnrestricted(rule: Rule, roles: seq<string>, perms: seq<string>, abilities: seq<string>)
    requires "*" in abilities
    ensures Evaluate(rule, roles, perms, abilities) == Evaluate(rule, roles, perms, [])
  {
  }

  /**
   * An empty ability list is not the weakest token: naming a single unrelated ability
   * can turn a permission-based grant into a denial.
   */
  lemma AbilitiesCanRestrict(rule: Rule, p: string, q: string)
    requires rule.rolesAny == None && rule.permissionsAll == None
    requires rule.permissionsAny == Some([p]) && p != q && q != "*"
    ensures Evaluate(rule, [], [p], []).authorized
    ensures !Evaluate(rule, [], [p], [q]).authorized
  {
    assert HasAny([p], [p]) by { assert [p][0] in [p]; }
  }

  // ---------------------------------------------------------------------------
  // Properties of the whole decision

  /** A super role is allowed before any rule is consulted, whatever the rules are. */
  lemma SuperRoleBypass(cfg: AuthzConfig, rules: seq<Rule>, service: string, verb: string, path: string,
                        routeName: Option<string>, roles: seq<string>, perms: seq<string>,
                        abilities: seq<string>, x: string)
    requires x in cfg.superRoles && x in roles
    ensures Check(cfg, rules, service, verb, path, routeName, roles, perms, abilities) == Decision(true, [], SuperRole)
  {
    var i :| 0 <= i < |cfg.superRoles| && cfg.superRoles[i] == x;
    assert HasAny(roles, cfg.superRoles);
  }

  /**
   * With a truthy route name that some candidate carries, the chosen rule is the first
   * such candidate in priority order, and the path plays no part: a path rule of
   * higher priority does not win.
   */
  lemma RouteNameTakesPrecedence(cands: seq<Rule>, path: string, path': string, name: string, k: nat)
    requires Truthy(name) && k < |cands| && RouteMatches(cands[k], name) && Sorted(cands)
    ensures var m := Select(cands, path, Some(name));
      && m.Some? && RouteMatches(m.value, name)
      && (forall j :: 0 <= j < |cands| && RouteMatches(cands[j], name) ==> RuleLe(m.value, cands[j]))
      && m == Select(cands, path', Some(name))
  {
    var p := (r: Rule) => RouteMatches(r, name);
    assert p(cands[k]);
    var f := FirstWhere(cands, p);
    assert f.Some?;
    forall j | 0 <= j < |cands| && RouteMatches(cands[j], name) ensures RuleLe(cands[f.value], cands[j]) {
      assert p(cands[j]);
      if j == f.value { RuleLeTotal(cands[j], cands[j]); }
    }
  }

  /**
   * Without a usable route match the chosen rule is the first candidate whose compiled
   * path matches; candidates without a compiled path are never chosen.
   */
  lemma PathMatchWhenNoRoute(cands: seq<Rule>, path: string, routeName: Option<string>)
    requires Sorted(cands)
    requires !TruthyOpt(routeName) || forall j :: 0 <= j < |cands| ==> !RouteMatches(cands[j], routeName.value)
    ensures var m := Select(cands, path, routeName);
      && (m.Some? <==> exists j :: 0 <= j < |cands| && PathMatches(cands[j], path))
      && (m.Some? ==> PathMatches(m.value, path) && m.value.pathRegex.Some?)
      && (m.Some? ==> forall j :: 0 <= j < |cands| && PathMatches(cands[j], path) ==> RuleLe(m.value, cands[j]))
  {
    if TruthyOpt(routeName) {
      var q := (r: Rule) => RouteMatches(r, routeName.value);
      assert forall j :: 0 <= j < |cands| ==> !q(cands[j]);
    }
    var p := (r: Rule) => PathMatches(r, path);
    var f := FirstWhere(cands, p);
    if exists j :: 0 <= j < |cands| && PathMatches(cands[j], path) {
      var j :| 0 <= j < |cands| && PathMatches(cands[j], path);
      assert p(cands[j]);
    }
    if f.Some? {
      forall j | 0 <= j < |cands| && PathMatches(cands[j], path) ensures RuleLe(cands[f.value], cands[j]) {
        assert p(cands[j]);
        if j == f.value { RuleLeTotal(cands[j], cands[j]); }
      }
    }
  }

  /**
   * With no route-name match and no path match, the configured default decides; a
   * missing key denies.
   */
  lemma NoMatchUsesDefault(cfg: AuthzConfig, rules: seq<Rule>, service: string, verb: string, path: string,
                           routeName: Option<string>, roles: seq<string>, perms: seq<string>, abilities: seq<string>)
    requires !HasAny(roles, cfg.superRoles)
    requires TruthyOpt(routeName) ==> forall r :: r in rules && Eligible(r, service, ToUpper(verb)) ==> !RouteMatches(r, routeName.value)
    requires forall r :: r in rules && Eligible(r, service, ToUpper(verb)) ==> !PathMatches(r, path)
    ensures Check(cfg, rules, service, verb, path, routeName, roles, perms, abilities)
            == Decision(cfg.allowIfNoRule == Some(true), [], NoRule)
  {
    var cands := Candidates(rules, service, ToUpper(verb));
    SelectNoneWithoutMatch(cands, path, routeName);
  }

  lemma SelectNoneWithoutMatch(cands: seq<Rule>, path: string, routeName: Option<string>)
    requires TruthyOpt(routeName) ==> forall r :: r in cands ==> !RouteMatches(r, routeName.value)
    requires forall r :: r in cands ==> !PathMatches(r, path)
    ensures Select(cands, path, routeName) == None
  {
    if TruthyOpt(routeName) {
      var q := (r: Rule) => RouteMatches(r, routeName.value);
      forall j | 0 <= j < |cands| ensures !q(cands[j]) {
        assert cands[j] in cands;
      }
    }
    var p := (r: Rule) => PathMatches(r, path);
    forall j | 0 <= j < |cands| ensures !p(cands[j]) {
      assert cands[j] in cands;
    }
  }

  /** As shipped, a request no rule matches is allowed. */
  lemma ShippedConfigAllowsUnmatched(rules: seq<Rule>, service: string, verb: string, path: string,
                                     routeName: Option<string>, roles: seq<string>, perms: seq<string>, abilities: seq<string>)
    requires !("super-admin" in roles)
    requires TruthyOpt(routeName) ==> forall r :: r in rules && Eligible(r, service, ToUpper(verb)) ==> !RouteMatches(r, routeName.value)
    requires forall r :: r in rules && Eligible(r, service, ToUpper(verb)) ==> !PathMatches(r, path)
    ensures Check(ShippedConfig, rules, service, verb, path, routeName, roles, perms, abilities)
            == Decision(true, [], NoRule)
  {
    NoMatchUsesDefault(ShippedConfig, rules, service, verb, path, routeName, roles, perms, abilities);
  }

  /** Rules of another service, inactive rules and rules for another verb are never consulted. */
  lemma IneligibleRulesIgnored(cfg: AuthzConfig, rules: seq<Rule>, extra: Rule, service: string, verb: string,
                               path: string, routeName: Option<string>, roles: seq<string>, perms: seq<string>,
                               abilities: seq<string>)
    requires !Eligible(extra, service, ToUpper(verb))
    ensures Check(cfg, rules + [extra], service, verb, path, routeName, roles, perms, abilities)
            == Check(cfg, rules, service, verb, path, routeName, roles, perms, abilities)
  {
    var m := ToUpper(verb);
    FilterIgnores(rules, extra, service, m);
  }

  lemma {:induction false} FilterIgnores(rules: seq<Rule>, extra: Rule, service: string, verb: string)
    requires !Eligible(extra, service, verb)
    ensures Filter(rules + [extra], service, verb) == Filter(rules, service, verb)
  {
    if |rules| > 0 {
      FilterIgnores(rules[1..], extra, service, verb);
      assert (rules + [extra])[1..] == rules[1..] + [extra];
    } else {
      assert Filter([extra], service, verb) == [] + Filter([], service, verb);
    }
  }
}

=== FILE: role_graph.dfy ===
/**
 * The per-store role hierarchy (app/Models/Role.php). An edge says that, in one store,
 * a higher role manages a lower role; only active edges of the store count. The
 * lower roles of a role are found by a depth-first walk that threads one shared
 * visited set through every recursive call, so cycles end the walk.
 *
 * Roles and permissions are identified by their ids.
 */
module RoleGraph {
  import opened Wrappers
  import opened Collections

  type RoleId = nat
  type PermId = nat
  type StoreId = string

  /** A JSON `metadata` column: an object of string values. */
  type Metadata = map<string, string>

  /** A `role_hierarchy` row. */
  datatype Edge = Edge(higher: RoleId, lower: RoleId, store: StoreId, isActive: bool, metadata: Option<Metadata>)

  // ---------------------------------------------------------------------------
  // The edges that count

  /** The active edges of one store, in table order (`lowerRolesInStore`'s pivot filter). */
  function ActiveIn(edges: seq<Edge>, s: StoreId): (r: seq<Edge>)
    ensures forall e :: e in r <==> e in edges && e.store == s && e.isActive
  {
    if |edges| == 0 then []
    else
      var rest := ActiveIn(edges[1..], s);
      assert forall e :: e in edges <==> e == edges[0] || e in edges[1..];
      if edges[0].store == s && edges[0].isActive then [edges[0]] + rest else rest
  }

  lemma {:induction false} ActiveInAppend(edges: seq<Edge>, more: seq<Edge>, s: StoreId)
    ensures ActiveIn(edges + more, s) == ActiveIn(edges, s) + ActiveIn(more, s)
  {
    if |edges| > 0 {
      assert (edges + more)[0] == edges[0];
      assert (edges + more)[1..] == edges[1..] + more;
      ActiveInAppend(edges[1..], more, s);
    } else {
      assert edges + more == more;
    }
  }

  /** The roles directly below `x`, in edge order. */
  function Children(es: seq<Edge>, x: RoleId): (r: seq<RoleId>)
    ensures forall y :: y in r <==> exists e :: e in es && e.higher == x && e.lower == y
    ensures |r| > 0 ==> x in Nodes(es)
    ensures forall y :: y in r ==> y in Nodes(es)
    ensures (forall e :: e in es ==> e.higher != x) ==> r == []
  {
    if |es| == 0 then []
    else
      var rest := Children(es[1..], x);
      assert forall e :: e in es <==> e == es[0] || e in es[1..];
      if es[0].higher == x then [es[0].lower] + rest else rest
  }

  /** Every role mentioned by an edge. */
  function Nodes(es: seq<Edge>): (r: set<RoleId>)
    ensures forall e :: e in es ==> e.higher in r && e.lower in r
  {
    if |es| == 0 then {}
    else {es[0].higher, es[0].lower} + Nodes(es[1..])
  }

  // ---------------------------------------------------------------------------
  // Reachability

  /** Consecutive roles of `p` are joined by edges of `es`. */
  ghost predicate IsPath(es: seq<Edge>, p: seq<RoleId>) {
    forall i :: 0 <= i < |p| - 1 ==> p[i + 1] in Children(es, p[i])
  }

  /** `b` lies one or more edges below `a`. */
  ghost predicate Reaches(es: seq<Edge>, a: RoleId, b: RoleId) {
    exists p :: |p| >= 2 && p[0] == a && p[|p| - 1] == b && IsPath(es, p)
  }

  lemma ReachesStep(es: seq<Edge>, a: RoleId, b: RoleId)
    requires b in Children(es, a)
    ensures Reaches(es, a, b)
  {
    assert IsPath(es, [a, b]);
  }

  lemma ReachesTrans(es: seq<Edge>, a: RoleId, b: RoleId, c: RoleId)
    requires Reaches(es, a, b) && Reaches(es, b, c)
    ensures Reaches(es, a, c)
  {
    var p :| |p| >= 2 && p[0] == a && p[|p| - 1] == b && IsPath(es, p);
    var q :| |q| >= 2 && q[0] == b && q[|q| - 1] == c && IsPath(es, q);
    var pq := p + q[1..];
    forall i | 0 <= i < |pq| - 1 ensures pq[i + 1] in Children(es, pq[i]) {
      if i < |p| - 1 {
        assert pq[i] == p[i] && pq[i + 1] == p[i + 1];
      } else {
        var j := i - |p| + 1;
        assert pq[i] == q[j] && pq[i + 1] == q[j + 1];
      }
    }
    assert pq[|pq| - 1] == c;
  }

  // ---------------------------------------------------------------------------
  // The walk

  lemma SubsetCard(a: set<RoleId>, b: set<RoleId>)
    requires a <= b
    ensures |a| <= |b|
  {
    assert b == a + (b - a);
  }

  /**
   * `getAllLowerRolesForStore` from role `x` with the shared visited set `v`: the roles
   * found, de-duplicated, and the visited set afterwards. Every role the call expands
   * (visited now but not before) has all its children visited and in the result.
   */
  function Walk(es: seq<Edge>, x: RoleId, v: set<RoleId>): (res: (seq<RoleId>, set<RoleId>))
    ensures v <= res.1 && x in res.1
    ensures NoDups(res.0)
    ensures Expanded(es, v, res.0, res.1)
    decreases |Nodes(es) - v|, 0, 0
  {
    if x in v then ([], v)
    else
      var cs := Children(es, x);
      if |cs| == 0 then ([], v + {x})
      else
        assert (Nodes(es) - v) == (Nodes(es) - (v + {x})) + {x};
        var sub := WalkAll(es, cs, v + {x});
        ExpandedFromStart(es, v, x, sub.0, sub.1);
        (Dedup(cs + sub.0), sub.1)
  }

  /** Expanding `x` on top of a walk below its children expands everything from `v`. */
  lemma ExpandedFromStart(es: seq<Edge>, v: set<RoleId>, x: RoleId, found: seq<RoleId>, after: set<RoleId>)
    requires Expanded(es, v + {x}, found, after)
    requires forall c :: c in Children(es, x) ==> c in after
    ensures Expanded(es, v, Dedup(Children(es, x) + found), after)
  {
    var cs := Children(es, x);
    var all := Dedup(cs + found);
    forall y, c | y in after && y !in v && c in Children(es, y) ensures c in after && c in all {
      if y == x {
        assert c in cs + found;
      } else {
        assert y !in v + {x};
        assert c in found;
        assert c in cs + found;
      }
    }
  }

  /**
   * Every role in `after` but not in `before` was expanded: its children are all in
   * `after` and in `found`.
   */
  predicate Expanded(es: seq<Edge>, before: set<RoleId>, found: seq<RoleId>, after: set<RoleId>) {
    forall y, c :: y in after && y !in before && c in Children(es, y) ==> c in after && c in found
  }

  lemma ExpandedCombine(es: seq<Edge>, v: set<RoleId>, f1: seq<RoleId>, v1: set<RoleId>, f2: seq<RoleId>, v2: set<RoleId>)
    requires v <= v1 <= v2
    requires Expanded(es, v, f1, v1) && Expanded(es, v1, f2, v2)
    ensures Expanded(es, v, f1 + f2, v2)
  {
    forall y, c | y in v2 && y !in v && c in Children(es, y) ensures c in v2 && c in f1 + f2 {
      if y in v1 {
        ExpandedStep(es, v, f1, v1, y, c);
      } else {
        ExpandedStep(es, v1, f2, v2, y, c);
      }
      assert c in f1 + f2;
    }
  }

  lemma ExpandedStep(es: seq<Edge>, v: set<RoleId>, found: seq<RoleId>, after: set<RoleId>, y: RoleId, c: RoleId)
    requires Expanded(es, v, found, after) && y in after && y !in v && c in Children(es, y)
    ensures c in after && c in found
  {
  }

  /** The `foreach` over the direct lower roles, threading the visited set. */
  function WalkAll(es: seq<Edge>, cs: seq<RoleId>, v: set<RoleId>): (res: (seq<RoleId>, set<RoleId>))
    ensures v <= res.1
    ensures forall c :: c in cs ==> c in res.1
    ensures Expanded(es, v, res.0, res.1)
    decreases |Nodes(es) - v|, 1, |cs|
  {
    if |cs| == 0 then ([], v)
    else
      var first := Walk(es, cs[0], v);
      SubsetCard(Nodes(es) - first.1, Nodes(es) - v);
      var rest := WalkAll(es, cs[1..], first.1);
      var res := (first.0 + rest.0, rest.1);
      assert forall c :: c in cs ==> c == cs[0] || c in cs[1..];
      ExpandedCombine(es, v, first.0, first.1, rest.0, rest.1);
      res
  }

  /** Everything a walk finds or expands lies below its start (or is the start). */
  lemma {:induction false} WalkSound(es: seq<Edge>, x: RoleId, v: set<RoleId>)
    ensures forall z :: z in Walk(es, x, v).0 ==> Reaches(es, x, z)
    ensures forall z :: z in Walk(es, x, v).1 && z !in v ==> z == x || Reaches(es, x, z)
    decreases |Nodes(es) - v|, 0, 0
  {
    if x !in v {
      var cs := Children(es, x);
      if |cs| > 0 {
        assert (Nodes(es) - v) == (Nodes(es) - (v + {x})) + {x};
        forall c | c in cs ensures Reaches(es, x, c) {
          ReachesStep(es, x, c);
        }
        WalkAllSound(es, cs, v + {x}, x);
      }
    }
  }

  lemma {:induction false} WalkAllSound(es: seq<Edge>, cs: seq<RoleId>, v: set<RoleId>, root: RoleId)
    requires forall c :: c in cs ==> Reaches(es, root, c)
    ensures forall z :: z in WalkAll(es, cs, v).0 ==> Reaches(es, root, z)
    ensures forall z :: z in WalkAll(es, cs, v).1 && z !in v ==> Reaches(es, root, z)
    decreases |Nodes(es) - v|, 1, |cs|
  {
    if |cs| > 0 {
      var first := Walk(es, cs[0], v);
      SubsetCard(Nodes(es) - first.1, Nodes(es) - v);
      WalkSound(es, cs[0], v);
      forall z | z in first.0 || (z in first.1 && z !in v) ensures Reaches(es, root, z) {
        if z != cs[0] {
          ReachesTrans(es, root, cs[0], z);
        }
      }
      WalkAllSound(es, cs[1..], first.1, root);
    }
  }

  /** Every role below the start of a walk with an empty visited set is found. */
  lemma WalkComplete(es: seq<Edge>, x: RoleId, z: RoleId)
    requires Reaches(es, x, z)
    ensures z in Walk(es, x, {}).0
  {
    var w := Walk(es, x, {});
    var p :| |p| >= 2 && p[0] == x && p[|p| - 1] == z && IsPath(es, p);
    var i := 0;
    while i < |p| - 1
      invariant 0 <= i <= |p| - 1
      invariant p[i] in w.1
      invariant i > 0 ==> p[i] in w.0
    {
      assert p[i + 1] in Children(es, p[i]);
      ExpandedStep(es, {}, w.0, w.1, p[i], p[i + 1]);
      i := i + 1;
    }
  }

  // ---------------------------------------------------------------------------
  // Role.php

  /**
   * getAllLowerRolesForStore: exactly the roles one or more active edges of store `s`
   * below `x`, each once; `x` itself only when it lies on a cycle.
   */
  function LowerRoles(edges: seq<Edge>, s: StoreId, x: RoleId): (r: seq<RoleId>)
    ensures NoDups(r)
    ensures forall z :: z in r <==> Reaches(ActiveIn(edges, s), x, z)
  {
    WalkExact(ActiveIn(edges, s), x);
    Walk(ActiveIn(edges, s), x, {}).0
  }

  /** A walk with an empty visited set finds exactly the roles below its start. */
  lemma WalkExact(es: seq<Edge>, x: RoleId)
    ensures forall z :: z in Walk(es, x, {}).0 <==> Reaches(es, x, z)
  {
    WalkSound(es, x, {});
    forall z | Reaches(es, x, z) ensures z in Walk(es, x, {}).0 {
      WalkComplete(es, x, z);
    }
  }

  /** isHigherThan: `other` is among the lower roles of `x` in store `s`. */
  predicate IsHigherThan(edges: seq<Edge>, s: StoreId, x: RoleId, other: RoleId) {
    other in LowerRoles(edges, s, x)
  }

  /** isHigherThan is transitive within one store. */
  lemma IsHigherThanTransitive(edges: seq<Edge>, s: StoreId, a: RoleId, b: RoleId, c: RoleId)
    requires IsHigherThan(edges, s, a, b) && IsHigherThan(edges, s, b, c)
    ensures IsHigherThan(edges, s, a, c)
  {
    ReachesTrans(ActiveIn(edges, s), a, b, c);
  }

  /** A direct active edge of the store makes the higher role higher. */
  lemma ActiveEdgeIsHigher(edges: seq<Edge>, e: Edge)
    requires e in edges && e.isActive
    ensures IsHigherThan(edges, e.store, e.higher, e.lower)
  {
    ReachesStep(ActiveIn(edges, e.store), e.higher, e.lower);
  }

  /** A role is among its own lower roles only when it lies on a cycle. */
  lemma SelfBelowOnlyOnCycle(edges: seq<Edge>, s: StoreId, x: RoleId)
    ensures x in LowerRoles(edges, s, x) <==> Reaches(ActiveIn(edges, s), x, x)
  {
  }

  /** A role with no active edge below it in the store has no lower roles. */
  lemma LeafHasNoLowerRoles(edges: seq<Edge>, s: StoreId, x: RoleId)
    requires forall e :: e in edges && e.store == s && e.isActive ==> e.higher != x
    ensures LowerRoles(edges, s, x) == []
  {
    var es := ActiveIn(edges, s);
    var empty: set<RoleId> := {};
    assert x !in empty && Children(es, x) == [];
    assert Walk(es, x, empty).0 == [];
  }

  /** Inactive edges and edges of other stores do not change the lower roles. */
  lemma IgnoredEdgeKeepsLowerRoles(edges: seq<Edge>, e: Edge, s: StoreId, x: RoleId)
    requires e.store != s || !e.isActive
    ensures LowerRoles(edges + [e], s, x) == LowerRoles(edges, s, x)
  {
    ActiveInAppend(edges, [e], s);
    assert ActiveIn([e], s) == [];
    assert ActiveIn(edges + [e], s) == ActiveIn(edges, s);
  }

  /** The permissions attached to a role (`$role->permissions`); a role without any has none. */
  function PermsOf(rolePerms: map<RoleId, seq<PermId>>, x: RoleId): seq<PermId> {
    if x in rolePerms then rolePerms[x] else []
  }

  /** The permissions of each role in turn, concatenated. */
  function PermsOfAll(rolePerms: map<RoleId, seq<PermId>>, roles: seq<RoleId>): (r: seq<PermId>)
    ensures forall p :: p in r <==> exists i :: 0 <= i < |roles| && p in PermsOf(rolePerms, roles[i])
  {
    if |roles| == 0 then []
    else
      var rest := PermsOfAll(rolePerms, roles[1..]);
      assert forall i :: 1 <= i < |roles| ==> roles[i] == roles[1..][i - 1];
      PermsOf(rolePerms, roles[0]) + rest
  }

  /**
   * getAllPermissionsForStore: the permissions of `x` and of every lower role in the
   * store, each once.
   */
  function AllPermissionsForStore(edges: seq<Edge>, rolePerms: map<RoleId, seq<PermId>>, s: StoreId, x: RoleId): (r: seq<PermId>)
    ensures NoDups(r)
    ensures forall p :: p in r <==>
      p in PermsOf(rolePerms, x) || exists y :: y in LowerRoles(edges, s, x) && p in PermsOf(rolePerms, y)
  {
    var lower := LowerRoles(edges, s, x);
    PermsOfStartAndBelow(rolePerms, x, lower);
    Dedup(PermsOfAll(rolePerms, [x] + lower))
  }

  lemma PermsOfStartAndBelow(rolePerms: map<RoleId, seq<PermId>>, x: RoleId, lower: seq<RoleId>)
    ensures forall p :: p in PermsOfAll(rolePerms, [x] + lower) <==>
      p in PermsOf(rolePerms, x) || exists y :: y in lower && p in PermsOf(rolePerms, y)
  {
    var roles := [x] + lower;
    forall p ensures p in PermsOfAll(rolePerms, roles) <==>
      p in PermsOf(rolePerms, x) || exists y :: y in lower && p in PermsOf(rolePerms, y)
    {
      if p in PermsOfAll(rolePerms, roles) {
        var i :| 0 <= i < |roles| && p in PermsOf(rolePerms, roles[i]);
        if i > 0 {
          assert roles[i] == lower[i - 1];
        }
      }
      if exists y :: y in lower && p in PermsOf(rolePerms, y) {
        var y :| y in lower && p in PermsOf(rolePerms, y);
        var k :| 0 <= k < |lower| && lower[k] == y;
        assert roles[k + 1] == y;
      }
      if p in PermsOf(rolePerms, x) {
        assert roles[0] == x;
      }
    }
  }
}
=== FILE: rule_add_command.dfy ===
/**
 * The `authz:rule:add` console command (app/Console/Commands/AuthzRuleAdd.php): target
 * parsing (`route:NAME` or a path DSL), comma-separated lists, the method list and the
 * rows it creates; and the target column of `authz:rule:list`
 * (app/Console/Commands/AuthzRuleList.php) that the parser reads back.
 */
module RuleAddCommand {
  import opened Wrappers
  import opened Text
  import opened PathDsl
  import opened AuthRules
  import opened RuleManagement

  // ---------------------------------------------------------------------------
  // Comma-separated options

  function TrimAll(xs: seq<string>): (r: seq<string>)
    ensures |r| == |xs| && forall i :: 0 <= i < |r| ==> r[i] == Trim(xs[i])
  {
    if |xs| == 0 then []
    else
      var rest := TrimAll(xs[1..]);
      TrimAllStep(xs, rest);
      [Trim(xs[0])] + rest
  }

  /** Trimming the head in front of the trimmed tail trims every item. */
  lemma TrimAllStep(xs: seq<string>, rest: seq<string>)
    requires |xs| > 0 && |rest| == |xs| - 1
    requires forall i :: 0 <= i < |rest| ==> rest[i] == Trim(xs[1..][i])
    ensures var r := [Trim(xs[0])] + rest;
      |r| == |xs| && forall i :: 0 <= i < |r| ==> r[i] == Trim(xs[i])
  {
    var r := [Trim(xs[0])] + rest;
    forall i | 1 <= i < |r| ensures r[i] == Trim(xs[i]) {
      assert r[i] == rest[i - 1] && xs[i] == xs[1..][i - 1];
    }
  }

  /** `array_values(array_filter(..., fn($x) => $x !== ''))`. */
  function DropEmpty(xs: seq<string>): (r: seq<string>)
    ensures forall i :: 0 <= i < |r| ==> r[i] != ""
    ensures forall x :: x in r <==> x in xs && x != ""
  {
    if |xs| == 0 then []
    else if xs[0] == "" then DropEmpty(xs[1..])
    else [xs[0]] + DropEmpty(xs[1..])
  }

  /** The `csv` helper: a falsy option gives no items; items are trimmed, empty ones dropped. */
  function Csv(s: Option<string>): (r: seq<string>)
    ensures !TruthyOpt(s) ==> r == []
    ensures forall i :: 0 <= i < |r| ==> r[i] != "" && Trim(r[i]) == r[i] && !HasChar(r[i], ',')
  {
    if !TruthyOpt(s) then []
    else
      var parts := Split(s.value, ',');
      var trimmed := TrimAll(parts);
      var r := DropEmpty(trimmed);
      forall i | 0 <= i < |r| ensures Trim(r[i]) == r[i] && !HasChar(r[i], ',') {
        assert r[i] in trimmed;
        var k :| 0 <= k < |trimmed| && trimmed[k] == r[i];
        TrimIdempotent(parts[k]);
        TrimNoNewChars(parts[k], ',');
      }
      r
  }

  /** Trimming only removes characters. */
  lemma TrimNoNewChars(s: string, c: char)
    requires !HasChar(s, c)
    ensures !HasChar(Trim(s), c)
  {
    var l := TrimLeft(s);
    var t := TrimRight(l);
    forall i | 0 <= i < |t| ensures t[i] != c {
      assert t[i] == l[i] == s[|s| - |l| + i];
    }
  }

  lemma {:induction false} TrimAllKeeps(xs: seq<string>)
    requires forall i :: 0 <= i < |xs| ==> Trim(xs[i]) == xs[i]
    ensures TrimAll(xs) == xs
  {
  }

  lemma {:induction false} DropEmptyKeeps(xs: seq<string>)
    requires forall i :: 0 <= i < |xs| ==> xs[i] != ""
    ensures DropEmpty(xs) == xs
  {
    if |xs| > 0 {
      DropEmptyKeeps(xs[1..]);
      assert xs == [xs[0]] + xs[1..];
    }
  }

  /**
   * The list printed as `a,b,c` reads back as the same list, provided the printed
   * text is truthy (the single item "0" reads back as nothing).
   */
  lemma CsvJoinRoundTrip(items: seq<string>)
    requires |items| >= 1 && Truthy(Join(items, ','))
    requires forall i :: 0 <= i < |items| ==> items[i] != "" && Trim(items[i]) == items[i] && !HasChar(items[i], ',')
    ensures Csv(Some(Join(items, ','))) == items
  {
    SplitJoin(items, ',');
    TrimAllKeeps(items);
    DropEmptyKeeps(items);
  }

  /** "0" is falsy, so `--roles=0` gives no roles at all. */
  lemma CsvOfZero()
    ensures Csv(Some("0")) == []
  {
  }

  /** DropEmpty looks at one item at a time: it keeps a non-empty item. */
  lemma DropEmptySingle(x: string)
    ensures DropEmpty([x]) == if x == "" then [] else [x]
  {
    assert [x][1..] == [];
  }

  /** DropEmpty distributes over concatenation, so the kept items stay in order. */
  lemma {:induction false} DropEmptyAppend(a: seq<string>, b: seq<string>)
    ensures DropEmpty(a + b) == DropEmpty(a) + DropEmpty(b)
  {
    if |a| > 0 {
      assert (a + b)[0] == a[0];
      assert (a + b)[1..] == a[1..] + b;
      DropEmptyAppend(a[1..], b);
    } else {
      assert a + b == b;
    }
  }

  /**
   * A list printed with commas reads back as its items trimmed, the empty ones
   * dropped, provided no item holds a comma and the printed text is truthy.
   */
  lemma CsvOfJoin(items: seq<string>)
    requires |items| >= 1 && Truthy(Join(items, ','))
    requires forall i :: 0 <= i < |items| ==> !HasChar(items[i], ',')
    ensures Csv(Some(Join(items, ','))) == DropEmpty(TrimAll(items))
  {
    SplitJoin(items, ',');
  }

  // ---------------------------------------------------------------------------
  // Methods and target

  /**
   * The method argument upper-cased, split on ',', and each entry trimmed and
   * upper-cased: the comma pieces of the argument itself, trimmed and upper-cased.
   */
  function MethodEntries(arg: string): (ms: seq<string>)
    ensures |ms| == |Split(arg, ',')|
    ensures forall i :: 0 <= i < |ms| ==> ms[i] == ToUpper(Trim(Split(arg, ',')[i]))
    ensures forall i :: 0 <= i < |ms| ==> ToUpper(ms[i]) == ms[i]
  {
    var trimmed := TrimAll(Split(ToUpper(arg), ','));
    var ups := UpperAll(trimmed);
    var pieces := Split(arg, ',');
    SplitUpper(arg, ',');
    forall i | 0 <= i < |ups| ensures ups[i] == ToUpper(Trim(pieces[i])) && ToUpper(ups[i]) == ups[i] {
      TrimUpper(pieces[i]);
      ToUpperIdempotent(Trim(pieces[i]));
    }
    ups
  }

  /** `m` is the trimmed, upper-cased form of some comma piece of `arg`. */
  predicate IsEntryOf(arg: string, m: string) {
    exists i :: 0 <= i < |Split(arg, ',')| && m == ToUpper(Trim(Split(arg, ',')[i]))
  }

  /** An entry is exactly the trimmed, upper-cased form of some comma piece. */
  lemma MethodEntryIn(arg: string, m: string)
    ensures m in MethodEntries(arg) <==> IsEntryOf(arg, m)
  {
    var e := MethodEntries(arg);
    if m in e {
      var k :| 0 <= k < |e| && e[k] == m;
      assert m == ToUpper(Trim(Split(arg, ',')[k]));
    }
  }

  /** The methods the command creates rules for: the non-empty entries, in order. */
  function CommandMethods(arg: string): (ms: seq<string>)
    ensures forall i :: 0 <= i < |ms| ==> ms[i] != "" && ToUpper(ms[i]) == ms[i]
    ensures forall m :: m in ms <==> m != "" && IsEntryOf(arg, m)
  {
    var ms := DropEmpty(MethodEntries(arg));
    NonEmptyEntries(arg, ms);
    ms
  }

  lemma NonEmptyEntries(arg: string, ms: seq<string>)
    requires ms == DropEmpty(MethodEntries(arg))
    ensures forall i :: 0 <= i < |ms| ==> ms[i] != "" && ToUpper(ms[i]) == ms[i]
    ensures forall m :: m in ms <==> m != "" && IsEntryOf(arg, m)
  {
    var entries := MethodEntries(arg);
    forall i | 0 <= i < |ms| ensures ToUpper(ms[i]) == ms[i] {
      assert ms[i] in entries;
    }
    forall m ensures m in ms <==> m != "" && IsEntryOf(arg, m) {
      MethodEntryIn(arg, m);
    }
  }

  /** A one-method argument with no comma gives exactly that method, trimmed and upper-cased. */
  lemma SingleMethod(arg: string)
    requires !HasChar(arg, ',') && Trim(arg) != ""
    ensures CommandMethods(arg) == [ToUpper(Trim(arg))]
  {
    SplitNoDelimiter(arg, ',');
    var m := ToUpper(Trim(arg));
    assert |m| == |Trim(arg)|;
    var e := MethodEntries(arg);
    assert e == [m];
    DropEmptySingle(m);
  }

  /** `route:NAME` names a route; anything else is a path DSL. */
  function ParseTarget(target: string): (r: (Option<string>, Option<string>))
    ensures StartsWith(target, "route:") ==> r.0 == Some(target[6..]) && r.1 == None
    ensures !StartsWith(target, "route:") ==> r.0 == None && r.1 == Some(target)
  {
    if StartsWith(target, "route:") then (Some(target[6..]), None) else (None, Some(target))
  }

  /** The target column of the rule listing. */
  function ListedTarget(r: Rule): (s: string)
    ensures TruthyOpt(r.routeName) ==> StartsWith(s, "route:") && s[6..] == r.routeName.value
  {
    if TruthyOpt(r.routeName) then "route:" + r.routeName.value else r.pathDsl.GetOr("-")
  }

  /** A listed route target parses back to the same route name and no path. */
  lemma ListedRouteTargetRoundTrip(r: Rule)
    requires TruthyOpt(r.routeName)
    ensures ParseTarget(ListedTarget(r)) == (r.routeName, None)
  {
  }

  /** A listed path target that does not look like a route parses back to the same DSL. */
  lemma ListedPathTargetRoundTrip(r: Rule)
    requires !TruthyOpt(r.routeName) && r.pathDsl.Some? && !StartsWith(r.pathDsl.value, "route:")
    ensures ParseTarget(ListedTarget(r)) == (None, r.pathDsl)
  {
  }

  // ---------------------------------------------------------------------------
  // The command

  datatype AddCommand = AddCommand(
    service: string,
    methodArg: string,
    target: string,
    roles: Option<string>,
    permsAny: Option<string>,
    permsAll: Option<string>,
    priority: int,
    inactive: bool)

  const NoTargetError: string := "You must provide either a route:NAME or a valid path DSL."

  /** The row shared by every rule the command creates, apart from id and method. */
  function CommandTemplate(cmd: AddCommand): Rule {
    var target := ParseTarget(cmd.target);
    var dsl := target.1;
    Rule(0, cmd.service, "", dsl, if TruthyOpt(dsl) then Compile(dsl) else None, target.0,
         ListOrNull(Some(Csv(cmd.roles))), ListOrNull(Some(Csv(cmd.permsAny))), ListOrNull(Some(Csv(cmd.permsAll))),
         !cmd.inactive, cmd.priority)
  }

  /** The command fails, creating nothing, unless it has a truthy route name or a compiled path. */
  predicate HasUsableTarget(cmd: AddCommand) {
    var target := ParseTarget(cmd.target);
    TruthyOpt(target.0) || (TruthyOpt(target.1) && Compile(target.1).Some?)
  }

  function RunAdd(t: RuleTable, cmd: AddCommand): (res: Result<RuleTable, string>)
    ensures res.Failure? <==> !HasUsableTarget(cmd)
    ensures res.Success? ==> |res.value.rows| == |t.rows| + |CommandMethods(cmd.methodArg)|
    ensures res.Success? ==> res.value.rows[..|t.rows|] == t.rows
    ensures res.Success? && ValidTable(t) ==> ValidTable(res.value)
  {
    if !HasUsableTarget(cmd) then Failure(NoTargetError)
    else
      var template := CommandTemplate(cmd);
      var methods := CommandMethods(cmd.methodArg);
      if ValidTable(t) then CreateEachKeepsValid(t, template, methods); Success(CreateEach(t, template, methods))
      else Success(CreateEach(t, template, methods))
  }

  /** A bare `route:` has an empty, falsy route name and no path, so the command fails. */
  lemma BareRoutePrefixFails(t: RuleTable, cmd: AddCommand)
    requires cmd.target == "route:"
    ensures RunAdd(t, cmd).Failure?
  {
    assert StartsWith(cmd.target, "route:");
    assert cmd.target[6..] == "";
  }

  /**
   * Each created row: the trimmed, upper-cased, non-empty method (the saving hook
   * turns a method "0" into ANY); the parsed target; active iff `--inactive` is
   * absent; the given priority; an empty role list stored as null.
   */
  lemma RunAddRows(t: RuleTable, cmd: AddCommand, i: nat)
    requires HasUsableTarget(cmd) && i < |CommandMethods(cmd.methodArg)|
    ensures var r := RunAdd(t, cmd).value.rows[|t.rows| + i];
      var m := CommandMethods(cmd.methodArg)[i];
      && r.id == t.nextId + i
      && r.service == cmd.service
      && r.httpMethod == (if m == "0" then "ANY" else m)
      && r.routeName == ParseTarget(cmd.target).0
      && r.pathDsl == ParseTarget(cmd.target).1
      && r.isActive == !cmd.inactive
      && r.priority == cmd.priority
      && (r.rolesAny.Some? <==> |Csv(cmd.roles)| > 0)
      && (r.rolesAny.Some? ==> r.rolesAny.value == Csv(cmd.roles))
      && r.permissionsAny == ListOrNull(Some(Csv(cmd.permsAny)))
      && r.permissionsAll == ListOrNull(Some(Csv(cmd.permsAll)))
  {
    CreateEachRow(t, CommandTemplate(cmd), CommandMethods(cmd.methodArg), i);
  }

  /** A route target with a truthy name always creates one route rule per method. */
  lemma RouteTargetSucceeds(t: RuleTable, cmd: AddCommand)
    requires StartsWith(cmd.target, "route:") && Truthy(cmd.target[6..])
    ensures RunAdd(t, cmd).Success?
  {
  }

  // ---------------------------------------------------------------------------
  // The command as written computes the compiled path with `AuthRule::compilePathDsl`,
  // a method the model class does not define

  /**
   * The command exactly as written: the compiled path is computed before the target
   * check, so any truthy path DSL aborts on the undefined method; a falsy one, or a
   * route with a falsy name, gets the error message.
   */
  function RunAddAsWritten(t: RuleTable, cmd: AddCommand): (res: Result<RuleTable, string>)
    ensures res.Success? <==> TruthyOpt(ParseTarget(cmd.target).0)
    ensures res.Success? ==> res == RunAdd(t, cmd)
  {
    var target := ParseTarget(cmd.target);
    if TruthyOpt(target.1) then Failure(UndefinedCompile)
    else if !TruthyOpt(target.0) then Failure(NoTargetError)
    else Success(CreateEach(t, CommandTemplate(cmd), CommandMethods(cmd.methodArg)))
  }

  /** As written, the command cannot add a path rule. */
  lemma PathTargetFailsAsWritten(t: RuleTable, cmd: AddCommand)
    requires !StartsWith(cmd.target, "route:") && Truthy(cmd.target)
    ensures RunAddAsWritten(t, cmd) == Failure(UndefinedCompile)
  {
  }

  /** With the compiler the saving hook uses, a non-blank path target adds path rules. */
  lemma PathTargetCompiles(t: RuleTable, cmd: AddCommand, i: nat)
    requires !StartsWith(cmd.target, "route:") && Truthy(cmd.target) && Trim(cmd.target) != ""
    requires i < |CommandMethods(cmd.methodArg)|
    ensures RunAdd(t, cmd).Success?
    ensures var r := RunAdd(t, cmd).value.rows[|t.rows| + i];
      r.pathRegex == Compile(Some(cmd.target)) && r.pathRegex.Some?
  {
    CreateEachRow(t, CommandTemplate(cmd), CommandMethods(cmd.methodArg), i);
  }
}

=== FILE: rule_management.dfy ===
/**
 * Writes to the rules table (app/Services/V1/AuthRules/AuthRuleManagementService.php):
 * creating one rule per method, partial updates, toggling, the listing order and
 * the DSL test report. Every write goes through the model's saving hook.
 *
 * The table is a sequence of rows plus the next auto-increment id.
 */
module RuleManagement {
  import opened Wrappers
  import opened Text
  import opened PathDsl
  import opened AuthRules
  import opened RuleOrder
  import opened Resolver

  datatype RuleTable = RuleTable(rows: seq<Rule>, nextId: nat)

  /** Ids are unique and below the counter, and every row is in saved form. */
  predicate ValidTable(t: RuleTable) {
    && UniqueIds(t.rows)
    && forall i :: 0 <= i < |t.rows| ==> t.rows[i].id < t.nextId && Saved(t.rows[i])
  }

  /** `!empty($x) ? array_values($x) : null`. */
  function ListOrNull(xs: Option<seq<string>>): (r: Option<seq<string>>)
    ensures r.Some? <==> xs.Some? && |xs.value| > 0
    ensures r.Some? ==> r == xs
  {
    if xs.Some? && |xs.value| > 0 then xs else None
  }

  /** Inserts a row: the next id is assigned and the saving hook runs. */
  function CreateRow(t: RuleTable, r: Rule): (res: (RuleTable, Rule))
    ensures res.1 == SaveHook(r.(id := t.nextId))
    ensures res.0 == RuleTable(t.rows + [res.1], t.nextId + 1)
  {
    var row := SaveHook(r.(id := t.nextId));
    (RuleTable(t.rows + [row], t.nextId + 1), row)
  }

  lemma CreateRowKeepsValid(t: RuleTable, r: Rule)
    ensures ValidTable(t) ==> ValidTable(CreateRow(t, r).0)
  {
    if !ValidTable(t) { return; }
    var row := SaveHook(r.(id := t.nextId));
    SaveHookNormalizes(r.(id := t.nextId));
    var rows := t.rows + [row];
    assert forall k :: 0 <= k < |t.rows| ==> rows[k] == t.rows[k];
    assert rows[|t.rows|] == row;
  }

  // ---------------------------------------------------------------------------
  // createRule

  /** The `method` input: a single method or a list of them. */
  datatype MethodArg = OneMethod(m: string) | MethodList(ms: seq<string>)

  datatype CreateRuleInput = CreateRuleInput(
    service: string,
    methodArg: MethodArg,
    routeName: Option<string>,
    pathDsl: Option<string>,
    rolesAny: Option<seq<string>>,
    permissionsAny: Option<seq<string>>,
    permissionsAll: Option<seq<string>>,
    priority: Option<int>,
    isActive: Option<bool>)

  function MethodsOf(arg: MethodArg): (ms: seq<string>)
    ensures arg.OneMethod? ==> ms == [ToUpper(arg.m)]
    ensures arg.MethodList? ==> |ms| == |arg.ms| && forall i :: 0 <= i < |ms| ==> ms[i] == ToUpper(arg.ms[i])
  {
    match arg
    case OneMethod(m) => [ToUpper(m)]
    case MethodList(list) => UpperAll(list)
  }


  /** The row every created rule shares, apart from id and method. */
  function Template(input: CreateRuleInput): (r: Rule)
    ensures TruthyOpt(input.routeName) ==> r.routeName == input.routeName && r.pathDsl == None
    ensures !TruthyOpt(input.routeName) ==> r.routeName == None && r.pathDsl == input.pathDsl
  {
    var isRoute := TruthyOpt(input.routeName);
    var dsl := if isRoute then None else input.pathDsl;
    Rule(0, input.service, "", dsl,
         if TruthyOpt(dsl) then Compile(dsl) else None,
         if isRoute then input.routeName else None,
         ListOrNull(input.rolesAny), ListOrNull(input.permissionsAny), ListOrNull(input.permissionsAll),
         input.isActive.GetOr(true), input.priority.GetOr(100))
  }

  /** One row per method, in order. */
  function CreateEach(t: RuleTable, template: Rule, methods: seq<string>): (res: RuleTable)
    ensures res.nextId == t.nextId + |methods|
    ensures |res.rows| == |t.rows| + |methods| && res.rows[..|t.rows|] == t.rows
    decreases |methods|
  {
    if |methods| == 0 then t
    else
      var step := CreateRow(t, template.(httpMethod := methods[0]));
      var res := CreateEach(step.0, template, methods[1..]);
      assert res.rows[..|t.rows|] == res.rows[..|step.0.rows|][..|t.rows|];
      res
  }

  /** Creating the rows one by one keeps the ids unique and every row saved. */
  lemma {:induction false} CreateEachKeepsValid(t: RuleTable, template: Rule, methods: seq<string>)
    requires ValidTable(t)
    ensures ValidTable(CreateEach(t, template, methods))
    decreases |methods|
  {
    if |methods| > 0 {
      var step := CreateRow(t, template.(httpMethod := methods[0]));
      CreateRowKeepsValid(t, template.(httpMethod := methods[0]));
      CreateEachKeepsValid(step.0, template, methods[1..]);
    }
  }

  lemma PrefixIndex<T>(a: seq<T>, b: seq<T>, k: nat)
    requires |b| <= |a| && a[..|b|] == b && k < |b|
    ensures a[k] == b[k]
  {
    assert a[..|b|][k] == a[k];
  }

  /** The i-th new row is the template with the i-th method and the i-th fresh id, saved. */
  lemma {:induction false} CreateEachRow(t: RuleTable, template: Rule, methods: seq<string>, i: nat)
    requires i < |methods|
    ensures CreateEach(t, template, methods).rows[|t.rows| + i]
            == SaveHook(template.(id := t.nextId + i, httpMethod := methods[i]))
    decreases |methods|
  {
    if i == 0 {
      CreateEachFirst(t, template, methods);
    } else {
      var step := CreateRow(t, template.(httpMethod := methods[0]));
      CreateEachUnfold(t, template, methods);
      assert |step.0.rows| == |t.rows| + 1 && step.0.nextId == t.nextId + 1;
      CreateEachRow(step.0, template, methods[1..], i - 1);
      assert methods[1..][i - 1] == methods[i];
    }
  }

  lemma CreateEachUnfold(t: RuleTable, template: Rule, methods: seq<string>)
    requires 0 < |methods|
    ensures CreateEach(t, template, methods)
            == CreateEach(CreateRow(t, template.(httpMethod := methods[0])).0, template, methods[1..])
  {
  }

  lemma CreateEachFirst(t: RuleTable, template: Rule, methods: seq<string>)
    requires 0 < |methods|
    ensures CreateEach(t, template, methods).rows[|t.rows|]
            == SaveHook(template.(id := t.nextId + 0, httpMethod := methods[0]))
  {
    var first := template.(httpMethod := methods[0]);
    var step := CreateRow(t, first);
    var res := CreateEach(step.0, template, methods[1..]);
    CreateEachUnfold(t, template, methods);
    PrefixIndex(res.rows, step.0.rows, |t.rows|);
    assert step.0.rows[|t.rows|] == SaveHook(first.(id := t.nextId));
    assert first.(id := t.nextId) == template.(id := t.nextId + 0, httpMethod := methods[0]);
  }

  /** The rows for each method, and the last one created if any. */
  function CreateAll(t: RuleTable, template: Rule, ms: seq<string>): (res: (RuleTable, Option<Rule>))
    ensures |res.0.rows| == |t.rows| + |ms| && res.0.rows[..|t.rows|] == t.rows
    ensures res.1.Some? <==> |ms| > 0
    ensures res.1.Some? ==> res.1.value == res.0.rows[|res.0.rows| - 1]
    ensures ValidTable(t) ==> ValidTable(res.0)
  {
    var t' := CreateEach(t, template, ms);
    var last := if |ms| == 0 then None else Some(t'.rows[|t'.rows| - 1]);
    if ValidTable(t) then CreateEachKeepsValid(t, template, ms); (t', last) else (t', last)
  }

  /**
   * createRule: one rule per method; the result is the table and the last rule
   * created, which does not exist when the method list is empty.
   */
  function CreateRule(t: RuleTable, input: CreateRuleInput): (res: (RuleTable, Option<Rule>))
    ensures |res.0.rows| == |t.rows| + |MethodsOf(input.methodArg)| && res.0.rows[..|t.rows|] == t.rows
    ensures res.1.Some? <==> |MethodsOf(input.methodArg)| > 0
    ensures res.1.Some? ==> res.1.value == res.0.rows[|res.0.rows| - 1]
    ensures ValidTable(t) ==> ValidTable(res.0)
  {
    CreateAll(t, Template(input), MethodsOf(input.methodArg))
  }

  /**
   * Each created row: the given method upper-cased (a falsy one becomes ANY); a
   * truthy route name makes a route rule with neither DSL nor compiled path; a path
   * rule carries its compiled DSL; empty lists become null; priority defaults to 100
   * and the active flag to true.
   */
  lemma CreateRuleRows(t: RuleTable, input: CreateRuleInput, i: nat)
    requires i < |MethodsOf(input.methodArg)|
    ensures var r := CreateRule(t, input).0.rows[|t.rows| + i];
      && r.id == t.nextId + i
      && r.service == input.service
      && r.httpMethod == NormalizeMethod(MethodsOf(input.methodArg)[i])
      && (TruthyOpt(input.routeName) ==> r.routeName == input.routeName && r.pathDsl == None && r.pathRegex == None)
      && (!TruthyOpt(input.routeName) ==> r.routeName == None && r.pathDsl == input.pathDsl && r.pathRegex == Compile(input.pathDsl))
      && r.rolesAny == ListOrNull(input.rolesAny)
      && r.permissionsAny == ListOrNull(input.permissionsAny)
      && r.permissionsAll == ListOrNull(input.permissionsAll)
      && r.priority == input.priority.GetOr(100)
      && r.isActive == input.isActive.GetOr(true)
  {
    CreateEachRow(t, Template(input), MethodsOf(input.methodArg), i);
  }

  /** A one-method create of a route rule gives a rule the resolver never path-matches. */
  lemma RouteRulesNeverPathMatch(t: RuleTable, input: CreateRuleInput, i: nat, path: string)
    requires TruthyOpt(input.routeName) && i < |MethodsOf(input.methodArg)|
    ensures !PathMatches(CreateRule(t, input).0.rows[|t.rows| + i], path)
  {
    CreateRuleRows(t, input, i);
  }

  // ---------------------------------------------------------------------------
  // updateRule

  /** The update payload; `None` is a key that is absent or null (not `isset`). */
  datatype RuleUpdate = RuleUpdate(
    service: Option<string>,
    httpMethod: Option<string>,
    routeName: Option<string>,
    pathDsl: Option<string>,
    priority: Option<int>,
    isActive: Option<bool>,
    rolesAny: Option<seq<string>>,
    permissionsAny: Option<seq<string>>,
    permissionsAll: Option<seq<string>>)

  function Pick<T>(v: Option<T>, current: T): T {
    if v.Some? then v.value else current
  }

  function PickList(v: Option<seq<string>>, current: Option<seq<string>>): Option<seq<string>> {
    if v.Some? then ListOrNull(v) else current
  }

  function UpdateRule(r: Rule, u: RuleUpdate): (s: Rule)
    ensures s.id == r.id
    ensures Saved(s)
  {
    SaveHookNormalizes(r.(
      service := Pick(u.service, r.service),
      httpMethod := if u.httpMethod.Some? then ToUpper(u.httpMethod.value) else r.httpMethod,
      routeName := if u.routeName.Some? then u.routeName else r.routeName,
      pathDsl := if u.pathDsl.Some? then u.pathDsl else r.pathDsl,
      priority := Pick(u.priority, r.priority),
      isActive := Pick(u.isActive, r.isActive),
      rolesAny := PickList(u.rolesAny, r.rolesAny),
      permissionsAny := PickList(u.permissionsAny, r.permissionsAny),
      permissionsAll := PickList(u.permissionsAll, r.permissionsAll)));
    SaveHook(r.(
      service := Pick(u.service, r.service),
      httpMethod := if u.httpMethod.Some? then ToUpper(u.httpMethod.value) else r.httpMethod,
      routeName := if u.routeName.Some? then u.routeName else r.routeName,
      pathDsl := if u.pathDsl.Some? then u.pathDsl else r.pathDsl,
      priority := Pick(u.priority, r.priority),
      isActive := Pick(u.isActive, r.isActive),
      rolesAny := PickList(u.rolesAny, r.rolesAny),
      permissionsAny := PickList(u.permissionsAny, r.permissionsAny),
      permissionsAll := PickList(u.permissionsAll, r.permissionsAll)))
  }

  /**
   * Fields absent from the payload keep their value on a stored rule; a supplied empty
   * list resets that requirement to null; a route name can be replaced but never
   * cleared; a supplied DSL is recompiled.
   */
  lemma UpdateRuleFields(r: Rule, u: RuleUpdate)
    requires Saved(r)
    ensures var s := UpdateRule(r, u);
      && (u.service.None? ==> s.service == r.service)
      && (u.httpMethod.None? ==> s.httpMethod == r.httpMethod)
      && (u.priority.None? ==> s.priority == r.priority)
      && (u.isActive.None? ==> s.isActive == r.isActive)
      && (u.pathDsl.None? ==> s.pathDsl == r.pathDsl && s.pathRegex == r.pathRegex)
      && (u.pathDsl.Some? ==> s.pathDsl == u.pathDsl && s.pathRegex == Compile(u.pathDsl))
      && (u.rolesAny.None? ==> s.rolesAny == r.rolesAny)
      && (u.rolesAny == Some([]) ==> s.rolesAny == None)
      && (u.permissionsAny == Some([]) ==> s.permissionsAny == None)
      && (u.permissionsAll == Some([]) ==> s.permissionsAll == None)
      && (u.routeName.None? ==> s.routeName == r.routeName)
      && (r.routeName.Some? ==> s.routeName.Some?)
  {
  }

  /** An empty payload leaves a stored rule exactly as it was. */
  lemma EmptyUpdateIsIdentity(r: Rule)
    requires Saved(r)
    ensures UpdateRule(r, RuleUpdate(None, None, None, None, None, None, None, None, None)) == r
  {
    SaveHookNormalizes(r);
  }

  // ---------------------------------------------------------------------------
  // toggleRuleStatus

  function ToggleRule(r: Rule): (s: Rule)
    ensures s.isActive == !r.isActive
    ensures Saved(s)
  {
    SaveHookNormalizes(r.(isActive := !r.isActive));
    SaveHook(r.(isActive := !r.isActive))
  }

  /** On a stored rule, toggling changes the active flag only, and twice is the identity. */
  lemma ToggleRuleOnlyFlips(r: Rule)
    requires Saved(r)
    ensures ToggleRule(r) == r.(isActive := !r.isActive)
    ensures ToggleRule(ToggleRule(r)) == r
  {
    SaveHookNormalizes(r.(isActive := !r.isActive));
  }

  // ---------------------------------------------------------------------------
  // getAllRules ordering

  /** The listing, optionally narrowed to a truthy service name, in listing order. */
  function ListRules(t: RuleTable, service: Option<string>): (r: seq<Rule>)
    ensures Sorted(r)
    ensures forall x :: x in r <==> x in t.rows && (TruthyOpt(service) ==> x.service == service.value)
  {
    var f := if TruthyOpt(service) then KeepService(t.rows, service.value) else t.rows;
    var r := Sort(f);
    SameElements(f, r);
    r
  }

  function KeepService(rows: seq<Rule>, service: string): (r: seq<Rule>)
    ensures forall x :: x in r <==> x in rows && x.service == service
  {
    if |rows| == 0 then []
    else
      var rest := KeepService(rows[1..], service);
      assert rows == [rows[0]] + rows[1..];
      if rows[0].service == service then [rows[0]] + rest else rest
  }

  /** Listed rules of one service appear in the order the resolver tries them. */
  lemma ListingMatchesResolverOrder(t: RuleTable, service: Option<string>, i: nat, j: nat)
    requires i < j < |ListRules(t, service)|
    requires ListRules(t, service)[i].service == ListRules(t, service)[j].service
    ensures var a := ListRules(t, service)[i]; var b := ListRules(t, service)[j];
      a.priority > b.priority || (a.priority == b.priority && a.id <= b.id)
  {
  }

  // ---------------------------------------------------------------------------
  // testRule

  datatype TestReport = TestReport(pathDsl: Option<string>, pathRegex: Option<Pattern>, testPath: string,
                                   matches: bool, compiledSuccessfully: bool)

  function TestRule(pathDsl: Option<string>, testPath: Option<string>): (rep: TestReport)
    ensures rep.compiledSuccessfully <==> rep.pathRegex.Some?
    ensures !rep.compiledSuccessfully ==> !rep.matches
    ensures testPath.None? ==> rep.testPath == "/"
  {
    var regex := if TruthyOpt(pathDsl) then Compile(pathDsl) else None;
    var p := testPath.GetOr("/");
    TestReport(pathDsl, regex, p, regex.Some? && Matches(regex.value, p), regex.Some?)
  }

  /** The test report agrees with how the resolver path-matches a stored rule with that DSL. */
  lemma TestRuleAgreesWithResolver(pathDsl: Option<string>, path: string, r: Rule)
    requires Saved(r) && r.pathDsl == pathDsl
    ensures TestRule(pathDsl, Some(path)).matches <==> PathMatches(r, path)
    ensures TestRule(pathDsl, Some(path)).pathRegex == r.pathRegex
  {
  }

  // ---------------------------------------------------------------------------
  // The service as written calls a compiler method the model does not define

  /** The message PHP raises for the undefined static method. */
  const UndefinedCompile: string := "Call to undefined method compilePathDsl()"

  /**
   * createRule exactly as written: computing the compiled path calls
   * `AuthRule::compilePathDsl`, which does not exist, so every path rule aborts.
   */
  function CreateRuleAsWritten(t: RuleTable, input: CreateRuleInput): (res: Result<(RuleTable, Option<Rule>), string>)
    ensures res.Failure? <==> !TruthyOpt(input.routeName) && TruthyOpt(input.pathDsl)
    ensures res.Success? ==> res.value == CreateRule(t, input)
  {
    var isRoute := TruthyOpt(input.routeName);
    var dsl := if isRoute then None else input.pathDsl;
    if TruthyOpt(dsl) then Failure(UndefinedCompile) else Success(CreateRule(t, input))
  }

  /** As written, no path rule can ever be created through the service. */
  lemma PathRuleCreationFailsAsWritten(t: RuleTable, service: string, dsl: string)
    requires Truthy(dsl)
    ensures CreateRuleAsWritten(t, CreateRuleInput(service, OneMethod("GET"), None, Some(dsl),
                                                   None, Some(["orders.view"]), None, None, None)).Failure?
  {
  }

  /**
   * updateRule exactly as written: a supplied (non-null) DSL is recompiled with the
   * undefined method before anything is written, so such an update aborts and the
   * rule is unchanged; any other update is the corrected one.
   */
  function UpdateRuleAsWritten(r: Rule, u: RuleUpdate): (res: Result<Rule, string>)
    ensures res.Failure? <==> u.pathDsl.Some?
    ensures res.Success? ==> res.value == UpdateRule(r, u)
  {
    if u.pathDsl.Some? then Failure(UndefinedCompile) else Success(UpdateRule(r, u))
  }

  /**
   * testRule exactly as written: a truthy DSL reaches the undefined method, so the
   * report, when there is one, never shows a compiled pattern or a match.
   */
  function TestRuleAsWritten(pathDsl: Option<string>, testPath: Option<string>): (res: Result<TestReport, string>)
    ensures res.Failure? <==> TruthyOpt(pathDsl)
    ensures res.Success? ==> res.value == TestRule(pathDsl, testPath)
    ensures res.Success? ==> !res.value.compiledSuccessfully && !res.value.matches
  {
    if TruthyOpt(pathDsl) then Failure(UndefinedCompile) else Success(TestRule(pathDsl, testPath))
  }

  /**
   * A literal path such as `/orders` tested against itself: as written the test
   * aborts, while the corrected test compiles the DSL and reports the match.
   */
  lemma LiteralTestFailsAsWritten(segs: seq<string>)
    requires |segs| >= 1
    requires forall k :: 0 <= k < |segs| ==> LiteralSegment(segs[k])
    ensures var p := "/" + Join(segs, '/');
      TestRuleAsWritten(Some(p), Some(p)).Failure?
      && TestRule(Some(p), Some(p)).compiledSuccessfully && TestRule(Some(p), Some(p)).matches
  {
    var p := "/" + Join(segs, '/');
    assert p[0] == '/';
    LiteralPathMatchesExactly(segs, p);
  }

  /** A DSL update aborts as written; corrected, it stores the DSL and its compiled pattern. */
  lemma PathUpdateFailsAsWritten(r: Rule, dsl: string)
    requires Saved(r)
    ensures var u := RuleUpdate(None, None, None, Some(dsl), None, None, None, None, None);
      UpdateRuleAsWritten(r, u).Failure?
      && UpdateRule(r, u).pathDsl == Some(dsl) && UpdateRule(r, u).pathRegex == Compile(Some(dsl))
  {
    UpdateRuleFields(r, RuleUpdate(None, None, None, Some(dsl), None, None, None, None, None));
  }

  /** With the compiler the saving hook uses, a path rule stores its compiled DSL. */
  lemma PathRuleCreationCompiles(t: RuleTable, service: string, dsl: string)
    requires Truthy(dsl) && Trim(dsl) != ""
    ensures var res := CreateRule(t, CreateRuleInput(service, OneMethod("GET"), None, Some(dsl),
                                                     None, Some(["orders.view"]), None, None, None));
      && res.1.Some? && res.1.value.pathRegex == Compile(Some(dsl)) && res.1.value.pathRegex.Some?
  {
    var input := CreateRuleInput(service, OneMethod("GET"), None, Some(dsl), None, Some(["orders.view"]), None, None, None);
    CreateRuleRows(t, input, 0);
  }
}

=== FILE: rule_order.dfy ===
/**
 * The order in which rules are listed and tried: service ascending, then priority
 * descending, then id ascending (AuthRuleManagementService::getAllRules). Within a
 * single service this is the resolver's order: priority descending, then id.
 *
 * Service names are compared by character code; a database collation that folds
 * case is not modelled.
 */
module RuleOrder {
  import opened AuthRules

  // ---------------------------------------------------------------------------
  // Lexicographic order on strings

  predicate StrLe(a: string, b: string) {
    if |a| == 0 then true
    else if |b| == 0 then false
    else if a[0] != b[0] then a[0] < b[0]
    else StrLe(a[1..], b[1..])
  }

  lemma {:induction false} StrLeTotal(a: string, b: string)
    ensures StrLe(a, b) || StrLe(b, a)
  {
    if |a| > 0 && |b| > 0 && a[0] == b[0] {
      StrLeTotal(a[1..], b[1..]);
    }
  }

  lemma {:induction false} StrLeTransitive(a: string, b: string, c: string)
    requires StrLe(a, b) && StrLe(b, c)
    ensures StrLe(a, c)
  {
    if |a| > 0 && |b| > 0 && |c| > 0 && a[0] == b[0] && b[0] == c[0] {
      StrLeTransitive(a[1..], b[1..], c[1..]);
    }
  }

  lemma {:induction false} StrLeAntisymmetric(a: string, b: string)
    requires StrLe(a, b) && StrLe(b, a)
    ensures a == b
  {
    if |a| > 0 && |b| > 0 {
      StrLeAntisymmetric(a[1..], b[1..]);
      assert a == [a[0]] + a[1..] && b == [b[0]] + b[1..];
    }
  }

  // ---------------------------------------------------------------------------
  // The listing order of rules

  /** `a` is listed no later than `b`. */
  predicate RuleLe(a: Rule, b: Rule) {
    if a.service != b.service then StrLe(a.service, b.service)
    else if a.priority != b.priority then a.priority > b.priority
    else a.id <= b.id
  }

  lemma RuleLeTotal(a: Rule, b: Rule)
    ensures RuleLe(a, b) || RuleLe(b, a)
  {
    StrLeTotal(a.service, b.service);
  }

  lemma RuleLeTransitive(a: Rule, b: Rule, c: Rule)
    requires RuleLe(a, b) && RuleLe(b, c)
    ensures RuleLe(a, c)
  {
    if a.service != b.service && b.service != c.service {
      StrLeTransitive(a.service, b.service, c.service);
      if a.service == c.service {
        StrLeAntisymmetric(a.service, b.service);
      }
    }
  }

  /** Two rules each listed no later than the other share service, priority and id. */
  lemma RuleLeAntisymmetric(a: Rule, b: Rule)
    requires RuleLe(a, b) && RuleLe(b, a)
    ensures a.service == b.service && a.priority == b.priority && a.id == b.id
  {
    if a.service != b.service {
      StrLeAntisymmetric(a.service, b.service);
    }
  }

  /** Within one service the order is priority descending, then id ascending. */
  lemma SameServiceOrder(a: Rule, b: Rule)
    requires a.service == b.service
    ensures RuleLe(a, b) <==> a.priority > b.priority || (a.priority == b.priority && a.id <= b.id)
  {
  }

  predicate Sorted(s: seq<Rule>) {
    forall i, j :: 0 <= i < j < |s| ==> RuleLe(s[i], s[j])
  }

  /** Inserts `x` before the first element it is listed no later than. */
  function Insert(x: Rule, s: seq<Rule>): (r: seq<Rule>)
    requires Sorted(s)
    ensures Sorted(r)
    ensures multiset(r) == multiset(s) + multiset{x}
  {
    if |s| == 0 then [x]
    else if RuleLe(x, s[0]) then
      InsertAtFront(x, s);
      [x] + s
    else
      var t := Insert(x, s[1..]);
      RuleLeTotal(x, s[0]);
      InsertBehind(s[0], x, s[1..], t);
      assert s == [s[0]] + s[1..];
      [s[0]] + t
  }

  lemma InsertAtFront(x: Rule, s: seq<Rule>)
    requires Sorted(s) && |s| > 0 && RuleLe(x, s[0])
    ensures Sorted([x] + s)
  {
    var r := [x] + s;
    forall i, j | 0 <= i < j < |r| ensures RuleLe(r[i], r[j]) {
      if i == 0 && j > 1 {
        RuleLeTransitive(x, s[0], s[j - 1]);
      }
    }
  }

  lemma InsertBehind(h: Rule, x: Rule, s: seq<Rule>, t: seq<Rule>)
    requires Sorted([h] + s) && RuleLe(h, x)
    requires Sorted(t) && multiset(t) == multiset(s) + multiset{x}
    ensures Sorted([h] + t)
  {
    var r := [h] + t;
    forall i, j | 0 <= i < j < |r| ensures RuleLe(r[i], r[j]) {
      if i == 0 {
        var y := t[j - 1];
        assert r[j] == y;
        assert y in multiset(t);
        if y != x {
          assert y in multiset(s);
          var k :| 0 <= k < |s| && s[k] == y;
          assert ([h] + s)[0] == h && ([h] + s)[k + 1] == y;
        }
      } else {
        assert r[i] == t[i - 1] && r[j] == t[j - 1];
      }
    }
  }

  /** Insertion sort into listing order: sorted, and a permutation of the input. */
  function Sort(s: seq<Rule>): (r: seq<Rule>)
    ensures Sorted(r)
    ensures multiset(r) == multiset(s)
  {
    if |s| == 0 then []
    else
      assert s == [s[0]] + s[1..];
      Insert(s[0], Sort(s[1..]))
  }

  /** Ids are unique within a table of rules. */
  predicate UniqueIds(s: seq<Rule>) {
    forall i, j :: 0 <= i < |s| && 0 <= j < |s| && s[i].id == s[j].id ==> i == j
  }
}

=== FILE: rule_update_request.dfy ===
/**
 * Validation of a rule update request
 * (app/Http/Requests/Api/V1/AuthRules/UpdateAuthRuleRequest.php): the per-field
 * constraints on method, priority and string lengths, then the after-checks on the
 * target and on the requirements. All errors are collected, in this order.
 */
module RuleUpdateRequest {
  import opened Wrappers
  import opened Collections
  import opened Text
  import opened AuthRules
  import opened RuleManagement

  datatype RequestError =
    | TooLong(field: string)
    | MethodNotAllowed
    | PriorityTooLow
    | PriorityTooHigh
    | TargetMissing
    | TargetBoth
    | NoRequirement

  const AllowedMethods: seq<string> := ["GET", "POST", "PUT", "PATCH", "DELETE", "ANY"]

  /** The `in:` rule on `method`. */
  predicate MethodAllowed(m: string) {
    m in AllowedMethods
  }

  const MaxLength: nat := 255
  const MinPriority: int := 1
  const MaxPriority: int := 1000

  /** `!empty($list)`. */
  predicate NonEmptyList(xs: Option<seq<string>>) {
    xs.Some? && |xs.value| > 0
  }

  /** The length and method constraints on the fields that are present, in front of `rest`. */
  function FieldErrors(u: RuleUpdate, rest: seq<RequestError>): (errs: seq<RequestError>)
    ensures MethodNotAllowed in errs <==> (u.httpMethod.Some? && !MethodAllowed(u.httpMethod.value)) || MethodNotAllowed in rest
    ensures PriorityTooLow in errs <==> PriorityTooLow in rest
    ensures PriorityTooHigh in errs <==> PriorityTooHigh in rest
  {
    PrependIf(u.service.Some? && |u.service.value| > MaxLength, TooLong("service"),
    PrependIf(u.httpMethod.Some? && !MethodAllowed(u.httpMethod.value), MethodNotAllowed,
    PrependIf(u.pathDsl.Some? && |u.pathDsl.value| > MaxLength, TooLong("path_dsl"), rest)))
  }

  /** The remaining length constraint and the priority range, in front of `rest`. */
  function RangeErrors(u: RuleUpdate, rest: seq<RequestError>): (errs: seq<RequestError>)
    ensures PriorityTooLow in errs <==> (u.priority.Some? && u.priority.value < MinPriority) || PriorityTooLow in rest
    ensures PriorityTooHigh in errs <==> (u.priority.Some? && u.priority.value > MaxPriority) || PriorityTooHigh in rest
    ensures MethodNotAllowed in errs <==> MethodNotAllowed in rest
  {
    PrependIf(u.routeName.Some? && |u.routeName.value| > MaxLength, TooLong("route_name"),
    PrependIf(u.priority.Some? && u.priority.value < MinPriority, PriorityTooLow,
    PrependIf(u.priority.Some? && u.priority.value > MaxPriority, PriorityTooHigh, rest)))
  }

  /** The after-checks: exactly one truthy target, at least one non-empty requirement. */
  function AfterErrors(u: RuleUpdate): (errs: seq<RequestError>)
    ensures TargetMissing in errs <==> !TruthyOpt(u.pathDsl) && !TruthyOpt(u.routeName)
    ensures TargetBoth in errs <==> TruthyOpt(u.pathDsl) && TruthyOpt(u.routeName)
    ensures NoRequirement in errs <==>
      !NonEmptyList(u.rolesAny) && !NonEmptyList(u.permissionsAny) && !NonEmptyList(u.permissionsAll)
    ensures forall e :: e in errs ==> e.TargetMissing? || e.TargetBoth? || e.NoRequirement?
  {
    PrependIf(!TruthyOpt(u.pathDsl) && !TruthyOpt(u.routeName), TargetMissing,
    PrependIf(TruthyOpt(u.pathDsl) && TruthyOpt(u.routeName), TargetBoth,
    PrependIf(!NonEmptyList(u.rolesAny) && !NonEmptyList(u.permissionsAny) && !NonEmptyList(u.permissionsAll),
              NoRequirement, [])))
  }

  function Validate(u: RuleUpdate): (errs: seq<RequestError>)
    ensures TargetMissing in errs <==> !TruthyOpt(u.pathDsl) && !TruthyOpt(u.routeName)
    ensures TargetBoth in errs <==> TruthyOpt(u.pathDsl) && TruthyOpt(u.routeName)
    ensures NoRequirement in errs <==>
      !NonEmptyList(u.rolesAny) && !NonEmptyList(u.permissionsAny) && !NonEmptyList(u.permissionsAll)
    ensures MethodNotAllowed in errs <==> u.httpMethod.Some? && !MethodAllowed(u.httpMethod.value)
    ensures PriorityTooLow in errs <==> u.priority.Some? && u.priority.value < MinPriority
    ensures PriorityTooHigh in errs <==> u.priority.Some? && u.priority.value > MaxPriority
  {
    FieldErrors(u, RangeErrors(u, AfterErrors(u)))
  }

  /** A request the validator accepts. */
  predicate Acceptable(u: RuleUpdate) {
    && (u.service.Some? ==> |u.service.value| <= MaxLength)
    && (u.httpMethod.Some? ==> MethodAllowed(u.httpMethod.value))
    && (u.pathDsl.Some? ==> |u.pathDsl.value| <= MaxLength)
    && (u.routeName.Some? ==> |u.routeName.value| <= MaxLength)
    && (u.priority.Some? ==> MinPriority <= u.priority.value <= MaxPriority)
    && (TruthyOpt(u.pathDsl) != TruthyOpt(u.routeName))
    && (NonEmptyList(u.rolesAny) || NonEmptyList(u.permissionsAny) || NonEmptyList(u.permissionsAll))
  }

  /** The request passes exactly when every constraint holds. */
  lemma ValidateEmptyIff(u: RuleUpdate)
    ensures Validate(u) == [] <==> Acceptable(u)
  {
    if Validate(u) == [] {
      assert AfterErrors(u) == [];
    }
  }

  /**
   * Every field of the update is optional on its own, yet a partial update that names
   * no target (say, only a new priority) is always rejected.
   */
  lemma PartialUpdateWithoutTargetRejected(u: RuleUpdate)
    requires u.pathDsl.None? && u.routeName.None?
    ensures TargetMissing in Validate(u)
  {
  }

  /**
   * An update that names only a path (which passes validation when it also names a
   * requirement) leaves a route rule with both its route name and a compiled path:
   * the service has no way to clear the route name.
   */
  lemma PathUpdateKeepsRouteName(r: Rule, u: RuleUpdate)
    requires Saved(r) && TruthyOpt(r.routeName)
    requires u.routeName.None? && TruthyOpt(u.pathDsl) && Trim(u.pathDsl.value) != ""
    ensures var s := UpdateRule(r, u); s.routeName == r.routeName && s.pathRegex.Some?
  {
    UpdateRuleFields(r, u);
  }
}

=== FILE: service_clients.dfy ===
/**
 * Service clients: the credentials other services present to call the
 * authorization API (app/Models/ServiceClient.php), the check made on every such
 * call (app/Services/V1/Auth/ServiceCallerAuthenticator.php) and the management
 * operations (app/Services/V1/ServiceClients/ServiceClientManagementService.php).
 *
 * Time is an integer timestamp passed in as `now`. SHA-256 is an arbitrary function
 * `hash`, the random plain token is a parameter, and Carbon's date parsing followed
 * by `endOfDay` is an arbitrary function `endOfDay` from the given text to a time.
 * Client names are unique (the table's unique key), so the clients are a map
 * from name to record.
 */
module ServiceClients {
  import opened Wrappers
  import opened Text

  type Time = int

  datatype ServiceClient = ServiceClient(
    name: string,
    tokenHash: string,
    isActive: bool,
    expiresAt: Option<Time>,
    notes: Option<string>,
    lastUsedAt: Option<Time>,
    useCount: nat)

  /** isExpired: a missing expiry never expires; otherwise the expiry lies in the past. */
  predicate IsExpired(c: ServiceClient, now: Time) {
    c.expiresAt.Some? && c.expiresAt.value < now
  }

  /** isActive: switched on and not expired. */
  predicate IsActive(c: ServiceClient, now: Time) {
    c.isActive && !IsExpired(c, now)
  }

  // ---------------------------------------------------------------------------
  // Caller authentication

  const BearerPrefix: string := "Bearer "

  /** What the check reads from the request: the Authorization header and the `service` input. */
  datatype CallerRequest = CallerRequest(authorization: Option<string>, service: string)

  /** The 401 reasons, in the order they are checked. */
  datatype CallerError = UnauthorizedCaller | UnknownService | InvalidServiceToken | ServiceInactive | ServiceTokenExpired

  /** A truthy header starting with "Bearer " and a non-empty service name. */
  predicate WellFormed(req: CallerRequest) {
    TruthyOpt(req.authorization) && StartsWith(req.authorization.value, BearerPrefix) && req.service != ""
  }

  /** The token the caller presents: the text after "Bearer ", trimmed. */
  function ProvidedToken(header: string): (t: string)
    requires StartsWith(header, BearerPrefix)
    ensures |t| <= |header| - |BearerPrefix|
    ensures |t| > 0 ==> !IsTrimChar(t[0]) && !IsTrimChar(t[|t| - 1])
  {
    Trim(header[|BearerPrefix|..])
  }

  /** A token without surrounding white space comes back out of its header unchanged. */
  lemma ProvidedTokenRoundTrip(t: string)
    requires |t| > 0 ==> !IsTrimChar(t[0]) && !IsTrimChar(t[|t| - 1])
    ensures StartsWith(BearerPrefix + t, BearerPrefix)
    ensures ProvidedToken(BearerPrefix + t) == t
  {
    assert (BearerPrefix + t)[..|BearerPrefix|] == BearerPrefix;
    assert (BearerPrefix + t)[|BearerPrefix|..] == t;
    TrimOfTrimmed(t);
  }

  /** The request names a known client and presents its token. */
  predicate Presents(clients: map<string, ServiceClient>, req: CallerRequest, hash: string -> string) {
    WellFormed(req) && req.service in clients
    && hash(ProvidedToken(req.authorization.value)) == clients[req.service].tokenHash
  }

  /**
   * validate: the first failing check decides the 401; on success the client's use
   * count goes up by one and its last use becomes `now`, and the saved record is
   * returned.
   */
  function Validate(clients: map<string, ServiceClient>, req: CallerRequest, now: Time, hash: string -> string): (r: Result<ServiceClient, CallerError>)
    ensures r == Failure(UnauthorizedCaller) <==> !WellFormed(req)
    ensures r == Failure(UnknownService) <==> WellFormed(req) && req.service !in clients
    ensures r == Failure(InvalidServiceToken) <==> WellFormed(req) && req.service in clients && !Presents(clients, req, hash)
    ensures r == Failure(ServiceInactive) <==> Presents(clients, req, hash) && !clients[req.service].isActive
    ensures r == Failure(ServiceTokenExpired) <==> Presents(clients, req, hash) && clients[req.service].isActive && IsExpired(clients[req.service], now)
    ensures r.Success? <==> Presents(clients, req, hash) && IsActive(clients[req.service], now)
    ensures r.Success? ==> r.value.useCount == clients[req.service].useCount + 1 && r.value.lastUsedAt == Some(now)
    ensures r.Success? ==> r.value.(useCount := 0, lastUsedAt := None) == clients[req.service].(useCount := 0, lastUsedAt := None)
  {
    var header := req.authorization;
    if !TruthyOpt(header) || !StartsWith(header.value, BearerPrefix) || req.service == "" then Failure(UnauthorizedCaller)
    else
      var token := ProvidedToken(header.value);
      if req.service !in clients then Failure(UnknownService)
      else
        var c := clients[req.service];
        if c.tokenHash != hash(token) then Failure(InvalidServiceToken)
        else if !c.isActive then Failure(ServiceInactive)
        else if c.expiresAt.Some? && now > c.expiresAt.value then Failure(ServiceTokenExpired)
        else Success(c.(lastUsedAt := Some(now), useCount := c.useCount + 1))
  }

  /** A token is still accepted at the very instant it expires. */
  lemma AcceptedAtExpiryInstant(clients: map<string, ServiceClient>, req: CallerRequest, hash: string -> string)
    requires Presents(clients, req, hash) && clients[req.service].isActive
    requires clients[req.service].expiresAt.Some?
    ensures Validate(clients, req, clients[req.service].expiresAt.value, hash).Success?
    ensures Validate(clients, req, clients[req.service].expiresAt.value + 1, hash) == Failure(ServiceTokenExpired)
  {
  }

  /** Saving the accepted record and calling again at the same time counts a second use. */
  lemma ValidateCountsEachCall(clients: map<string, ServiceClient>, req: CallerRequest, now: Time, hash: string -> string)
    requires Validate(clients, req, now, hash).Success?
    ensures var saved := clients[req.service := Validate(clients, req, now, hash).value];
            Validate(saved, req, now, hash).Success?
            && Validate(saved, req, now, hash).value.useCount == clients[req.service].useCount + 2
  {
    var c := Validate(clients, req, now, hash).value;
    var saved := clients[req.service := c];
    assert saved[req.service] == c;
    assert Presents(saved, req, hash);
  }

  // ---------------------------------------------------------------------------
  // Management

  /** An expiry given as text: a truthy value becomes the end of that day, anything else none. */
  function ExpiryOf(given: string, endOfDay: string -> Time): (r: Option<Time>)
    ensures r.Some? <==> Truthy(given)
    ensures r.Some? ==> r.value == endOfDay(given)
  {
    if Truthy(given) then Some(endOfDay(given)) else None
  }

  /** The create payload; `None` is an absent or null key. */
  datatype ServiceInput = ServiceInput(name: string, isActive: Option<bool>, expiresAt: Option<string>, notes: Option<string>)

  /**
   * createService: stores the hash of a fresh plain token and returns the plain token
   * once. The client is active and without notes or expiry unless given; an existing
   * name is refused by the unique key (`None`).
   */
  function CreateService(clients: map<string, ServiceClient>, input: ServiceInput, plain: string, hash: string -> string, endOfDay: string -> Time): (r: Option<(map<string, ServiceClient>, string)>)
    ensures r.None? <==> input.name in clients
    ensures r.Some? ==> r.value.1 == plain && input.name in r.value.0
    ensures r.Some? ==> forall n :: n in clients ==> n in r.value.0 && r.value.0[n] == clients[n]
    ensures r.Some? ==> forall n :: n in r.value.0 ==> n in clients || n == input.name
    ensures r.Some? ==>
      var c := r.value.0[input.name];
      c.name == input.name && c.tokenHash == hash(r.value.1)
      && c.isActive == (input.isActive != Some(false))
      && c.notes == input.notes
      && (c.expiresAt.Some? <==> TruthyOpt(input.expiresAt))
      && (c.expiresAt.Some? ==> c.expiresAt.value == endOfDay(input.expiresAt.value))
      && c.lastUsedAt.None? && c.useCount == 0
  {
    if input.name in clients then None
    else
      var expires := if input.expiresAt.Some? then ExpiryOf(input.expiresAt.value, endOfDay) else None;
      var c := ServiceClient(input.name, hash(plain), input.isActive.GetOr(true), expires, input.notes, None, 0);
      Some((clients[input.name := c], plain))
  }

  /** The token handed out on creation authenticates the new client while it is active. */
  lemma CreatedTokenAuthenticates(clients: map<string, ServiceClient>, input: ServiceInput, plain: string, hash: string -> string, endOfDay: string -> Time, now: Time)
    requires CreateService(clients, input, plain, hash, endOfDay).Some?
    requires input.name != "" && input.isActive != Some(false)
    requires |plain| > 0 ==> !IsTrimChar(plain[0]) && !IsTrimChar(plain[|plain| - 1])
    requires TruthyOpt(input.expiresAt) ==> now <= endOfDay(input.expiresAt.value)
    ensures var created := CreateService(clients, input, plain, hash, endOfDay).value;
            Validate(created.0, CallerRequest(Some(BearerPrefix + created.1), input.name), now, hash).Success?
  {
    ProvidedTokenRoundTrip(plain);
    assert Truthy(BearerPrefix + plain) by { assert (BearerPrefix + plain)[0] == 'B'; }
  }

  /** The update payload; `None` is an absent or null key (PHP `isset`). */
  datatype ServiceUpdate = ServiceUpdate(name: Option<string>, isActive: Option<bool>, notes: Option<string>, expiresAt: Option<string>)

  /**
   * updateService: each of name, is_active, notes and expires_at changes exactly
   * when it is given non-null; a falsy expiry clears it. The token, last use and use
   * count are never touched.
   */
  function UpdateService(c: ServiceClient, u: ServiceUpdate, endOfDay: string -> Time): (r: ServiceClient)
    ensures u.name.None? ==> r.name == c.name
    ensures u.name.Some? ==> r.name == u.name.value
    ensures u.isActive.None? ==> r.isActive == c.isActive
    ensures u.isActive.Some? ==> r.isActive == u.isActive.value
    ensures u.notes.None? ==> r.notes == c.notes
    ensures u.notes.Some? ==> r.notes == u.notes
    ensures u.expiresAt.None? ==> r.expiresAt == c.expiresAt
    ensures u.expiresAt.Some? ==> (r.expiresAt.Some? <==> Truthy(u.expiresAt.value))
    ensures u.expiresAt.Some? && r.expiresAt.Some? ==> r.expiresAt.value == endOfDay(u.expiresAt.value)
    ensures r.tokenHash == c.tokenHash && r.lastUsedAt == c.lastUsedAt && r.useCount == c.useCount
  {
    c.(name := u.name.GetOr(c.name),
       isActive := u.isActive.GetOr(c.isActive),
       notes := if u.notes.Some? then u.notes else c.notes,
       expiresAt := if u.expiresAt.Some? then ExpiryOf(u.expiresAt.value, endOfDay) else c.expiresAt)
  }

  /** Applying the same update twice is applying it once. */
  lemma UpdateServiceIdempotent(c: ServiceClient, u: ServiceUpdate, endOfDay: string -> Time)
    ensures UpdateService(UpdateService(c, u, endOfDay), u, endOfDay) == UpdateService(c, u, endOfDay)
  {
  }

  /** An empty update changes nothing. */
  lemma EmptyUpdateKeepsClient(c: ServiceClient, endOfDay: string -> Time)
    ensures UpdateService(c, ServiceUpdate(None, None, None, None), endOfDay) == c
  {
  }

  /** Notes, once set, cannot be cleared through an update: a null value is skipped. */
  lemma UpdateNeverClearsNotes(c: ServiceClient, u: ServiceUpdate, endOfDay: string -> Time)
    requires c.notes.Some?
    ensures UpdateService(c, u, endOfDay).notes.Some?
  {
  }

  /** The rotate payload after the request's preparation: `never_expires` replaces the expiry by null. */
  datatype RotateInput = RotateInput(neverExpires: bool, expiresAt: Option<string>)

  function RotateExpiry(input: RotateInput): (e: Option<string>)
    ensures input.neverExpires ==> e.None?
    ensures !input.neverExpires ==> e == input.expiresAt
  {
    if input.neverExpires then None else input.expiresAt
  }

  /**
   * rotateServiceToken: always stores the hash of a fresh plain token; the expiry
   * changes only when given non-null. The returned plain token is the new one.
   */
  function RotateToken(c: ServiceClient, input: RotateInput, plain: string, hash: string -> string, endOfDay: string -> Time): (r: (ServiceClient, string))
    ensures r.1 == plain && r.0.tokenHash == hash(plain)
    ensures RotateExpiry(input).None? ==> r.0.expiresAt == c.expiresAt
    ensures RotateExpiry(input).Some? ==> (r.0.expiresAt.Some? <==> Truthy(RotateExpiry(input).value))
    ensures RotateExpiry(input).Some? && r.0.expiresAt.Some? ==> r.0.expiresAt.value == endOfDay(RotateExpiry(input).value)
    ensures r.0.(tokenHash := c.tokenHash, expiresAt := c.expiresAt) == c
  {
    var e := RotateExpiry(input);
    var expires := if e.Some? then ExpiryOf(e.value, endOfDay) else c.expiresAt;
    (c.(tokenHash := hash(plain), expiresAt := expires), plain)
  }

  /** Asking for a token that never expires keeps whatever expiry the client had. */
  lemma NeverExpiresKeepsExpiry(c: ServiceClient, expiresAt: Option<string>, plain: string, hash: string -> string, endOfDay: string -> Time)
    ensures RotateToken(c, RotateInput(true, expiresAt), plain, hash, endOfDay).0.expiresAt == c.expiresAt
  {
  }

  /**
   * After a rotation the old token is refused and the new one is accepted, provided
   * the two hashes differ and the client is otherwise usable.
   */
  lemma RotationReplacesToken(clients: map<string, ServiceClient>, name: string, input: RotateInput, oldPlain: string, plain: string, hash: string -> string, endOfDay: string -> Time, now: Time)
    requires name in clients && name != ""
    requires hash(oldPlain) != hash(plain)
    requires |oldPlain| > 0 ==> !IsTrimChar(oldPlain[0]) && !IsTrimChar(oldPlain[|oldPlain| - 1])
    requires |plain| > 0 ==> !IsTrimChar(plain[0]) && !IsTrimChar(plain[|plain| - 1])
    ensures var rotated := clients[name := RotateToken(clients[name], input, plain, hash, endOfDay).0];
            Validate(rotated, CallerRequest(Some(BearerPrefix + oldPlain), name), now, hash) == Failure(InvalidServiceToken)
            && (IsActive(rotated[name], now) ==> Validate(rotated, CallerRequest(Some(BearerPrefix + plain), name), now, hash).Success?)
  {
    ProvidedTokenRoundTrip(oldPlain);
    ProvidedTokenRoundTrip(plain);
    assert Truthy(BearerPrefix + oldPlain) by { assert (BearerPrefix + oldPlain)[0] == 'B'; }
    assert Truthy(BearerPrefix + plain) by { assert (BearerPrefix + plain)[0] == 'B'; }
  }

  /** toggleServiceStatus: flips is_active and nothing else. */
  function ToggleService(c: ServiceClient): (r: ServiceClient)
    ensures r.isActive != c.isActive
    ensures r.(isActive := c.isActive) == c
  {
    c.(isActive := !c.isActive)
  }

  /** Toggling twice restores the client. */
  lemma ToggleServiceTwice(c: ServiceClient)
    ensures ToggleService(ToggleService(c)) == c
  {
  }
}

=== FILE: service_events.dfy ===
/**
 * Which auth events the user and role services record, and what they carry
 * (app/Services/V1/Users/UserManagementService.php: createUser, updateUser;
 * app/Services/V1/Roles/RoleManagementService.php: createRole, updateRole,
 * deleteRole, syncRolePermissions).
 *
 * Each operation is a function from the record before, the request data and the
 * values it reads back from the database (role and permission names before and
 * after a sync, whether a delete succeeded) to the record after and the events it
 * records, in order. Password hashing is a parameter. The envelope, the outbox row
 * and the publish job are modelled separately.
 */
module ServiceEvents {
  import opened Wrappers
  import opened Text
  import opened Collections
  import opened ChangeSets

  /** The events these services record; the subject of each is `Subject`. */
  datatype AuthEvent =
    | UserCreated(userId: nat)
    | UserRoleAssigned(userId: nat, roles: seq<string>)
    | UserPermissionGranted(userId: nat, permissions: seq<string>)
    | UserRoleSynced(userId: nat, roleDiff: Diff)
    | UserPermissionSynced(userId: nat, permissionDiff: Diff)
    | UserUpdated(userId: nat, changed: seq<FieldChange>)
    | RoleCreated(roleId: nat, name: string, guardName: string)
    | RolePermissionsAssigned(roleId: nat, permissions: seq<string>, source: string)
    | RolePermissionsSynced(roleId: nat, added: seq<string>, removed: seq<string>, final: seq<string>, source: string)
    | RoleUpdated(roleId: nat, changed: seq<FieldChange>)
    | RoleDeleted(roleId: nat, name: string, guardName: string)

  /** Every subject lies under this prefix. */
  const SubjectRoot: string := "auth.v1."

  function Subject(e: AuthEvent): string {
    SubjectRoot + SubjectTail(e)
  }

  function SubjectTail(e: AuthEvent): string {
    match e
    case UserCreated(_) => "user.created"
    case UserRoleAssigned(_, _) => "user.role.assigned"
    case UserPermissionGranted(_, _) => "user.permission.granted"
    case UserRoleSynced(_, _) => "user.role.synced"
    case UserPermissionSynced(_, _) => "user.permission.synced"
    case UserUpdated(_, _) => "user.updated"
    case RoleCreated(_, _, _) => "role.created"
    case RolePermissionsAssigned(_, _, _) => "assignment.role_permission.assigned"
    case RolePermissionsSynced(_, _, _, _, _) => "assignment.role_permission.synced"
    case RoleUpdated(_, _) => "role.updated"
    case RoleDeleted(_, _, _) => "role.deleted"
  }

  /** Two events with the same subject are of the same kind. */
  lemma SubjectsDistinguishKinds(a: AuthEvent, b: AuthEvent)
    requires Subject(a) == Subject(b)
    ensures a.UserCreated? == b.UserCreated? && a.UserRoleAssigned? == b.UserRoleAssigned?
    ensures a.UserPermissionGranted? == b.UserPermissionGranted? && a.UserRoleSynced? == b.UserRoleSynced?
    ensures a.UserPermissionSynced? == b.UserPermissionSynced? && a.UserUpdated? == b.UserUpdated?
    ensures a.RoleCreated? == b.RoleCreated? && a.RolePermissionsAssigned? == b.RolePermissionsAssigned?
    ensures a.RolePermissionsSynced? == b.RolePermissionsSynced? && a.RoleUpdated? == b.RoleUpdated?
    ensures a.RoleDeleted? == b.RoleDeleted?
  {
    var ta, tb := SubjectTail(a), SubjectTail(b);
    assert ta == Subject(a)[|SubjectRoot|..] && tb == Subject(b)[|SubjectRoot|..];
    assert |ta| == |tb| && ta[0] == tb[0] && ta[5] == tb[5] && ta[|ta| - 3] == tb[|tb| - 3];
  }

  // ---------------------------------------------------------------------------
  // Users

  const UserChangeFields: seq<string> := ["name", "email", "email_verified_at"]

  /** createUser's input; `None` is an absent or null key (`isset`). */
  datatype NewUser = NewUser(roles: Option<seq<string>>, permissions: Option<seq<string>>)

  /**
   * createUser: the full `user.created` snapshot first, then `role.assigned` only when
   * roles were given and `permission.granted` only when permissions were given, even
   * empty ones.
   */
  function CreateUserEvents(userId: nat, data: NewUser): (events: seq<AuthEvent>)
    ensures |events| == 1 + (if data.roles.Some? then 1 else 0) + (if data.permissions.Some? then 1 else 0)
    ensures events[0] == UserCreated(userId)
    ensures data.roles.Some? ==> events[1] == UserRoleAssigned(userId, data.roles.value)
    ensures data.permissions.Some? ==> events[|events| - 1] == UserPermissionGranted(userId, data.permissions.value)
  {
    [UserCreated(userId)]
    + (if data.roles.Some? then [UserRoleAssigned(userId, data.roles.value)] else [])
    + (if data.permissions.Some? then [UserPermissionGranted(userId, data.permissions.value)] else [])
  }

  /**
   * updateUser's input: `name` and `email` are `Some` whenever the key is present
   * (even null); `roles` and `permissions` whenever they are set and non-null.
   */
  datatype UserUpdate = UserUpdate(name: Option<Value>, email: Option<Value>, password: Option<string>,
                                   roles: Option<seq<string>>, permissions: Option<seq<string>>)

  /** The role and permission names read before and after the syncs. */
  datatype SyncReads = SyncReads(rolesBefore: seq<string>, rolesAfter: seq<string>, permsBefore: seq<string>, permsAfter: seq<string>)

  /** The user's attributes after updateUser: a present name or email is copied, a non-empty password re-hashed. */
  function UpdatedUser(before: Snapshot, data: UserUpdate, passwordHash: string): (after: Snapshot)
    ensures data.name.None? ==> Lookup(after, "name") == Lookup(before, "name")
    ensures data.name.Some? ==> Lookup(after, "name") == data.name.value
    ensures data.email.None? ==> Lookup(after, "email") == Lookup(before, "email")
    ensures data.email.Some? ==> Lookup(after, "email") == data.email.value
    ensures TruthyOpt(data.password) ==> Lookup(after, "password") == Str(passwordHash)
    ensures !TruthyOpt(data.password) ==> Lookup(after, "password") == Lookup(before, "password")
    ensures forall f :: f != "name" && f != "email" && f != "password" ==> Lookup(after, f) == Lookup(before, f)
  {
    var a := if data.name.Some? then before["name" := data.name.value] else before;
    var b := if data.email.Some? then a["email" := data.email.value] else a;
    if TruthyOpt(data.password) then b["password" := Str(passwordHash)] else b
  }

  /** Whether a present name or e-mail differs from the stored one. */
  predicate NameOrEmailChanged(before: Snapshot, data: UserUpdate) {
    (data.name.Some? && data.name.value != Lookup(before, "name"))
    || (data.email.Some? && data.email.value != Lookup(before, "email"))
  }

  /** Which of the tracked user fields updateUser changes. */
  lemma UserFieldsChanged(before: Snapshot, data: UserUpdate, passwordHash: string)
    ensures var after := UpdatedUser(before, data, passwordHash);
            && (Changed(before, after, "name") <==> data.name.Some? && data.name.value != Lookup(before, "name"))
            && (Changed(before, after, "email") <==> data.email.Some? && data.email.value != Lookup(before, "email"))
            && !Changed(before, after, "email_verified_at")
  {
  }

  /** The `changed_fields` of `user.updated`: name, e-mail and verification time, compared before and after. */
  function UserChanges(before: Snapshot, data: UserUpdate, passwordHash: string): (cs: seq<FieldChange>)
    ensures forall c :: c in cs ==> c.from == Lookup(before, c.field) && c.to == Lookup(UpdatedUser(before, data, passwordHash), c.field)
    ensures forall f :: f in FieldNames(cs) ==> f in UserChangeFields
  {
    FromArrays(before, UpdatedUser(before, data, passwordHash), UserChangeFields)
  }

  /**
   * updateUser records, in order: `role.synced` when roles were set and
   * `permission.synced` when permissions were set, each with the diff of the names read
   * before and after the sync; then `user.updated` when `UserChanges` is non-empty.
   */
  function UpdateUserEvents(userId: nat, before: Snapshot, data: UserUpdate, passwordHash: string, loaded: SyncReads): (r: (Snapshot, seq<AuthEvent>))
    ensures r.0 == UpdatedUser(before, data, passwordHash)
    ensures var k := if data.roles.Some? then 1 else 0;
            var m := k + (if data.permissions.Some? then 1 else 0);
            |r.1| == m + (if UserChanges(before, data, passwordHash) != [] then 1 else 0)
            && (data.roles.Some? ==> r.1[0] == UserRoleSynced(userId, DiffAddedRemoved(loaded.rolesBefore, loaded.rolesAfter)))
            && (data.permissions.Some? ==> r.1[k] == UserPermissionSynced(userId, DiffAddedRemoved(loaded.permsBefore, loaded.permsAfter)))
            && (|r.1| > m ==> r.1[m] == UserUpdated(userId, UserChanges(before, data, passwordHash)))
  {
    var roleDiff := if data.roles.Some? then Some(DiffAddedRemoved(loaded.rolesBefore, loaded.rolesAfter)) else None;
    var permDiff := if data.permissions.Some? then Some(DiffAddedRemoved(loaded.permsBefore, loaded.permsAfter)) else None;
    var events := UpdateSequence(userId, roleDiff, permDiff, UserChanges(before, data, passwordHash));
    (UpdatedUser(before, data, passwordHash), events)
  }

  /** The events of updateUser from the two diffs, when the syncs ran, and the attribute changes. */
  function UpdateSequence(userId: nat, roleDiff: Option<Diff>, permDiff: Option<Diff>, changes: seq<FieldChange>): (events: seq<AuthEvent>)
    ensures var k := if roleDiff.Some? then 1 else 0;
            var m := k + (if permDiff.Some? then 1 else 0);
            |events| == m + (if changes != [] then 1 else 0)
            && (roleDiff.Some? ==> events[0] == UserRoleSynced(userId, roleDiff.value))
            && (permDiff.Some? ==> events[k] == UserPermissionSynced(userId, permDiff.value))
            && (|events| > m ==> events[m] == UserUpdated(userId, changes))
  {
    (if roleDiff.Some? then [UserRoleSynced(userId, roleDiff.value)] else [])
    + (if permDiff.Some? then [UserPermissionSynced(userId, permDiff.value)] else [])
    + (if changes != [] then [UserUpdated(userId, changes)] else [])
  }

  /**
   * `user.updated` is recorded exactly when a present name or e-mail differs from the
   * stored one; a new password or a role or permission sync alone never records it, and
   * the password is never a changed field.
   */
  lemma UserUpdatedIffNameOrEmailChanged(before: Snapshot, data: UserUpdate, passwordHash: string)
    ensures UserChanges(before, data, passwordHash) != [] <==> NameOrEmailChanged(before, data)
    ensures "password" !in FieldNames(UserChanges(before, data, passwordHash))
  {
    var after := UpdatedUser(before, data, passwordHash);
    UserFieldsChanged(before, data, passwordHash);
    FromArraysEmptyIff(before, after, UserChangeFields);
    var names: seq<string> := UserChangeFields;
    assert forall f :: f in names <==> f == "name" || f == "email" || f == "email_verified_at";
  }

  // ---------------------------------------------------------------------------
  // Roles

  datatype RoleRecord = RoleRecord(id: nat, name: string, guardName: string)

  /** The attributes compared for `role.updated`. */
  function RoleSnapshot(r: RoleRecord): Snapshot {
    map["name" := Str(r.name), "guard_name" := Str(r.guardName)]
  }

  const RoleChangeFields: seq<string> := ["name", "guard_name"]

  const DefaultGuard: string := "web"

  /** A `permissions` input: absent (or, where `isset` is used, null), not an array, or a list. */
  datatype PermissionsInput = Absent | NotArray | Names(names: seq<string>)

  datatype NewRole = NewRole(name: string, guardName: Option<string>, permissions: PermissionsInput)

  /**
   * createRole: the guard defaults to `web`; `role.created` is always recorded and
   * `role_permission.assigned` follows only for a non-empty permission list.
   */
  function CreateRole(id: nat, data: NewRole): (r: (RoleRecord, seq<AuthEvent>))
    ensures r.0 == RoleRecord(id, data.name, data.guardName.GetOr(DefaultGuard))
    ensures |r.1| >= 1 && r.1[0] == RoleCreated(id, data.name, r.0.guardName)
    ensures |r.1| == 2 <==> data.permissions.Names? && |data.permissions.names| > 0
    ensures |r.1| == 2 ==> r.1[1] == RolePermissionsAssigned(id, data.permissions.names, "create_role")
    ensures |r.1| <= 2
  {
    var role := RoleRecord(id, data.name, data.guardName.GetOr(DefaultGuard));
    var granted := if data.permissions.Names? && |data.permissions.names| > 0 then data.permissions.names else [];
    var events := [RoleCreated(id, role.name, role.guardName)]
      + (if |granted| > 0 then [RolePermissionsAssigned(id, granted, "create_role")] else []);
    (role, events)
  }

  /** The names a `permissions` input syncs to: a non-array counts as none. */
  function SyncTarget(p: PermissionsInput): (names: seq<string>)
    requires !p.Absent?
    ensures p.NotArray? ==> names == []
    ensures p.Names? ==> names == p.names
  {
    if p.Names? then p.names else []
  }

  /** The `role_permission.synced` event for a sync from `before` to `after`: the deltas are plain `array_diff`s. */
  function SyncedEvent(roleId: nat, before: seq<string>, after: seq<string>, source: string): (e: AuthEvent)
    ensures e.RolePermissionsSynced? && e.roleId == roleId && e.final == after && e.source == source
    ensures forall x :: x in e.added <==> x in after && x !in before
    ensures forall x :: x in e.removed <==> x in before && x !in after
    ensures e.added == Without(after, before) && e.removed == Without(before, after)
  {
    RolePermissionsSynced(roleId, Without(after, before), Without(before, after), after, source)
  }

  /** updateRole's input: a set, non-null name, and the `permissions` key if present. */
  datatype RoleUpdate = RoleUpdate(name: Option<string>, permissions: PermissionsInput)

  /** The `changed_fields` of `role.updated`. */
  function RoleChanges(before: RoleRecord, after: RoleRecord): (cs: seq<FieldChange>)
    ensures forall c :: c in cs ==> c.from == Lookup(RoleSnapshot(before), c.field) && c.to == Lookup(RoleSnapshot(after), c.field)
    ensures forall f :: f in FieldNames(cs) ==> f in RoleChangeFields
  {
    FromArrays(RoleSnapshot(before), RoleSnapshot(after), RoleChangeFields)
  }

  /**
   * updateRole records, in order: `role_permission.synced` whenever the `permissions`
   * key is present, then `role.updated` when `RoleChanges` is non-empty.
   */
  function UpdateRole(role: RoleRecord, data: RoleUpdate, oldPermissions: seq<string>): (r: (RoleRecord, seq<AuthEvent>))
    ensures r.0 == role.(name := data.name.GetOr(role.name))
    ensures var k := if data.permissions.Absent? then 0 else 1;
            |r.1| == k + (if RoleChanges(role, r.0) != [] then 1 else 0)
            && (!data.permissions.Absent? ==> r.1[0] == SyncedEvent(role.id, oldPermissions, SyncTarget(data.permissions), "update_role"))
            && (|r.1| > k ==> r.1[k] == RoleUpdated(role.id, RoleChanges(role, r.0)))
  {
    var after := role.(name := data.name.GetOr(role.name));
    var synced := if data.permissions.Absent? then [] else [SyncedEvent(role.id, oldPermissions, SyncTarget(data.permissions), "update_role")];
    var changes := RoleChanges(role, after);
    (after, synced + (if changes != [] then [RoleUpdated(role.id, changes)] else []))
  }

  /** `role.updated` is recorded exactly when a new name differs from the old one, and reports only the name. */
  lemma RoleUpdatedIffRenamed(role: RoleRecord, name: Option<string>)
    ensures var after := role.(name := name.GetOr(role.name));
            (RoleChanges(role, after) != [] <==> name.Some? && name.value != role.name)
            && forall c :: c in RoleChanges(role, after) ==> c == FieldChange("name", Str(role.name), Str(after.name))
  {
    var after := role.(name := name.GetOr(role.name));
    var changes := RoleChanges(role, after);
    assert Lookup(RoleSnapshot(role), "name") == Str(role.name);
    assert Lookup(RoleSnapshot(after), "name") == Str(after.name);
    assert !Changed(RoleSnapshot(role), RoleSnapshot(after), "guard_name");
    if name.Some? && name.value != role.name {
      assert "name" in FieldNames(changes);
    } else {
      assert forall f :: f in RoleChangeFields ==> !Changed(RoleSnapshot(role), RoleSnapshot(after), f);
    }
    assert forall c :: c in changes ==> c.field in FieldNames(changes);
  }

  /** Syncing to the same names still records `role_permission.synced`, with empty deltas. */
  lemma UpdateRoleSyncsEvenWithoutChange(role: RoleRecord, names: seq<string>)
    ensures UpdateRole(role, RoleUpdate(None, Names(names)), names).1 == [RolePermissionsSynced(role.id, [], [], names, "update_role")]
  {
    WithoutAllIn(names, names);
    assert role.(name := role.name) == role;
    IdenticalNoChange(RoleSnapshot(role), RoleChangeFields);
  }

  /** A non-array `permissions` value removes every permission. */
  lemma NonArrayPermissionsRemoveAll(role: RoleRecord, oldPermissions: seq<string>)
    ensures var e := UpdateRole(role, RoleUpdate(None, NotArray), oldPermissions).1[0];
            e.RolePermissionsSynced? && e.final == [] && e.added == [] && e.removed == oldPermissions
  {
    WithoutNone(oldPermissions);
  }

  /** deleteRole: `role.deleted` only when the delete succeeded. */
  function DeleteRoleEvents(role: RoleRecord, deleted: bool): (events: seq<AuthEvent>)
    ensures deleted ==> events == [RoleDeleted(role.id, role.name, role.guardName)]
    ensures !deleted ==> events == []
  {
    if deleted then [RoleDeleted(role.id, role.name, role.guardName)] else []
  }

  /** syncRolePermissions: always one `role_permission.synced` event. */
  function SyncRolePermissionsEvents(role: RoleRecord, oldPermissions: seq<string>, permissions: seq<string>): (events: seq<AuthEvent>)
    ensures |events| == 1 && events[0].RolePermissionsSynced? && events[0].final == permissions
    ensures forall x :: x in events[0].added <==> x in permissions && x !in oldPermissions
    ensures forall x :: x in events[0].removed <==> x in oldPermissions && x !in permissions
    ensures events[0].added == Without(permissions, oldPermissions) && events[0].removed == Without(oldPermissions, permissions)
    ensures events[0].roleId == role.id && events[0].source == "sync_role_permissions"
  {
    [SyncedEvent(role.id, oldPermissions, permissions, "sync_role_permissions")]
  }
}

=== FILE: store_access.dfy ===
/**
 * What a user holds in one store (app/Models/User.php): the roles assigned to the user
 * in the store, the effective roles (those plus every role below them in the store's
 * hierarchy), the effective permissions, and whether one user may act on another.
 * Also the user's current store session.
 */
module StoreAccess {
  import opened Wrappers
  import opened Collections
  import opened RoleGraph

  type UserId = nat

  /** A `user_role_store` row. */
  datatype Assignment = Assignment(user: UserId, role: RoleId, store: StoreId, isActive: bool, metadata: Option<Metadata>)

  /** The store-independent permission data: each role's permissions and each permission's name. */
  datatype Directory = Directory(rolePerms: map<RoleId, seq<PermId>>, permName: map<PermId, string>)

  // ---------------------------------------------------------------------------
  // Roles

  /** getRolesForStore: the roles of the user's active assignments in the store, in table order. */
  function RolesForStore(assignments: seq<Assignment>, u: UserId, s: StoreId): (r: seq<RoleId>)
    ensures forall x :: x in r <==> exists a :: a in assignments && a.user == u && a.store == s && a.isActive && a.role == x
  {
    if |assignments| == 0 then []
    else
      var a := assignments[0];
      var rest := RolesForStore(assignments[1..], u, s);
      assert forall b :: b in assignments <==> b == a || b in assignments[1..];
      if a.user == u && a.store == s && a.isActive then [a.role] + rest else rest
  }

  lemma {:induction false} RolesForStoreAppend(assignments: seq<Assignment>, more: seq<Assignment>, u: UserId, s: StoreId)
    ensures RolesForStore(assignments + more, u, s) == RolesForStore(assignments, u, s) + RolesForStore(more, u, s)
  {
    if |assignments| > 0 {
      assert (assignments + more)[0] == assignments[0];
      assert (assignments + more)[1..] == assignments[1..] + more;
      RolesForStoreAppend(assignments[1..], more, u, s);
    } else {
      assert assignments + more == more;
    }
  }

  /** The lower roles of each role in turn, concatenated. */
  function LowerOfAll(edges: seq<Edge>, s: StoreId, roles: seq<RoleId>): (r: seq<RoleId>)
    ensures forall z :: z in r <==> exists i :: 0 <= i < |roles| && IsHigherThan(edges, s, roles[i], z)
  {
    if |roles| == 0 then []
    else
      var rest := LowerOfAll(edges, s, roles[1..]);
      assert forall i :: 1 <= i < |roles| ==> roles[i] == roles[1..][i - 1];
      LowerRoles(edges, s, roles[0]) + rest
  }

  lemma {:induction false} LowerOfAllIgnoresEdge(edges: seq<Edge>, e: Edge, s: StoreId, roles: seq<RoleId>)
    requires e.store != s || !e.isActive
    ensures LowerOfAll(edges + [e], s, roles) == LowerOfAll(edges, s, roles)
  {
    if |roles| > 0 {
      IgnoredEdgeKeepsLowerRoles(edges, e, s, roles[0]);
      LowerOfAllIgnoresEdge(edges, e, s, roles[1..]);
    }
  }

  /**
   * getEffectiveRolesForStore: the roles assigned in the store together with every
   * role below one of them, each once.
   */
  function EffectiveRoles(edges: seq<Edge>, assignments: seq<Assignment>, u: UserId, s: StoreId): (r: seq<RoleId>)
    ensures NoDups(r)
    ensures forall z :: z in r <==>
      z in RolesForStore(assignments, u, s) || exists d :: d in RolesForStore(assignments, u, s) && IsHigherThan(edges, s, d, z)
  {
    var direct := RolesForStore(assignments, u, s);
    var lower := LowerOfAll(edges, s, direct);
    assert forall z :: z in lower <==> exists d :: d in direct && IsHigherThan(edges, s, d, z) by {
      forall z | z in lower ensures exists d :: d in direct && IsHigherThan(edges, s, d, z) {
        var i :| 0 <= i < |direct| && IsHigherThan(edges, s, direct[i], z);
      }
    }
    Dedup(direct + lower)
  }

  // ---------------------------------------------------------------------------
  // Permissions

  /** getEffectivePermissionsForStore: the permissions of the effective roles, each once. */
  function EffectivePermissions(edges: seq<Edge>, dir: Directory, assignments: seq<Assignment>, u: UserId, s: StoreId): (r: seq<PermId>)
    ensures NoDups(r)
    ensures forall p :: p in r <==> exists x :: x in EffectiveRoles(edges, assignments, u, s) && p in PermsOf(dir.rolePerms, x)
  {
    var roles := EffectiveRoles(edges, assignments, u, s);
    var all := PermsOfAll(dir.rolePerms, roles);
    assert forall p :: p in all ==> exists x :: x in roles && p in PermsOf(dir.rolePerms, x) by {
      forall p | p in all ensures exists x :: x in roles && p in PermsOf(dir.rolePerms, x) {
        var i :| 0 <= i < |roles| && p in PermsOf(dir.rolePerms, roles[i]);
      }
    }
    Dedup(all)
  }

  /** A permission has a name when the permission table lists it. */
  predicate Named(dir: Directory, p: PermId, name: string) {
    p in dir.permName && dir.permName[p] == name
  }

  /** hasPermissionInStore: some effective permission carries the name. */
  function HasPermissionInStore(edges: seq<Edge>, dir: Directory, assignments: seq<Assignment>, u: UserId, s: StoreId, name: string): (b: bool)
    ensures b <==> exists x, p :: x in EffectiveRoles(edges, assignments, u, s) && p in PermsOf(dir.rolePerms, x) && Named(dir, p, name)
  {
    AnyNamed(dir, EffectivePermissions(edges, dir, assignments, u, s), name)
  }

  /** `->contains('name', $name)`. */
  function AnyNamed(dir: Directory, ps: seq<PermId>, name: string): (b: bool)
    ensures b <==> exists p :: p in ps && Named(dir, p, name)
  {
    if |ps| == 0 then false
    else Named(dir, ps[0], name) || AnyNamed(dir, ps[1..], name)
  }

  /**
   * getRolePermissions: the permissions of the user's global roles, each once
   * (not the direct permissions).
   */
  function RolePermissions(dir: Directory, roles: seq<RoleId>): (r: seq<PermId>)
    ensures NoDups(r)
    ensures forall p :: p in r <==> exists i :: 0 <= i < |roles| && p in PermsOf(dir.rolePerms, roles[i])
  {
    Dedup(PermsOfAll(dir.rolePerms, roles))
  }

  /** getAllPermissions: the permissions via the global roles followed by the direct ones. */
  function AllPermissions(dir: Directory, roles: seq<RoleId>, direct: seq<PermId>): (r: seq<PermId>)
    ensures forall p :: p in r <==> p in direct || exists i :: 0 <= i < |roles| && p in PermsOf(dir.rolePerms, roles[i])
  {
    PermsOfAll(dir.rolePerms, roles) + direct
  }

  // ---------------------------------------------------------------------------
  // Acting on another user

  /** The nested loops of canActOnUserInStore: does some `m` of `mine` outrank some role of `theirs`? */
  function AnyHigher(edges: seq<Edge>, s: StoreId, mine: seq<RoleId>, theirs: seq<RoleId>): (b: bool)
    ensures b <==> exists m, t :: m in mine && t in theirs && IsHigherThan(edges, s, m, t)
  {
    if |mine| == 0 then false
    else OutranksAny(edges, s, mine[0], theirs) || AnyHigher(edges, s, mine[1..], theirs)
  }

  function OutranksAny(edges: seq<Edge>, s: StoreId, m: RoleId, theirs: seq<RoleId>): (b: bool)
    ensures b <==> exists t :: t in theirs && IsHigherThan(edges, s, m, t)
  {
    if |theirs| == 0 then false
    else IsHigherThan(edges, s, m, theirs[0]) || OutranksAny(edges, s, m, theirs[1..])
  }

  /**
   * canActOnUserInStore: some effective role of the actor is higher, in the store,
   * than some effective role of the target.
   */
  function CanActOnUserInStore(edges: seq<Edge>, assignments: seq<Assignment>, actor: UserId, target: UserId, s: StoreId): (b: bool)
    ensures b <==> exists m, t ::
      m in EffectiveRoles(edges, assignments, actor, s) && t in EffectiveRoles(edges, assignments, target, s)
      && IsHigherThan(edges, s, m, t)
  {
    AnyHigher(edges, s, EffectiveRoles(edges, assignments, actor, s), EffectiveRoles(edges, assignments, target, s))
  }

  /**
   * An active assignment of a role that is directly above a role the target holds
   * lets the actor act on the target.
   */
  lemma DirectEdgeLetsActorAct(edges: seq<Edge>, assignments: seq<Assignment>, actor: UserId, target: UserId, e: Edge)
    requires e in edges && e.isActive
    requires Assignment(actor, e.higher, e.store, true, None) in assignments
    requires Assignment(target, e.lower, e.store, true, None) in assignments
    ensures CanActOnUserInStore(edges, assignments, actor, target, e.store)
  {
    ActiveEdgeIsHigher(edges, e);
    assert e.higher in EffectiveRoles(edges, assignments, actor, e.store);
    assert e.lower in EffectiveRoles(edges, assignments, target, e.store);
  }

  /** With no active edge in the store, nobody can act on anybody there. */
  lemma FlatStoreNobodyActs(edges: seq<Edge>, assignments: seq<Assignment>, actor: UserId, target: UserId, s: StoreId)
    requires forall e :: e in edges ==> e.store != s || !e.isActive
    ensures !CanActOnUserInStore(edges, assignments, actor, target, s)
  {
    forall m | true ensures LowerRoles(edges, s, m) == [] {
      LeafHasNoLowerRoles(edges, s, m);
    }
  }

  // ---------------------------------------------------------------------------
  // Store isolation

  /** An edge and an assignment of another store change nothing about store `s`. */
  lemma OtherStoreIsolated(edges: seq<Edge>, assignments: seq<Assignment>, e: Edge, a: Assignment, u: UserId, s: StoreId)
    requires e.store != s && a.store != s
    ensures EffectiveRoles(edges + [e], assignments + [a], u, s) == EffectiveRoles(edges, assignments, u, s)
  {
    RolesForStoreAppend(assignments, [a], u, s);
    assert RolesForStore([a], u, s) == [];
    assert RolesForStore(assignments + [a], u, s) == RolesForStore(assignments, u, s);
    LowerOfAllIgnoresEdge(edges, e, s, RolesForStore(assignments, u, s));
  }

  /** The same holds for the effective permissions. */
  lemma OtherStorePermissionsIsolated(edges: seq<Edge>, dir: Directory, assignments: seq<Assignment>, e: Edge, a: Assignment, u: UserId, s: StoreId)
    requires e.store != s && a.store != s
    ensures EffectivePermissions(edges + [e], dir, assignments + [a], u, s) == EffectivePermissions(edges, dir, assignments, u, s)
  {
    OtherStoreIsolated(edges, assignments, e, a, u, s);
  }

  // ---------------------------------------------------------------------------
  // Store sessions

  /** A `user_store_sessions` row; times are integers. */
  datatype StoreSession = StoreSession(id: nat, user: UserId, store: StoreId, createdAt: int, expiresAt: Option<int>)

  /** UserStoreSession::isExpired: a set expiry strictly in the past. */
  predicate SessionExpired(x: StoreSession, now: int) {
    x.expiresAt.Some? && x.expiresAt.value < now
  }

  /** The query filter of getCurrentStoreSession: the user's, with expiry strictly after now. */
  predicate Live(x: StoreSession, u: UserId, now: int) {
    x.user == u && x.expiresAt.Some? && x.expiresAt.value > now
  }

  /** getCurrentStoreSession: the live session created last (the earliest such row on a tie). */
  function CurrentStoreSession(sessions: seq<StoreSession>, u: UserId, now: int): (r: Option<StoreSession>)
    ensures r.None? <==> forall x :: x in sessions ==> !Live(x, u, now)
    ensures r.Some? ==> r.value in sessions && Live(r.value, u, now)
    ensures r.Some? ==> forall x :: x in sessions && Live(x, u, now) ==> x.createdAt <= r.value.createdAt
  {
    if |sessions| == 0 then None
    else
      var rest := CurrentStoreSession(sessions[1..], u, now);
      assert forall x :: x in sessions <==> x == sessions[0] || x in sessions[1..];
      var x := sessions[0];
      if Live(x, u, now) && (rest.None? || x.createdAt >= rest.value.createdAt) then Some(x) else rest
  }

  /**
   * A session without an expiry never expires, yet is never the current session; nor
   * is one expiring exactly now, which is not expired either.
   */
  lemma OpenEndedSessionNeverCurrent(sessions: seq<StoreSession>, u: UserId, now: int, x: StoreSession)
    requires x in sessions && (x.expiresAt.None? || x.expiresAt == Some(now))
    ensures !SessionExpired(x, now)
    ensures CurrentStoreSession(sessions, u, now) != Some(x)
  {
  }
}

=== FILE: text.dfy ===
/**
 * The PHP string primitives the modelled code relies on: truthiness of a string,
 * `strtoupper`, `trim`, `ltrim` with a character list, `explode`, `implode` and
 * `str_starts_with`. Strings are sequences of characters; byte-level behaviour of
 * multi-byte characters is not modelled.
 */
module Text {
  import opened Wrappers

  /** PHP converts a string to `false` exactly when it is "" or "0". */
  predicate Truthy(s: string) {
    s != "" && s != "0"
  }

  predicate TruthyOpt(s: Option<string>) {
    s.Some? && Truthy(s.value)
  }

  // ---------------------------------------------------------------------------
  // strtoupper (ASCII only, as in PHP 8)

  function UpperChar(c: char): char {
    if 'a' <= c <= 'z' then (c as int - 32) as char else c
  }

  function ToUpper(s: string): (r: string)
    ensures |r| == |s|
    ensures forall i :: 0 <= i < |s| ==> r[i] == UpperChar(s[i])
  {
    if |s| == 0 then "" else [UpperChar(s[0])] + ToUpper(s[1..])
  }

  /** Upper-casing twice is upper-casing once. */
  lemma ToUpperIdempotent(s: string)
    ensures ToUpper(ToUpper(s)) == ToUpper(s)
  {
    var u := ToUpper(s);
    var uu := ToUpper(u);
    assert forall i :: 0 <= i < |s| ==> uu[i] == UpperChar(UpperChar(s[i])) == u[i];
  }

  /** A string with no lower-case ASCII letter is its own upper-case form. */
  lemma ToUpperOfUpper(s: string)
    requires forall i :: 0 <= i < |s| ==> !('a' <= s[i] <= 'z')
    ensures ToUpper(s) == s
  {
  }

  /** Every string of a list upper-cased. */
  function UpperAll(list: seq<string>): (r: seq<string>)
    ensures |r| == |list| && forall i :: 0 <= i < |r| ==> r[i] == ToUpper(list[i])
  {
    if |list| == 0 then [] else [ToUpper(list[0])] + UpperAll(list[1..])
  }

  lemma ToUpperAppend(a: string, b: string)
    ensures ToUpper(a + b) == ToUpper(a) + ToUpper(b)
  {
    var l := ToUpper(a + b);
    var r := ToUpper(a) + ToUpper(b);
    forall i | 0 <= i < |l| ensures l[i] == r[i] {
      if i < |a| { assert (a + b)[i] == a[i]; } else { assert (a + b)[i] == b[i - |a|]; }
    }
  }

  /** A character that is no ASCII letter is its own upper case, and no other character's. */
  predicate NotLetter(c: char) {
    !('a' <= c <= 'z') && !('A' <= c <= 'Z')
  }

  /** Upper-casing a join is joining the upper-cased pieces, for a delimiter that is no letter. */
  lemma {:induction false} UpperJoin(parts: seq<string>, c: char)
    requires NotLetter(c)
    ensures ToUpper(Join(parts, c)) == Join(UpperAll(parts), c)
  {
    if |parts| > 1 {
      UpperJoin(parts[1..], c);
      assert UpperAll(parts)[1..] == UpperAll(parts[1..]);
      ToUpperAppend(parts[0] + [c], Join(parts[1..], c));
      ToUpperAppend(parts[0], [c]);
    }
  }

  /** Upper-casing brings in no character that is no letter. */
  lemma UpperKeepsNoChar(s: string, c: char)
    requires NotLetter(c) && !HasChar(s, c)
    ensures !HasChar(ToUpper(s), c)
  {
    forall i | 0 <= i < |s| ensures ToUpper(s)[i] != c {
      assert s[i] != c;
    }
  }

  /** `explode(c, strtoupper(s))` gives the upper-cased pieces of `explode(c, s)`. */
  lemma SplitUpper(s: string, c: char)
    requires NotLetter(c)
    ensures Split(ToUpper(s), c) == UpperAll(Split(s, c))
  {
    var p := Split(s, c);
    UpperJoin(p, c);
    var u := UpperAll(p);
    forall k | 0 <= k < |u| ensures !HasChar(u[k], c) {
      UpperKeepsNoChar(p[k], c);
    }
    SplitJoin(u, c);
  }

  // ---------------------------------------------------------------------------
  // trim: PHP strips " \t\n\r\0\x0B" from both ends

  predicate IsTrimChar(c: char) {
    c == ' ' || c == '\t' || c == '\n' || c == '\r' || c == '\0' || c as int == 11
  }

  function TrimLeft(s: string): (r: string)
    ensures |r| <= |s| && r == s[|s| - |r|..]
    ensures |r| > 0 ==> !IsTrimChar(r[0])
    ensures forall i :: 0 <= i < |s| - |r| ==> IsTrimChar(s[i])
  {
    if |s| > 0 && IsTrimChar(s[0]) then
      var r := TrimLeft(s[1..]);
      assert forall i :: 1 <= i < |s| ==> s[i] == s[1..][i - 1];
      r
    else s
  }

  function TrimRight(s: string): (r: string)
    ensures |r| <= |s| && r == s[..|r|]
    ensures |r| > 0 ==> !IsTrimChar(r[|r| - 1])
    ensures forall i :: |r| <= i < |s| ==> IsTrimChar(s[i])
  {
    if |s| > 0 && IsTrimChar(s[|s| - 1]) then TrimRight(s[..|s| - 1]) else s
  }

  /** The longest slice of `s` that neither starts nor ends with a trim character. */
  function Trim(s: string): (r: string)
    ensures |r| <= |s|
    ensures |r| > 0 ==> !IsTrimChar(r[0]) && !IsTrimChar(r[|r| - 1])
  {
    TrimRight(TrimLeft(s))
  }

  /** A string whose ends are not trim characters is unchanged by trim. */
  lemma TrimOfTrimmed(s: string)
    requires |s| > 0 ==> !IsTrimChar(s[0]) && !IsTrimChar(s[|s| - 1])
    ensures Trim(s) == s
  {
  }

  /** trim is idempotent. */
  lemma TrimIdempotent(s: string)
    ensures Trim(Trim(s)) == Trim(s)
  {
    TrimOfTrimmed(Trim(s));
  }

  /** A trim character is no letter, so upper-casing keeps exactly the trim characters. */
  lemma UpperTrimChar(c: char)
    ensures IsTrimChar(UpperChar(c)) == IsTrimChar(c)
    ensures IsTrimChar(c) ==> UpperChar(c) == c
  {
  }

  lemma {:induction false} TrimLeftUpper(s: string)
    ensures TrimLeft(ToUpper(s)) == ToUpper(TrimLeft(s))
  {
    if |s| > 0 {
      var u := ToUpper(s);
      UpperTrimChar(s[0]);
      if IsTrimChar(s[0]) {
        assert u[1..] == ToUpper(s[1..]);
        TrimLeftUpper(s[1..]);
      }
    }
  }

  lemma {:induction false} TrimRightUpper(s: string)
    ensures TrimRight(ToUpper(s)) == ToUpper(TrimRight(s))
  {
    if |s| > 0 {
      var u := ToUpper(s);
      UpperTrimChar(s[|s| - 1]);
      if IsTrimChar(s[|s| - 1]) {
        assert u[..|u| - 1] == ToUpper(s[..|s| - 1]);
        TrimRightUpper(s[..|s| - 1]);
      }
    }
  }

  /** trim and strtoupper commute. */
  lemma TrimUpper(s: string)
    ensures Trim(ToUpper(s)) == ToUpper(Trim(s))
  {
    TrimLeftUpper(s);
    TrimRightUpper(TrimLeft(s));
  }

  /** PHP `ltrim($s, $c)` for a one-character list. */
  function DropLeading(s: string, c: char): (r: string)
    ensures |r| <= |s| && r == s[|s| - |r|..]
    ensures |r| > 0 ==> r[0] != c
    ensures forall i :: 0 <= i < |s| - |r| ==> s[i] == c
  {
    if |s| > 0 && s[0] == c then
      var t := s[1..];
      var r := DropLeading(t, c);
      assert t[|t| - |r|..] == s[|s| - |r|..];
      assert forall i :: 1 <= i < |s| ==> s[i] == t[i - 1];
      r
    else s
  }

  // ---------------------------------------------------------------------------
  // str_starts_with, str_contains

  predicate StartsWith(s: string, prefix: string) {
    |prefix| <= |s| && s[..|prefix|] == prefix
  }

  predicate HasChar(s: string, c: char) {
    exists i :: 0 <= i < |s| && s[i] == c
  }

  // ---------------------------------------------------------------------------
  // implode / explode with a one-character delimiter

  /** PHP `implode($c, $parts)`. */
  function Join(parts: seq<string>, c: char): string {
    if |parts| == 0 then ""
    else if |parts| == 1 then parts[0]
    else parts[0] + [c] + Join(parts[1..], c)
  }

  /** PHP `explode($c, $s)`: the pieces between occurrences of `c`, in order. */
  function Split(s: string, c: char): (r: seq<string>)
    ensures |r| >= 1
    ensures forall k :: 0 <= k < |r| ==> !HasChar(r[k], c)
    ensures Join(r, c) == s
  {
    if |s| == 0 then [""]
    else if s[0] == c then
      var rest := Split(s[1..], c);
      assert s == [c] + s[1..];
      [""] + rest
    else
      var rest := Split(s[1..], c);
      var head := [s[0]] + rest[0];
      assert !HasChar(head, c) by {
        forall i | 0 <= i < |head| ensures head[i] != c {
          if i > 0 { assert head[i] == rest[0][i - 1]; }
        }
      }
      var r := [head] + rest[1..];
      assert r[1..] == rest[1..];
      assert s == [s[0]] + s[1..];
      r
  }

  /** explode undoes implode when no piece contains the delimiter. */
  lemma {:induction false} SplitJoin(parts: seq<string>, c: char)
    requires |parts| >= 1
    requires forall k :: 0 <= k < |parts| ==> !HasChar(parts[k], c)
    ensures Split(Join(parts, c), c) == parts
  {
    if |parts| == 1 {
      SplitNoDelimiter(parts[0], c);
    } else {
      SplitJoin(parts[1..], c);
      SplitPrefix(parts[0], Join(parts[1..], c), c);
    }
  }

  lemma {:induction false} SplitNoDelimiter(s: string, c: char)
    requires !HasChar(s, c)
    ensures Split(s, c) == [s]
  {
    if |s| > 0 {
      assert !HasChar(s[1..], c) by {
        forall i | 0 <= i < |s[1..]| ensures s[1..][i] != c {
          assert s[1..][i] == s[i + 1];
        }
      }
      SplitNoDelimiter(s[1..], c);
      assert s[0] != c;
      assert [s[0]] + s[1..] == s;
    }
  }

  lemma {:induction false} SplitPrefix(a: string, b: string, c: char)
    requires !HasChar(a, c)
    ensures Split(a + [c] + b, c) == [a] + Split(b, c)
  {
    var s := a + [c] + b;
    if |a| == 0 {
      assert s[0] == c && s[1..] == b;
      SplitAtDelimiter(s, c);
    } else {
      HasCharTail(a, c);
      var t := s[1..];
      assert t == a[1..] + [c] + b;
      SplitPrefix(a[1..], b, c);
      var rt := Split(t, c);
      assert rt[0] == a[1..] && rt[1..] == Split(b, c);
      SplitAtOther(s, c);
      assert [s[0]] + a[1..] == a;
    }
  }

  /** A text without the character has neither it first nor in its tail. */
  lemma HasCharTail(a: string, c: char)
    requires |a| > 0 && !HasChar(a, c)
    ensures a[0] != c && !HasChar(a[1..], c)
  {
    forall i | 0 <= i < |a[1..]| ensures a[1..][i] != c {
      assert a[1..][i] == a[i + 1];
    }
  }

  /** One step of explode at a leading delimiter. */
  lemma SplitAtDelimiter(s: string, c: char)
    requires |s| > 0 && s[0] == c
    ensures Split(s, c) == [""] + Split(s[1..], c)
  {
  }

  /** One step of explode at a leading character that is not the delimiter. */
  lemma SplitAtOther(s: string, c: char)
    requires |s| > 0 && s[0] != c
    ensures Split(s, c) == [[s[0]] + Split(s[1..], c)[0]] + Split(s[1..], c)[1..]
  {
  }

  // ---------------------------------------------------------------------------
  // explode with a multi-character separator

  /** PHP `implode($sep, $parts)` for a string separator. */
  function JoinOn(parts: seq<string>, sep: string): string {
    if |parts| == 0 then ""
    else if |parts| == 1 then parts[0]
    else parts[0] + sep + JoinOn(parts[1..], sep)
  }

  /** `sep` occurs in `s` starting at position `i`. */
  predicate OccursAt(s: string, sep: string, i: nat) {
    i + |sep| <= |s| && s[i..i + |sep|] == sep
  }

  /** PHP `explode($sep, $s)`: leftmost non-overlapping occurrences split the text. */
  function SplitOn(s: string, sep: string): (r: seq<string>)
    requires |sep| > 0
    ensures |r| >= 1
    ensures JoinOn(r, sep) == s
    decreases |s|
  {
    if |s| < |sep| then [s]
    else if OccursAt(s, sep, 0) then
      var rest := SplitOn(s[|sep|..], sep);
      assert s == sep + s[|sep|..];
      [""] + rest
    else
      var rest := SplitOn(s[1..], sep);
      var r := [[s[0]] + rest[0]] + rest[1..];
      assert r[1..] == rest[1..];
      assert s == [s[0]] + s[1..];
      r
  }

  /** A text in which the separator never occurs is one piece. */
  lemma {:induction false} SplitOnAbsent(s: string, sep: string)
    requires |sep| > 0
    requires forall i: nat :: !OccursAt(s, sep, i)
    ensures SplitOn(s, sep) == [s]
    decreases |s|
  {
    if |s| >= |sep| {
      assert !OccursAt(s, sep, 0);
      forall i: nat ensures !OccursAt(s[1..], sep, i) {
        assert !OccursAt(s, sep, i + 1);
        if i + |sep| <= |s[1..]| {
          assert s[1..][i..i + |sep|] == s[i + 1..i + 1 + |sep|];
        }
      }
      SplitOnAbsent(s[1..], sep);
      assert [s[0]] + s[1..] == s;
    }
  }

  /** implode on two or more pieces: the first piece, the delimiter, the join of the rest. */
  lemma JoinCons(parts: seq<string>, c: char)
    requires |parts| >= 2
    ensures Join(parts, c) == parts[0] + [c] + Join(parts[1..], c)
  {
  }

  /** The first character of a join is the first character of its first piece. */
  lemma JoinFirst(parts: seq<string>, c: char)
    requires |parts| >= 1 && parts[0] != ""
    ensures Join(parts, c) != "" && Join(parts, c)[0] == parts[0][0]
  {
  }

  /** The last character of a join is the last character of its last piece. */
  lemma {:induction false} JoinLast(parts: seq<string>, c: char)
    requires |parts| >= 1 && parts[|parts| - 1] != ""
    ensures var j := Join(parts, c); j != "" && j[|j| - 1] == parts[|parts| - 1][|parts[|parts| - 1]| - 1]
  {
    if |parts| > 1 {
      JoinLast(parts[1..], c);
    }
  }

  /** Appending a piece to a join appends the delimiter and the piece. */
  lemma {:induction false} JoinAppend(parts: seq<string>, x: string, c: char)
    requires |parts| >= 1
    ensures Join(parts + [x], c) == Join(parts, c) + [c] + x
  {
    if |parts| > 1 {
      JoinAppend(parts[1..], x, c);
      assert (parts + [x])[1..] == parts[1..] + [x];
    }
  }
}

=== FILE: token_verify.dfy ===
/**
 * Token introspection for other services
 * (app/Http/Controllers/Api/V1/Auth/TokenVerifyController.php, handle).
 *
 * The calling service is authenticated first; then the presented personal access
 * token ("<id>|<secret>") is looked up, its secret's hash compared and its expiry
 * checked, and for a live token the authorization decision for the described request
 * is attached. The token table is a map from the id text to the token record; the
 * owner's role and permission names are part of the record.
 */
module TokenVerify {
  import opened Wrappers
  import opened Text
  import opened AuthRules
  import opened Resolver
  import opened ServiceClients

  // ---------------------------------------------------------------------------
  // Input normalisation

  /** A `store_context` entry: null, a scalar, or a list. */
  datatype ContextValue = Null | Scalar(text: string) | Items(items: seq<string>)

  /** PHP's `(array)` cast: null is empty, a scalar a one-element list. */
  function AsArray(v: ContextValue): (r: seq<string>)
    ensures v.Null? ==> r == []
    ensures v.Scalar? ==> r == [v.text]
    ensures v.Items? ==> r == v.items
  {
    match v
    case Null => []
    case Scalar(s) => [s]
    case Items(xs) => xs
  }

  /** The normalised context: exactly the keys path, query and body. */
  datatype StoreContext = StoreContext(path: seq<string>, query: seq<string>, body: seq<string>)

  /** One key of the context, an empty list when it is absent. */
  function ContextField(ctx: map<string, ContextValue>, key: string): (r: seq<string>)
    ensures key !in ctx ==> r == []
    ensures key in ctx ==> r == AsArray(ctx[key])
  {
    if key in ctx then AsArray(ctx[key]) else []
  }

  /**
   * The `store_context` input; `None` stands for an absent, null or scalar value,
   * none of which carries the three keys.
   */
  function NormalizeContext(input: Option<map<string, ContextValue>>): (r: StoreContext)
    ensures input.None? ==> r == StoreContext([], [], [])
    ensures input.Some? ==> r.path == ContextField(input.value, "path")
    ensures input.Some? ==> r.query == ContextField(input.value, "query")
    ensures input.Some? ==> r.body == ContextField(input.value, "body")
  {
    match input
    case None => StoreContext([], [], [])
    case Some(ctx) => StoreContext(ContextField(ctx, "path"), ContextField(ctx, "query"), ContextField(ctx, "body"))
  }

  /** The normalised context written back as input. */
  function ContextInput(c: StoreContext): map<string, ContextValue> {
    map["path" := Items(c.path), "query" := Items(c.query), "body" := Items(c.body)]
  }

  /** Normalising a normalised context changes nothing. */
  lemma NormalizeContextIdempotent(input: Option<map<string, ContextValue>>)
    ensures NormalizeContext(Some(ContextInput(NormalizeContext(input)))) == NormalizeContext(input)
  {
    var c := NormalizeContext(input);
    var m := ContextInput(c);
    assert m["path"] == Items(c.path) && m["query"] == Items(c.query) && m["body"] == Items(c.body);
  }

  // ---------------------------------------------------------------------------
  // The token

  /** `explode('|', $s, 2)`: the text before the first `c` and everything after it. */
  function SplitFirst(s: string, c: char): (r: (string, string))
    requires HasChar(s, c)
    ensures s == r.0 + [c] + r.1
    ensures !HasChar(r.0, c)
  {
    if s[0] == c then ("", s[1..])
    else
      assert HasChar(s[1..], c) by {
        var i :| 0 <= i < |s| && s[i] == c;
        assert s[1..][i - 1] == c;
      }
      var rest := SplitFirst(s[1..], c);
      assert !HasChar([s[0]] + rest.0, c) by {
        forall i | 0 <= i < |[s[0]] + rest.0| ensures ([s[0]] + rest.0)[i] != c {
          if i > 0 { assert ([s[0]] + rest.0)[i] == rest.0[i - 1]; }
        }
      }
      assert s == [s[0]] + s[1..];
      ([s[0]] + rest.0, rest.1)
  }

  /** The split is the only one whose first part has no `c`: the secret may contain `c`. */
  lemma {:induction false} SplitFirstOf(a: string, b: string, c: char)
    requires !HasChar(a, c)
    ensures HasChar(a + [c] + b, c)
    ensures SplitFirst(a + [c] + b, c) == (a, b)
  {
    var s := a + [c] + b;
    assert s[|a|] == c;
    if |a| > 0 {
      assert !HasChar(a[1..], c) by {
        forall i | 0 <= i < |a[1..]| ensures a[1..][i] != c {
          assert a[1..][i] == a[i + 1];
        }
      }
      SplitFirstOf(a[1..], b, c);
      assert s[1..] == a[1..] + [c] + b;
      assert a[0] != c;
      assert [a[0]] + a[1..] == a;
    }
  }

  /** The owner of a token, with its global role and permission names. */
  datatype Owner = Owner(id: nat, name: string, email: string, roleNames: seq<string>, permissionNames: seq<string>)

  datatype AccessToken = AccessToken(
    id: nat,
    tokenHash: string,
    abilities: Option<seq<string>>,
    expiresAt: Option<Time>,
    createdAt: Option<Time>,
    owner: Option<Owner>)

  /** The token text names a stored, unexpired, owned token whose secret hashes to the stored hash. */
  predicate TokenLive(tokens: map<string, AccessToken>, token: string, now: Time, hash: string -> string) {
    token != "" && HasChar(token, '|')
    && var (id, secret) := SplitFirst(token, '|');
       id in tokens
       && tokens[id].tokenHash == hash(secret)
       && (tokens[id].expiresAt.Some? ==> now <= tokens[id].expiresAt.value)
       && tokens[id].owner.Some?
  }

  // ---------------------------------------------------------------------------
  // The response

  datatype RequestContext = RequestContext(service: string, httpMethod: string, path: string, routeName: Option<string>)

  /** `ext`: the decision, the store part (always null) and the echoed request. */
  datatype Ext = Ext(authorized: bool, requiredPermissions: seq<string>, grantedBy: GrantedBy, store: Option<string>, context: RequestContext)

  datatype UserSummary = UserSummary(id: nat, name: string, email: string)

  datatype Introspection =
    | Inactive
    | Active(scope: string, tokenType: string, exp: Option<Time>, iat: Option<Time>, sub: nat, aud: string,
             iss: string, jti: nat, user: UserSummary, roles: seq<string>, permissions: seq<string>, ext: Ext)

  /**
   * The request; for `httpMethod` and `path`, `None` is an absent key and a null
   * value arrives as "" after the string cast.
   */
  datatype VerifyRequest = VerifyRequest(
    authorization: Option<string>,
    service: string,
    token: string,
    httpMethod: Option<string>,
    path: Option<string>,
    routeName: Option<string>,
    storeContext: Option<map<string, ContextValue>>)

  function CallerOf(req: VerifyRequest): CallerRequest {
    CallerRequest(req.authorization, req.service)
  }

  /** The described request's verb: upper-cased, GET when absent. */
  function VerbOf(req: VerifyRequest): (v: string)
    ensures req.httpMethod.None? ==> v == "GET"
    ensures req.httpMethod.Some? ==> v == ToUpper(req.httpMethod.value)
  {
    ToUpper(req.httpMethod.GetOr("GET"))
  }

  /** The space-separated scope string of a token's abilities. */
  function Scope(abilities: seq<string>): string {
    Join(abilities, ' ')
  }

  /** The scope string splits back into the abilities when none contains a space. */
  lemma ScopeRoundTrip(abilities: seq<string>)
    requires |abilities| >= 1
    requires forall k :: 0 <= k < |abilities| ==> !HasChar(abilities[k], ' ')
    ensures Split(Scope(abilities), ' ') == abilities
  {
    SplitJoin(abilities, ' ');
  }

  /** The answer for a live token. */
  function ActiveResponse(t: AccessToken, o: Owner, req: VerifyRequest, cfg: AuthzConfig, rules: seq<Rule>, appUrl: string): Introspection {
    var verb := VerbOf(req);
    var path := req.path.GetOr("/");
    var abilities := t.abilities.GetOr([]);
    var d := Check(cfg, rules, req.service, verb, path, req.routeName, o.roleNames, o.permissionNames, abilities);
    Active(Scope(abilities), "access_token", t.expiresAt, t.createdAt, o.id, req.service, appUrl, t.id,
           UserSummary(o.id, o.name, o.email), o.roleNames, o.permissionNames,
           Ext(d.authorized, d.required, d.grantedBy, None, RequestContext(req.service, verb, path, req.routeName)))
  }

  /**
   * handle: a rejected caller gets its 401; otherwise the caller's use is recorded
   * and the token is introspected. Any failed token check gives `{active: false}`.
   */
  function Verify(clients: map<string, ServiceClient>, tokens: map<string, AccessToken>, cfg: AuthzConfig,
                  rules: seq<Rule>, appUrl: string, now: Time, hash: string -> string, req: VerifyRequest)
    : (r: Result<(map<string, ServiceClient>, Introspection), CallerError>)
    ensures r.Failure? <==> Validate(clients, CallerOf(req), now, hash).Failure?
    ensures r.Failure? ==> r.error == Validate(clients, CallerOf(req), now, hash).error
    ensures r.Success? ==> r.value.0 == clients[req.service := Validate(clients, CallerOf(req), now, hash).value]
    ensures r.Success? ==> (r.value.1.Active? <==> TokenLive(tokens, req.token, now, hash))
    ensures r.Success? && r.value.1.Active? ==>
      var t := tokens[SplitFirst(req.token, '|').0];
      var abilities := t.abilities.GetOr([]);
      var d := Check(cfg, rules, req.service, VerbOf(req), req.path.GetOr("/"), req.routeName,
                     t.owner.value.roleNames, t.owner.value.permissionNames, abilities);
      r.value.1.scope == Scope(abilities)
      && r.value.1.ext.authorized == d.authorized
      && r.value.1.ext.requiredPermissions == d.required
      && r.value.1.ext.grantedBy == d.grantedBy
      && r.value.1.ext.store.None?
      && r.value.1.roles == t.owner.value.roleNames
      && r.value.1.permissions == t.owner.value.permissionNames
      && r.value.1.ext.context == RequestContext(req.service, VerbOf(req), req.path.GetOr("/"), req.routeName)
  {
    match Validate(clients, CallerOf(req), now, hash)
    case Failure(e) => Failure(e)
    case Success(c) =>
      var saved := clients[req.service := c];
      var _ := NormalizeContext(req.storeContext);
      if req.token == "" || !HasChar(req.token, '|') then Success((saved, Inactive))
      else
        var (id, secret) := SplitFirst(req.token, '|');
        if id !in tokens then Success((saved, Inactive))
        else
          var t := tokens[id];
          if t.tokenHash != hash(secret) then Success((saved, Inactive))
          else if t.expiresAt.Some? && now > t.expiresAt.value then Success((saved, Inactive))
          else if t.owner.None? then Success((saved, Inactive))
          else Success((saved, ActiveResponse(t, t.owner.value, req, cfg, rules, appUrl)))
  }

  /**
   * What the caller of the as-written handler sees: its own 401, or the exception
   * raised after the caller's use was already recorded.
   */
  datatype VerifyError = CallerRejected(reason: CallerError) | UndefinedOffset(saved: map<string, ServiceClient>)

  /**
   * handle as written: the live-token branch destructures four values from the
   * resolver's three-element answer, and reading the missing fourth raises, so
   * every live token ends in an exception instead of an answer.
   */
  function VerifyAsWritten(clients: map<string, ServiceClient>, tokens: map<string, AccessToken>, cfg: AuthzConfig,
                           rules: seq<Rule>, appUrl: string, now: Time, hash: string -> string, req: VerifyRequest)
    : (r: Result<(map<string, ServiceClient>, Introspection), VerifyError>)
    ensures r.Success? ==> r.value.1.Inactive?
    ensures r.Success? <==> Verify(clients, tokens, cfg, rules, appUrl, now, hash, req).Success? && !TokenLive(tokens, req.token, now, hash)
    ensures r.Success? ==> r.value == Verify(clients, tokens, cfg, rules, appUrl, now, hash, req).value
    ensures (r.Failure? && r.error.CallerRejected?) <==> Validate(clients, CallerOf(req), now, hash).Failure?
    ensures (r.Failure? && r.error.UndefinedOffset?) <==>
              Validate(clients, CallerOf(req), now, hash).Success? && TokenLive(tokens, req.token, now, hash)
    ensures r.Failure? && r.error.UndefinedOffset? ==>
              r.error.saved == clients[req.service := Validate(clients, CallerOf(req), now, hash).value]
  {
    match Validate(clients, CallerOf(req), now, hash)
    case Failure(e) => Failure(CallerRejected(e))
    case Success(c) =>
      var saved := clients[req.service := c];
      var _ := NormalizeContext(req.storeContext);
      if req.token == "" || !HasChar(req.token, '|') then Success((saved, Inactive))
      else
        var (id, secret) := SplitFirst(req.token, '|');
        if id !in tokens then Success((saved, Inactive))
        else
          var t := tokens[id];
          if t.tokenHash != hash(secret) then Success((saved, Inactive))
          else if t.expiresAt.Some? && now > t.expiresAt.value then Success((saved, Inactive))
          else if t.owner.None? then Success((saved, Inactive))
          else Failure(UndefinedOffset(saved))
  }

  /**
   * A token issued as "<id>|<secret>" for a stored, owned, unexpired record with the
   * secret's hash is live whatever the secret contains; a validated caller presenting
   * it gets the active answer from `Verify`, and the exception from the as-written
   * handler.
   */
  lemma IssuedTokenIsActive(clients: map<string, ServiceClient>, tokens: map<string, AccessToken>, cfg: AuthzConfig,
                            rules: seq<Rule>, appUrl: string, now: Time, hash: string -> string, req: VerifyRequest,
                            id: string, secret: string)
    requires req.token == id + "|" + secret
    requires !HasChar(id, '|') && id in tokens
    requires tokens[id].tokenHash == hash(secret) && tokens[id].owner.Some?
    requires tokens[id].expiresAt.Some? ==> now <= tokens[id].expiresAt.value
    ensures TokenLive(tokens, req.token, now, hash)
    ensures Validate(clients, CallerOf(req), now, hash).Success? ==>
              Verify(clients, tokens, cfg, rules, appUrl, now, hash, req).Success?
              && Verify(clients, tokens, cfg, rules, appUrl, now, hash, req).value.1.Active?
              && Verify(clients, tokens, cfg, rules, appUrl, now, hash, req).value.1.sub == tokens[id].owner.value.id
    ensures Validate(clients, CallerOf(req), now, hash).Success? ==>
              VerifyAsWritten(clients, tokens, cfg, rules, appUrl, now, hash, req)
              == Failure(UndefinedOffset(clients[req.service := Validate(clients, CallerOf(req), now, hash).value]))
  {
    SplitFirstOf(id, secret, '|');
  }

  /** A token without a `|` is never live. */
  lemma TokenWithoutBarInactive(tokens: map<string, AccessToken>, token: string, now: Time, hash: string -> string)
    requires !HasChar(token, '|')
    ensures !TokenLive(tokens, token, now, hash)
  {
  }

  /**
   * The store context is normalised but never reaches the decision or the response:
   * two requests that differ only in it get the same answer.
   */
  lemma StoreContextIgnored(clients: map<string, ServiceClient>, tokens: map<string, AccessToken>, cfg: AuthzConfig,
                            rules: seq<Rule>, appUrl: string, now: Time, hash: string -> string, req: VerifyRequest,
                            other: Option<map<string, ContextValue>>)
    ensures Verify(clients, tokens, cfg, rules, appUrl, now, hash, req)
         == Verify(clients, tokens, cfg, rules, appUrl, now, hash, req.(storeContext := other))
  {
  }
}

=== FILE: wrappers.dfy ===
/** Failure-carrying result types shared by every module of the model. */
module Wrappers {

  /** A value that may be absent: PHP's `null`. */
  datatype Option<+T> = None | Some(value: T) {
    function GetOr(default: T): T {
      match this
      case Some(v) => v
      case None => default
    }
  }

  /** Either a value or an error; stands for a thrown exception or an aborted request. */
  datatype Result<+R, +E> = Success(value: R) | Failure(error: E)
}
